=== FILE: README.md ===
# code-judgment runner core, in Dafny

This project models the core of the code-judgment runner: the service that takes a judging request and answers with a verdict. A request carries a language, source code, a time limit, a memory limit and standard input. The runner compiles the code if needed, runs it inside an nsjail sandbox under a GNU `time` measuring wrapper, reads back the peak memory and elapsed time, and classifies the outcome.

The model is functional. Process spawning, waiting, file reads and directory creation are oracle inputs (`Orchestrator.World`), and `run` is a pure function from those answers to an outcome plus a trace of the effects it asked for.

Modules, following the program's structure:

- `Ints`, `Text`: the unsigned decimal numerals of Rust's `u64::from_str`, and the `str::split` / `str::lines` behaviour the parsers rely on. They also provide 64-bit wrap-around (`Ints.Wrap`, what `u64` arithmetic does in a release build; a debug build panics instead) and UTF-8 byte length (`Text.ByteLen`, Rust's `str::len`).
- `MemorySize`: `Memory` (bytes, KiB, MiB), its parser and its `Display`.
- `SchemaTime`: `MsTime`, its constructors, rounding, margins and the `m:ss.mmm` parser.
- `Lang`, `Schema`, `Host`: the language enumeration, the request and verdict types, and what the runner asks of its host (commands, exit statuses, I/O errors, deployment constants).
- `Accounting`: the GNU `time` wrapper's arguments and the two-line report reader (`GTime`).
- `Elapsed`: the text GNU `time` actually writes for `%E` (`m:ss.cc` below an hour, `h:mm:ss` from an hour on), what the reader makes of it, and a reader that accepts both forms.
- `NsJail`: the sandbox builder, the option list `write_args` writes, how the launcher reads that list back, and `build` / `write`.
- `Registry`, `LegacyRegistry`: the language recipes and their table, in the current fallible version and the older infallible one.
- `Orchestrator`: `run` as three phases (prepare, compile, run), the verdict classifier, and the HTTP handler's error-to-`InternalError` mapping.

Behaviour of the code worth noting:

- A report file that cannot be read passes its own I/O error through.
- Compile usage is read and then discarded.
- The fraction after the `.` in the time line is a whole count of milliseconds, so `0:00.5` is 5 ms.
- `u64::from_str` accepts a leading `+`.
- The sandbox command starts with the measuring wrapper (`new_with`), not with the launcher.

## Model

| member | source | states |
|---|---|---|
| Ints.ParseU64Exactly | runner_schema/src/memory.rs:51 | `u64::from_str` accepts exactly an optional `+` and one or more ASCII digits whose value is below 2^64, and then returns that value |
| Ints.ParseShow | runner/src/time.rs:42-44 | a rendered `u64` parses back to itself |
| Ints.ParsePadded | runner-schema/src/time.rs:47-48 | leading zeros do not change a parsed numeral's value |
| Ints.ShowCanonical | runner_schema/src/memory.rs:64-74 | a digit string without leading zeros is the decimal rendering of its value |
| Ints.DigitsArePadded | runner-schema/src/time.rs:47-48 | every digit string is the decimal rendering of its value, left-padded with zeros |
| Text.SplitJoin | runner-schema/src/time.rs:41-43 | splitting on a separator that no piece contains gives back the pieces |
| Text.LinesOfTerminated | runner/src/time.rs:35 | `lines` of newline-terminated lines without `\r` gives back exactly those lines |
| Text.LinesCons | runner/src/time.rs:35-49 | `lines` yields the first line with a trailing `\r` stripped, then the lines of the rest |
| Lang.Repr | runner-schema/src/lang.rs:17-21 | every language has a code from 1 to 3, at its own place in the declaration order |
| Lang.FromRepr | runner-schema/src/lang.rs:17-21 | a code decodes exactly when it is 1, 2 or 3, and the decoded language has that code |
| Lang.ReprRoundTrip | runner-schema/src/lang.rs:17-21 | the integer codes 1, 2, 3 name Rust, Go and Python, and decoding a code gives the language back |
| MemorySize.AsKilobytes | runner_schema/src/memory.rs:24-26 | the KiB count is the floor of bytes over 1024 |
| MemorySize.AsMegabytes | runner_schema/src/memory.rs:28-30 | the MiB count is the floor of bytes over 1048576 |
| MemorySize.NewKilobytes | runner_schema/src/memory.rs:12-14 | the byte count is always a multiple of 1024 and, when it fits in 64 bits, exactly n·1024 with n KiB |
| MemorySize.NewMegabytes | runner_schema/src/memory.rs:16-18 | the byte count is always a multiple of 1 MiB and, when it fits, exactly n·1048576 with n MiB and n·1024 KiB |
| MemorySize.ConversionExamples | runner_schema/src/memory.rs:100-121 | 10 MiB, 10 KiB and 10 B convert to the counts the unit tests expect |
| MemorySize.FromStrAsWritten | runner_schema/src/memory.rs:46-61 | `from_str` as written: under 2 bytes is `ShortLength(s)`; a non-ASCII last character panics; a bad suffix is reported only once the number parses; success scales the number by the suffix's unit, wrapping modulo 2^64 |
| MemorySize.FromStr | runner_schema/src/memory.rs:46-61 | the corrected parser: under 2 characters is `ShortLength(s)`; an invalid suffix is the last character, reported only once the number parses; success is the numeral times 1, 1024 or 1048576 exactly, with no wrap-around |
| MemorySize.AsWrittenAgreesOnAscii | runner_schema/src/memory.rs:46-61 | on ASCII text whose scaled value fits in 64 bits, the code as written and the corrected parser agree |
| MemorySize.UnitOf | runner_schema/src/memory.rs:52-58 | exactly `B`, `K` and `M` are units, and each is its own suffix |
| MemorySize.ParseExamples | runner_schema/src/memory.rs:124-144 | `10M`, `10K` and `10B` parse to 10 of their unit; `10X` and `10` are invalid suffixes `X` and `0`; `1` and the empty string are too short |
| MemorySize.DisplayUnit | runner_schema/src/memory.rs:66-72 | M from 1 MiB up, K from 1 KiB up to 1 MiB, B below 1 KiB |
| MemorySize.ToString | runner_schema/src/memory.rs:64-74 | the rendering is the byte count divided by the display unit's size, rounded down, followed by that unit's letter; which unit is stated by `MemorySize.DisplayUnit`, what parsing it back gives by `MemorySize.DisplayRoundTrip` |
| MemorySize.ToStringAscii | runner_schema/src/memory.rs:64-74 | the rendering is ASCII and at least two characters long |
| MemorySize.DisplayExamples | runner_schema/src/memory.rs:146-151 | 10 MiB, 10 KiB and 10 B display as `10M`, `10K` and `10B` |
| MemorySize.DisplayRoundTrip | runner_schema/src/memory.rs:64-93 | parsing the rendering succeeds with the byte count rounded down to the display unit, so it never exceeds the original; it gives back the original exactly when that is a whole number of its display unit |
| MemorySize.ExactRoundTrip | runner_schema/src/memory.rs:153-174 | a whole number of its display unit survives rendering and parsing, through the corrected parser and the code as written alike |
| MemorySize.NonAsciiSuffixPanics | runner_schema/src/memory.rs:47-50 | `1é` and `é` are at least 2 bytes long, so `split_at` panics on them; the corrected parser reports an invalid suffix or a short string |
| MemorySize.MegabyteOverflowWraps | runner_schema/src/memory.rs:16-18 | a MiB count whose byte value passes 2^64 parses as written to the wrapped value; the corrected parser rejects it |
| MemorySize.MegabyteOverflowWitness | runner_schema/src/memory.rs:16-18 | 17592186044417 MiB wraps to exactly 1 MiB |
| SchemaTime.NewTime | runner-schema/src/time.rs:8-10 | when it fits in 64 bits, the count is seconds·1000 + ms |
| SchemaTime.NewMs | runner-schema/src/time.rs:12-14 | the count is the given milliseconds |
| SchemaTime.NewSeconds | runner-schema/src/time.rs:16-18 | when it fits, the count is seconds·1000 |
| SchemaTime.AsSecondsCeil | runner-schema/src/time.rs:28-30 | the least k with k·1000 ≥ ms: never rounds a fraction down, and 0 only for 0 ms |
| SchemaTime.CeilOfWholeSeconds | runner-schema/src/time.rs:16-18 | whole seconds round to themselves |
| SchemaTime.AddSeconds | runner-schema/src/time.rs:32-34 | when it fits, adds seconds·1000 and is strictly later for a positive margin |
| SchemaTime.AddMs | runner-schema/src/time.rs:36-38 | when it fits, adds ms and is strictly later for a positive margin |
| SchemaTime.FromStrMmSsMs | runner-schema/src/time.rs:40-54 | computes `from_str_mm_ss_ms`; its contract is `SchemaTime.ParsedAs` (the value of `m:s.f` from its fields) and `SchemaTime.ParseRendered` (every rendering parses back), with `SchemaTime.FromStrMmSsMsAccepts` giving when it accepts |
| SchemaTime.FromStrMmSsMsAccepts | runner-schema/src/time.rs:40-54 | parses exactly when the minutes, seconds and fraction fields parse and the fraction is at most 999; the value is (minutes·60 + seconds)·1000 + fraction |
| SchemaTime.ExtraSegmentsIgnored | runner-schema/src/time.rs:41-43 | text after a second `:` does not change the result |
| SchemaTime.FirstTwoPieces | runner-schema/src/time.rs:41-43 | the result depends only on the first two `:`-separated pieces |
| SchemaTime.ParseRendered | runner-schema/src/time.rs:40-54 | every time rendered as `m:ss.mmm` parses back to itself |
| SchemaTime.ClockOfFields | runner-schema/src/time.rs:52-53 | minutes, seconds within the minute and milliseconds recombine to the count |
| SchemaTime.ParsedAs | runner-schema/src/time.rs:41-53 | `m:s.f` with separator-free fields splits into those fields and, when they parse, yields their combined value |
| SchemaTime.ExampleMinutesSeconds | runner-schema/src/time.rs:40-54 | `01:02.345` is 62345 ms |
| SchemaTime.ExampleUnboundedSeconds | runner-schema/src/time.rs:47 | seconds are not bounded by 59: `0:75.000` is 75000 ms |
| SchemaTime.ExampleMillisCount | runner-schema/src/time.rs:48 | the fraction is a count of milliseconds: `0:00.5` is 5 ms |
| SchemaTime.ExampleMillisBound | runner-schema/src/time.rs:49-51 | a fraction above 999 is rejected |
| Accounting.NewCmd | runner/src/time.rs:12-16 | the wrapper program with exactly its own fixed arguments |
| Accounting.Write | runner/src/time.rs:18-21 | appends the wrapper program and then its fixed arguments, keeping what was there |
| Accounting.ReadLines | runner/src/time.rs:35-53 | no lines at all is exactly the missing-memory error; a successful read saw at least two lines and reports whole KiB |
| Accounting.WrapperWritesWhatReadReads | runner/src/time.rs:10-33 | the wrapper writes its report to `time.txt`, the file the reader opens, in the two-line format memory then time |
| Accounting.Read | runner/src/time.rs:32-54 | an unreadable file passes its error through; empty text is a missing memory line; a successful read saw at least two lines and reports whole KiB |
| Accounting.ReadErrors | runner/src/time.rs:39-51 | each of the four error messages arises exactly in its own case: no first line, first line not a `u64`, no second line, second line not a time |
| Accounting.ReadValues | runner/src/time.rs:46-53 | on success the memory is the first line's KiB and the time is the second line's parse |
| Accounting.ReadSeesTwoLines | runner/src/time.rs:35-53 | texts that agree on their first two lines read the same |
| Accounting.ReadIgnoresLaterLines | runner/src/time.rs:35-53 | lines after the second are never looked at |
| Accounting.ReadFirstLines | runner/src/time.rs:39-53 | a KiB numeral line and a rendered time line read back as those values |
| Accounting.ReadReport | runner/src/time.rs:32-54 | a two-line report whose time line is in the parser's own `m:ss.mmm` form, with any trailing text, reads back as the memory and time it records (GNU `time`'s real `%E` text is treated under `Elapsed`) |
| Accounting.ReadReportCrlf | runner/src/time.rs:35 | that same `m:ss.mmm` report with `\r\n` line ends reads the same, since `lines` strips the `\r` |
| Elapsed.BelowHourAsWritten | runner-schema/src/time.rs:40-54 | below an hour GNU `time` writes `%E` as `m:ss.cc`; the parser accepts it but reads the two hundredths digits as milliseconds, giving seconds·1000 plus hundredths |
| Elapsed.FromHourAsWritten | runner-schema/src/time.rs:43-46 | from an hour on `%E` is `h:mm:ss`; its second `:`-piece has no `.`, so the parser rejects it |
| Elapsed.ReadGnuReportAsWritten | runner/src/time.rs:47-51 | the reader as written, given GNU `time`'s real report: below an hour it yields the hundredths-as-milliseconds time, from an hour on it fails with `Invalid time line` |
| Elapsed.ExampleHalfSecondAsWritten | runner/src/time.rs:47-51 | a report of 1.50 s (`0:01.50`) reads as 1050 ms instead of 1500 ms |
| Elapsed.ExampleHourAsWritten | runner/src/time.rs:47-51 | a report of one hour (`1:00:00`) is rejected as an invalid time line |
| Elapsed.ElapsedRoundTrip | runner-schema/src/time.rs:40-54 | the corrected parser reads both `%E` forms back: below an hour to the elapsed time rounded down to hundredths, from an hour on to the whole seconds |
| Elapsed.ReadCorrected | runner/src/time.rs:32-54 | the corrected reader fails exactly as the original does on every error other than an unparsable time line, and still reports whole KiB |
| Elapsed.ReadGnuReport | runner/src/time.rs:32-54 | the corrected reader, given GNU `time`'s real report with any trailing text, yields the KiB count and the elapsed time in both `%E` forms |
| NsJail.New | runner/src/nsjail.rs:21-28 | all four settings start unset |
| NsJail.SetTimeLimit | runner/src/nsjail.rs:30-33 | sets the time limit and leaves the other settings alone |
| NsJail.SetMemoryLimit | runner/src/nsjail.rs:35-38 | sets the memory limit and leaves the other settings alone |
| NsJail.SetPath | runner/src/nsjail.rs:40-43 | sets the path and leaves the other settings alone |
| NsJail.SetCwd | runner/src/nsjail.rs:45-48 | sets the working directory and leaves the other settings alone |
| NsJail.SettersOverwriteAndCommute | runner/src/nsjail.rs:30-48 | the last call of a setter wins, and setters of different settings commute |
| NsJail.WriteArgs | runner/src/nsjail.rs:61-109 | computes `write_args`; what it writes is stated by `NsJail.WrittenWords`, `NsJail.TimeLimitOption`, `NsJail.MemoryLimitOptions`, `NsJail.PathOption`, `NsJail.ChrootOption` and `NsJail.AlwaysConfined` |
| NsJail.WrittenWords | runner/src/nsjail.rs:61-109 | the arguments always start with the 14 fixed words (privilege drop to 99999, one CPU, cgroup v2 detection, `/proc` and five namespaces disabled) and end with `--` |
| NsJail.FixedWords | runner/src/nsjail.rs:62-74 | the fixed and disabling options render to exactly those 14 words |
| NsJail.ReadRendered | runner/src/nsjail.rs:61-109 | the launcher reads a well-formed rendered option list back exactly, whatever command follows it |
| NsJail.OptionsWellFormed | runner/src/nsjail.rs:61-109 | every option list the builder writes has known options only, with `--` last and nowhere else |
| NsJail.LauncherReadsOptions | runner/src/nsjail.rs:61-109 | the launcher, reading the written arguments and any command after them, sees exactly the builder's options |
| NsJail.OptionsEndWithMarker | runner/src/nsjail.rs:108 | the last option written is `--` |
| NsJail.OnlySegment | runner/src/nsjail.rs:61-109 | each setting other than `-R` is written by one group only, so its value and count in the whole list are that group's |
| NsJail.TimeLimitOption | runner/src/nsjail.rs:76-80 | `--time_limit` is present exactly when a time limit is set, once, with the limit's seconds rounded up |
| NsJail.MemoryLimitOptions | runner/src/nsjail.rs:82-89 | `--cgroup_mem_max` and `--rlimit_as` are present exactly when a memory limit is set, with the exact byte count and the whole MiB plus 5 |
| NsJail.MemoryLookups | runner/src/nsjail.rs:82-89 | the two memory settings' values as written, and their absence without a limit |
| NsJail.RlimitAboveCgroup | runner/src/nsjail.rs:84-88 | the address-space ceiling, in bytes, exceeds the cgroup ceiling by more than 4 MiB |
| NsJail.ChrootOption | runner/src/nsjail.rs:96-101 | exactly one `--chroot`: the working directory when set, otherwise `/` |
| NsJail.PathOption | runner/src/nsjail.rs:91-94 | `PATH` is set and the path mounted read-only exactly when a path is set |
| NsJail.AlwaysConfined | runner/src/nsjail.rs:62-104 | whatever the settings: user and group 99999, one CPU, every disabling switch, and the store and bin mounted read-only |
| NsJail.Build | runner/src/nsjail.rs:50-54 | the launcher is the program, it reads exactly the builder's options from the arguments, and the working directory is the builder's |
| NsJail.Write | runner/src/nsjail.rs:56-59 | keeps the command's program and arguments, appends the launcher and its options, and moves into the builder's working directory if one is set |
| NsJail.WriteMatchesBuild | runner/src/nsjail.rs:50-59 | writing into a fresh command gives the same launcher arguments as building |
| NsJail.Finalize | runner/src/lib.rs:55-74 | a sandbox built around a wrapper keeps the wrapper as its program, otherwise the launcher runs directly; the extra directives are carried through |
| NsJail.FinalizeWrapped | runner/src/lib.rs:55-74 | a wrapped sandbox's arguments are the wrapper's, then the launcher, then the written options |
| Registry.DefaultOption | runner/src/runner/mod.rs:46-50 | the default option has no compile hook and no run hook |
| Registry.FileName | runner/src/runner/mod.rs:58-64 | present exactly for recipes that are not inline, and then the recipe's file name |
| Registry.CompileCmd | runner/src/runner/mod.rs:66-72 | present exactly for compiled recipes, and then the recipe's compile command |
| Registry.RunCmd | runner/src/runner/mod.rs:74-80 | built from the code exactly for inline recipes, otherwise the recipe's fixed command unchanged |
| Registry.OptionOf | runner/src/runner/mod.rs:82-88 | the recipe's own option, whatever the variant |
| Registry.AccessorsAgree | runner/src/runner/mod.rs:58-80 | a compiled recipe writes a file, and a recipe writes a file exactly when its run command is fixed |
| Registry.RustRecipe | runner/src/runner/rust.rs:3-10 | Rust compiles `main.rs` with `rustc -O main.rs -o main`, runs `./main`, and has no hooks |
| Registry.PythonRecipe | runner/src/runner/python.rs:3-9 | Python writes `main.py`, is not compiled, runs `python main.py`, and has no hooks |
| Registry.Go | runner/src/runner/go.rs:64-74 | computes `go()` from the warm-up's outcome; its contract is `Registry.GoRecipe` |
| Registry.GoRecipe | runner/src/runner/go.rs:64-74 | Go builds `main.go` into `./main`; its compile hook sets `GOCACHE=/go-cache` and mounts it read-write; it has no run hook |
| Registry.LangIntoRunner | runner/src/runner/mod.rs:91-97 | computes `lang_into_runner`; its contract is `Registry.NewRunnersSpec` and `Registry.OnlyGoCanFail` |
| Registry.NewRunners | runner/src/runner/mod.rs:17-21 | computes `Runners::new`; its contract is `Registry.NewRunnersSpec` and `Registry.OnlyGoCanFail` |
| Registry.Get | runner/src/runner/mod.rs:23-25 | computes `Runners::get`; its contract is `Registry.NewRunnersSpec` and `Registry.TableRecipes` |
| Registry.NewRunnersSpec | runner/src/runner/mod.rs:15-97 | the table is built exactly when every language's recipe is; it then answers each language with that language's recipe, and otherwise names the failing language with its error |
| Registry.OnlyGoCanFail | runner/src/runner/mod.rs:91-97 | only the Go recipe can fail, so the table is built exactly when Go's build-cache warm-up succeeds |
| Registry.TableRecipes | runner/src/runner/mod.rs:91-97 | in a built table every language writes a file, Rust and Go compile, and Python does not |
| LegacyRegistry.LegacyTable | runner/src/lang/runner/mod.rs:68-96 | no language runs inline, every language writes a file with a fixed run command, and exactly Rust and Go compile |
| LegacyRegistry.LegacyHooks | runner/src/lang/runner/mod.rs:77-94 | Go's compile hook sets `HOME=/` and mounts `/go-cache` read-write at `/.cache`; Rust and Python use the default option |
| LegacyRegistry.LegacyAgreesWithCurrent | runner/src/lang/runner/mod.rs:34-96 | against the current table, Rust and Python are identical and Go differs only in its compile hook |
| Orchestrator.Workspace | runner/src/lib.rs:174-175 | the working directory is the run's identifier under `/running` |
| Orchestrator.RunText | runner/src/lib.rs:97-100 | the run command is the code rendered by an inline recipe, otherwise the recipe's fixed command |
| Orchestrator.ReportedCode | runner/src/lib.rs:155 | the exit code is the process's own, or 137 when it was killed by a signal |
| Orchestrator.Classify | runner/src/lib.rs:135-171 | over the time limit is `Timeout` whatever the memory; otherwise over the memory limit is `MemoryLimit`; within both, a failed exit is `RuntimeError` and a successful one `Success`; each carries the measured values and output |
| Orchestrator.Respond | runner/src/main.rs:43-55 | the answer is `InternalError` exactly when the run failed or itself reported an internal error, and otherwise the run's state |
| Orchestrator.Run | runner/src/lib.rs:28-172 | computes `run` as prepare, compile and run phases; its contract is the `Orchestrator` lemmas below, from `Orchestrator.PrepareSpec` to `Orchestrator.RespondToRun` |
| Orchestrator.RunPhase | runner/src/lib.rs:97-171 | computes the run phase; its contract is `Orchestrator.RunPhaseSpawns`, `Orchestrator.RunPhaseOutcome` and `Orchestrator.RunPhaseSuccess` |
| Orchestrator.CompileSandbox | runner/src/lib.rs:55-72 | computes the compile sandbox; its contract is `Orchestrator.CompileLimitsFromOption` and `Orchestrator.SandboxesMeasured` |
| Orchestrator.RunSandbox | runner/src/lib.rs:102-113 | computes the run sandbox; its contract is `Orchestrator.RunCeilingsAboveLimits` and `Orchestrator.SandboxesMeasured` |
| Orchestrator.AddMegabyte | runner/src/lib.rs:107 | when the sum fits in 64 bits, the memory is exactly 1 MiB larger |
| Orchestrator.PrepareSpec | runner/src/lib.rs:39-47 | preparation goes on exactly when the directory is made, handed over and written as needed; it spawns nothing and stops only with an error |
| Orchestrator.WorkspaceFailureStops | runner/src/lib.rs:174-179 | failing to create or hand over the working directory ends the run with that error at once |
| Orchestrator.SourceWrittenIffFileName | runner/src/lib.rs:43-47 | the source is written to the recipe's file in the working directory exactly when the recipe has a file name |
| Orchestrator.CompilePhaseSpawns | runner/src/lib.rs:52-95 | the compile phase spawns the compile job exactly when there is a compile command, and stops with a verdict only as `CompileError` with the failed compiler's stderr |
| Orchestrator.CompileJobShape | runner/src/lib.rs:82-94 | the compile job opens with its spawn and spawns nothing else; its only verdict is the failed compiler's `CompileError` |
| Orchestrator.CompileRunsIffCompileCmd | runner/src/lib.rs:52-122 | once prepared, the first sandbox spawned is the compile sandbox exactly when the recipe compiles; otherwise the only sandbox is the run sandbox |
| Orchestrator.CompileErrorHaltsRun | runner/src/lib.rs:88-94 | a `CompileError` comes only from a compiled recipe whose compiler exited unsuccessfully, carries its stderr, and the program is never spawned |
| Orchestrator.FailedCompileIsCompileError | runner/src/lib.rs:82-94 | conversely, a compiler that ran, was measured and failed yields exactly that `CompileError` |
| Orchestrator.CompileUsageIgnored | runner/src/lib.rs:85-87 | what a readable compile report says never changes the run's outcome or trace |
| Orchestrator.CompileLimitsFromOption | runner/src/lib.rs:55-68 | the compile sandbox's time and memory ceilings come from the runner's options, not the request, and it is rooted in the working directory |
| Orchestrator.RunPhaseSpawns | runner/src/lib.rs:102-122 | the run phase spawns the run job with the run command and nothing else |
| Orchestrator.RunPhaseOutcome | runner/src/lib.rs:118-171 | the run phase fails with the first error among spawn, input pipe, input write, wait and report read; otherwise its verdict is the classification of what was measured |
| Orchestrator.RunPhaseNeverCompileError | runner/src/lib.rs:135-171 | the run phase never reports a compile error or an internal error |
| Orchestrator.RunPhaseSuccess | runner/src/lib.rs:163-171 | a successful run phase exited successfully within both limits and reports its stdout and measurements |
| Orchestrator.SuccessWithinLimits | runner/src/lib.rs:135-171 | a run that ends in `Success` measured no more than the request's limits and reports the program's own output and measurements |
| Orchestrator.RunCeilingsAboveLimits | runner/src/lib.rs:106-149 | the run sandbox's kill ceilings lie strictly above the limits the verdict is judged by: more whole seconds than the time limit, and the memory limit plus 1 MiB |
| Orchestrator.SandboxesMeasured | runner/src/lib.rs:55-113 | both sandboxes run under the measuring wrapper in the working directory, with the recipe's hook applied after the fixed configuration |
| Orchestrator.ScriptedLaunch | runner/src/lib.rs:115-116 | a scripted sandbox runs the wrapper in the working directory writing the report that is read back; the launcher sees exactly the builder's options; the shell script comes last, after `--` |
| Orchestrator.ScriptedArgs | runner/src/lib.rs:115-116 | the arguments are the wrapper's, then the launcher and its options, then the shell, `-c` and the script |
| Orchestrator.RespondToRun | runner/src/lib.rs:28-172 | the answer to a run is `InternalError` exactly when the run failed with an error, and otherwise the run's verdict |

## Left out

- Effects: ULID generation, `create_dir`, `chown`, `fs::write`, spawning, the stdin pipe, `wait_with_output` and reading `time.txt` are oracle answers in `Orchestrator.World`, not performed. The verdict's text fields are the oracle's strings, so `from_utf8_lossy` is not modelled.
- Logging, the axum/tokio HTTP server, signal handling and the global state in runner/src/main.rs. Only the handler's mapping of an error to `InternalError` is modelled (`Orchestrator.Respond`).
- The builder methods that runner/src/lib.rs, runner/src/runner/go.rs and runner/src/lang/runner/mod.rs call but runner/src/nsjail.rs does not define: `new_with`, `env`, `mount_ro`, `mount_rw`, `mount_rw_dest`, `proc_writable`, `tmpfsmount`, `writable`, `arg`, `log`. They are uninterpreted `NsJail.Directive` values kept in order in the sandbox. Their launcher flags are not stated.
- `new_with(cmd)` followed by `build()` is modelled as `write(cmd)` (runner/src/nsjail.rs:56-59): the wrapped program comes first and the launcher after it.
- The Go recipe's build-cache warm-up (runner/src/runner/go.rs:21-62) does directory, ownership and process I/O. Its result is the `Outcome` parameter of `Registry.Go`. The model follows the `?` in runner/src/runner/mod.rs:94, which treats the recipe as fallible. As written, `go()` returns a recipe rather than a `Result` and panics on any failed warm-up step (runner/src/runner/go.rs:21-61), and runner/src/main.rs:24 stores `Runners::new()` without handling an error. The model turns that abort into `Failure(message)`.
- The deployment constants (`NSJAIL_CMD`, `TIME_CMD`, `SH_CMD`, `NIX_STORE_PATH`, `NIX_BIN`) are fields of `Host.Env`, as is each language's variant name used by `runner_path` / `bin_path`.
- `add_megabytes` (runner/src/lib.rs:107) is modelled by `Orchestrator.AddMegabyte` as adding 1 MiB with 64-bit wrap-around.
- `MsTime::as_seconds` (floating point), the serde implementations beyond their delegation to `Display` / `FromStr`, and the `include_proto` schema.
- The stale copies runner_schema/src/state.rs, web.rs and lang.rs. The hyphenated crate's versions are modelled instead.
- The `ParseIntError` payload of `InvalidNumber`, which is not observable through the verdict.
- The orderings derived for `Memory` and `MsTime` are modelled by definition as comparisons of the counts (`MemorySize.Less`, `SchemaTime.Less`), with no separate lemma.
- What nsjail and GNU `time` actually enforce and measure, and any concurrency between requests.
- MemorySize.NewKilobytes: does not require the product to fit in 64 bits. It states the exact value only when it fits, and otherwise only that the wrapped result is a multiple of 1024, because the code multiplies with wrap-around.
- MemorySize.NewMegabytes: states the exact value only when the product fits in 64 bits, for the same reason.
- SchemaTime.NewTime: states the exact value only when `seconds·1000 + ms` fits in 64 bits; beyond that the count wraps.
- SchemaTime.NewSeconds: states the exact value only when `seconds·1000` fits in 64 bits.
- SchemaTime.AddSeconds: states the sum and the strict increase only when the sum fits in 64 bits.
- SchemaTime.AddMs: states the sum and the strict increase only when the sum fits in 64 bits.
- Orchestrator.RunCeilingsAboveLimits: states the ceilings only when the request's limit plus its margin fits in 64 bits, since the margins wrap.
- Orchestrator.AddMegabyte: states the sum only when it fits in 64 bits.
- Release build: the wrap-around of `MemorySize.NewKilobytes`, `MemorySize.NewMegabytes`, `SchemaTime.NewTime`, `SchemaTime.NewSeconds`, `SchemaTime.AddSeconds`, `SchemaTime.AddMs` and `Orchestrator.AddMegabyte`, and the megabyte overflow finding, are what a release build does. A debug build panics on the same overflow instead; that is not modelled.
- Elapsed.ReadCorrected: its contract states agreement with the original reader on every other error and the KiB property; its values on GNU `time`'s own reports are stated by `Elapsed.ReadGnuReport`, not for arbitrary text.

## Findings

| source | as written | input that shows it | evidently intended | confidence | as-written member | corrected member |
|---|---|---|---|---|---|---|
| runner_schema/src/memory.rs:47-50 | the length check and `split_at(s.len() - 1)` count bytes, so a multi-byte last character makes `split_at` cut inside it and panic | `"1é"` (3 bytes) | report `InvalidSuffix("é")`, as for any other non-unit suffix | not executed | MemorySize.NonAsciiSuffixPanics | MemorySize.FromStr |
| runner_schema/src/memory.rs:16-18, 55 | `num * 1024 * 1024` wraps past 2^64 in a release build, so an oversized count parses to a small memory | `"17592186044417M"` parses as 1 MiB | reject a count whose byte value does not fit, as `InvalidNumber` | not executed | MemorySize.MegabyteOverflowWraps | MemorySize.FromStr |
| runner-schema/src/time.rs:40-54 | the time line is parsed as `m:ss.mmm`, but the wrapper asks GNU `time` for `%E`, which is `m:ss.cc` below an hour and `h:mm:ss` from an hour on: hundredths are read as milliseconds, and any run of an hour or more is rejected | `0:01.50` reads as 1050 ms; `1:00:00` is `Invalid time line` | read both `%E` forms: hundredths times 10, and `h:mm:ss` as whole seconds (the corrected reader also rejects a total that does not fit in 64 bits rather than wrapping it) | not executed | Elapsed.ReadGnuReportAsWritten | Elapsed.ReadGnuReport |

=== FILE: elapsed.dfy ===
/** What GNU `time` writes for the `%E` directive of the report format, what
    the time-line parser makes of it, and a reader that reads both forms
    `%E` takes. */
module Elapsed {
  import opened Wrappers
  import opened Text
  import opened Ints
  import opened MemorySize
  import opened SchemaTime
  import opened Host
  import opened Accounting

  /** GNU `time`'s `%E` for a wall-clock time of `seconds` whole seconds and
      `millis` further milliseconds: below one hour `minutes:ss.cc`, the
      fraction in hundredths of a second; from one hour on `hours:mm:ss`,
      with no fraction at all. */
  function ElapsedText(seconds: nat, millis: nat): string
    requires millis < 1000
  {
    if seconds < 3600 then
      ShowNat(seconds / 60) + ":" + PadLeft(ShowNat(seconds % 60), 2) + "." + PadLeft(ShowNat(millis / 10), 2)
    else
      ShowNat(seconds / 3600) + ":" + PadLeft(ShowNat(seconds % 3600 / 60), 2) + ":" + PadLeft(ShowNat(seconds % 60), 2)
  }

  /** The file the wrapper writes for the `%M\n%E` format: the peak memory in
      KiB on one line and the elapsed time on the next. */
  function GnuReport(kb: u64, seconds: nat, millis: nat): string
    requires millis < 1000
  {
    ShowNat(kb) + "\n" + ElapsedText(seconds, millis) + "\n"
  }

  // As written: the parser expects `m:ss.mmm`.

  /** Below one hour the parser takes the hundredths for milliseconds, so the
      time it yields falls short of the printed one whenever the fraction is
      not zero. */
  lemma BelowHourAsWritten(seconds: nat, millis: nat)
    requires seconds < 3600 && millis < 1000
    ensures FromStrMmSsMs(ElapsedText(seconds, millis)) == Some(MsTime(seconds * 1000 + millis / 10))
  {
    var m, s, cc := seconds / 60, seconds % 60, millis / 10;
    var a, b, c := ShowNat(m), PadLeft(ShowNat(s), 2), PadLeft(ShowNat(cc), 2);
    PaddedValue(ShowNat(s), 2);
    PaddedValue(ShowNat(cc), 2);
    DigitsHaveNoSeparator(a);
    DigitsHaveNoSeparator(b);
    DigitsHaveNoSeparator(c);
    ParseShow(m);
    ParsePadded(s, 2);
    ParsePadded(cc, 2);
    ParsedAs(a, b, c, m, s, cc);
    assert ElapsedText(seconds, millis) == a + ":" + b + "." + c;
    MinuteClock(seconds, millis);
  }

  /** The clock fields of a time below one hour, with hundredths in the
      millisecond field. */
  lemma MinuteClock(seconds: nat, millis: nat)
    requires seconds < 3600 && millis < 1000
    ensures ClockTime(seconds / 60, seconds % 60, millis / 10) == MsTime(seconds * 1000 + millis / 10)
  {
    var m, s := seconds / 60, seconds % 60;
    assert m * 60 + s == seconds;
    assert (m * 60 + s) * 1000 + millis / 10 == seconds * 1000 + millis / 10;
  }

  /** From one hour on the parser refuses the text: the piece after the first
      `:` holds no `.`. */
  lemma FromHourAsWritten(seconds: nat, millis: nat)
    requires seconds >= 3600 && millis < 1000
    ensures FromStrMmSsMs(ElapsedText(seconds, millis)) == None
  {
    var a, b, c := ShowNat(seconds / 3600), PadLeft(ShowNat(seconds % 3600 / 60), 2), PadLeft(ShowNat(seconds % 60), 2);
    PaddedValue(ShowNat(seconds % 3600 / 60), 2);
    DigitsHaveNoSeparator(a);
    DigitsHaveNoSeparator(b);
    ExtraSegmentsIgnored(a, b, c);
    SplitTwo(a, b);
    OnePiece(b, '.');
  }

  /** The reader on the report GNU `time` writes: below one hour it succeeds
      with hundredths counted as milliseconds; from one hour on it fails with
      the invalid-time error. */
  lemma ReadGnuReportAsWritten(kb: u64, seconds: nat, millis: nat, rest: string)
    requires millis < 1000
    ensures seconds < 3600 ==>
      Read(Success(GnuReport(kb, seconds, millis) + rest)) ==
        Success(Usage(NewKilobytes(kb), MsTime(seconds * 1000 + millis / 10)))
    ensures seconds >= 3600 ==>
      Read(Success(GnuReport(kb, seconds, millis) + rest)) == Failure(InvalidDataError(INVALID_TIME))
  {
    var a, b := ShowNat(kb), ElapsedText(seconds, millis);
    ReportLines(kb, seconds, millis, rest);
    ParseShow(kb);
    if seconds < 3600 {
      BelowHourAsWritten(seconds, millis);
    } else {
      FromHourAsWritten(seconds, millis);
    }
    assert ReadLines(Lines(GnuReport(kb, seconds, millis) + rest)) == Read(Success(GnuReport(kb, seconds, millis) + rest));
  }

  /** One and a half seconds, `0:01.50` in the report, reads as 1050 ms. */
  lemma ExampleHalfSecondAsWritten(kb: u64, rest: string)
    ensures Read(Success(GnuReport(kb, 1, 500) + rest)) == Success(Usage(NewKilobytes(kb), MsTime(1050)))
  {
    var seconds, millis := 1, 500;
    ReadGnuReportAsWritten(kb, seconds, millis, rest);
    assert seconds * 1000 + millis / 10 == 1050;
  }

  /** One hour, `1:00:00` in the report, is an invalid time line. */
  lemma ExampleHourAsWritten(kb: u64, rest: string)
    ensures Read(Success(GnuReport(kb, 3600, 0) + rest)) == Failure(InvalidDataError(INVALID_TIME))
  {
    ReadGnuReportAsWritten(kb, 3600, 0, rest);
  }

  // Corrected: a parser for both forms of `%E`.

  /** Reads `minutes:ss.cc` (the fraction exactly two digits, in hundredths)
      or `hours:mm:ss`; any other shape, and a total beyond 64 bits, is
      `None`. */
  function FromStrElapsed(s: string): (r: Option<MsTime>)
  {
    var parts := Split(s, ':');
    if |parts| == 2 then FromMinutes(parts[0], parts[1])
    else if |parts| == 3 then FromHours(parts[0], parts[1], parts[2])
    else None
  }

  /** `minutes` and `ss.cc`. */
  function FromMinutes(minutes: string, ssCc: string): Option<MsTime> {
    var pieces := Split(ssCc, '.');
    if |pieces| != 2 || |pieces[1]| != 2 then None
    else if ParseU64(minutes).None? || ParseU64(pieces[0]).None? || ParseU64(pieces[1]).None? then None
    else Exact(MinutesMs(ParseU64(minutes).value, ParseU64(pieces[0]).value, ParseU64(pieces[1]).value))
  }

  /** `hours`, `mm` and `ss`. */
  function FromHours(hours: string, mm: string, ss: string): Option<MsTime> {
    if ParseU64(hours).None? || ParseU64(mm).None? || ParseU64(ss).None? then None
    else Exact(HoursMs(ParseU64(hours).value, ParseU64(mm).value, ParseU64(ss).value))
  }

  /** The milliseconds in `minutes:seconds.hundredths`. */
  function MinutesMs(minutes: nat, seconds: nat, hundredths: nat): nat {
    (minutes * 60 + seconds) * 1000 + hundredths * 10
  }

  /** The milliseconds in `hours:minutes:seconds`. */
  function HoursMs(hours: nat, minutes: nat, seconds: nat): nat {
    ((hours * 60 + minutes) * 60 + seconds) * 1000
  }

  /** A millisecond count as a time, when it fits in 64 bits. */
  function Exact(ms: nat): (r: Option<MsTime>)
    ensures r.Some? <==> ms < U64_LIMIT
    ensures r.Some? ==> AsMs(r.value) == ms
  {
    if ms < U64_LIMIT then Some(MsTime(ms)) else None
  }

  lemma ExactValue(ms: nat)
    requires ms < U64_LIMIT
    ensures Exact(ms) == Some(MsTime(ms))
  {
  }

  /** The corrected parser reads back every time GNU `time` prints, to the
      precision it prints: hundredths below one hour, whole seconds from one
      hour on. */
  lemma ElapsedRoundTrip(seconds: nat, millis: nat)
    requires millis < 1000 && seconds * 1000 < U64_LIMIT
    ensures FromStrElapsed(ElapsedText(seconds, millis)) ==
      Some(MsTime(if seconds < 3600 then seconds * 1000 + millis / 10 * 10 else seconds * 1000))
  {
    if seconds < 3600 {
      BelowHourRoundTrip(seconds, millis);
    } else {
      FromHourRoundTrip(seconds, millis);
    }
  }

  lemma BelowHourRoundTrip(seconds: nat, millis: nat)
    requires seconds < 3600 && millis < 1000
    ensures FromStrElapsed(ElapsedText(seconds, millis)) == Some(MsTime(seconds * 1000 + millis / 10 * 10))
  {
    BelowHourFields(seconds, millis);
    MinutesTotal(seconds, millis, FromStrElapsed(ElapsedText(seconds, millis)));
  }

  lemma MinutesTotal(seconds: nat, millis: nat, r: Option<MsTime>)
    requires seconds < 3600 && millis < 1000
    requires r == Exact(MinutesMs(seconds / 60, seconds % 60, millis / 10))
    ensures r == Some(MsTime(seconds * 1000 + millis / 10 * 10))
  {
    MinuteArithmetic(seconds, millis);
    ExactValue(seconds * 1000 + millis / 10 * 10);
  }

  /** Below one hour the corrected parser reads the minute, second and
      hundredth fields back. */
  lemma BelowHourFields(seconds: nat, millis: nat)
    requires seconds < 3600 && millis < 1000
    ensures FromStrElapsed(ElapsedText(seconds, millis)) == Exact(MinutesMs(seconds / 60, seconds % 60, millis / 10))
  {
    var m, s, cc := seconds / 60, seconds % 60, millis / 10;
    var a, b, c := ShowNat(m), PadLeft(ShowNat(s), 2), PadLeft(ShowNat(cc), 2);
    MinuteShape(seconds, millis);
    MinutesRead(ElapsedText(seconds, millis), a, b + "." + c, b, c, m, s, cc);
  }

  /** The pieces of the text below one hour and the numbers they denote. */
  lemma MinuteShape(seconds: nat, millis: nat)
    requires seconds < 3600 && millis < 1000
    ensures var a, b, c := ShowNat(seconds / 60), PadLeft(ShowNat(seconds % 60), 2), PadLeft(ShowNat(millis / 10), 2);
      && Split(ElapsedText(seconds, millis), ':') == [a, b + "." + c] && Split(b + "." + c, '.') == [b, c] && |c| == 2
      && ParseU64(a) == Some(seconds / 60) && ParseU64(b) == Some(seconds % 60) && ParseU64(c) == Some(millis / 10)
  {
    var a, b, c := ShowNat(seconds / 60), PadLeft(ShowNat(seconds % 60), 2), PadLeft(ShowNat(millis / 10), 2);
    MinuteNumerals(seconds, millis);
    MinutePieces(ElapsedText(seconds, millis), a, b, c);
  }

  /** The three numerals of the text below one hour. */
  lemma MinuteNumerals(seconds: nat, millis: nat)
    requires seconds < 3600 && millis < 1000
    ensures var a, b, c := ShowNat(seconds / 60), PadLeft(ShowNat(seconds % 60), 2), PadLeft(ShowNat(millis / 10), 2);
      && ':' !in a && ':' !in b && ':' !in c && '.' !in b && '.' !in c && |c| == 2
      && ParseU64(a) == Some(seconds / 60) && ParseU64(b) == Some(seconds % 60) && ParseU64(c) == Some(millis / 10)
  {
    var m, s, cc := seconds / 60, seconds % 60, millis / 10;
    var a, b, c := ShowNat(m), PadLeft(ShowNat(s), 2), PadLeft(ShowNat(cc), 2);
    PaddedValue(ShowNat(s), 2);
    PaddedValue(ShowNat(cc), 2);
    DigitsHaveNoSeparator(a);
    DigitsHaveNoSeparator(b);
    DigitsHaveNoSeparator(c);
    ShortNumeral(cc);
    ParseShow(m);
    ParsePadded(s, 2);
    ParsePadded(cc, 2);
  }

  /** The `:`- and `.`-pieces of a text `a:b.c`. */
  lemma MinutePieces(text: string, a: string, b: string, c: string)
    requires text == a + ":" + b + "." + c
    requires ':' !in a && ':' !in b && ':' !in c && '.' !in b && '.' !in c
    ensures Split(text, ':') == [a, b + "." + c]
    ensures Split(b + "." + c, '.') == [b, c]
  {
    var ssCc := b + "." + c;
    assert ':' !in ssCc by {
      assert forall i | 0 <= i < |ssCc| :: ssCc[i] == '.' || ssCc[i] in b || ssCc[i] in c;
    }
    assert text == a + ":" + ssCc;
    SplitTwo(a, ssCc);
    SplitDot(b, c);
  }

  lemma MinutesRead(text: string, a: string, ssCc: string, b: string, c: string, m: u64, s: u64, cc: u64)
    requires Split(text, ':') == [a, ssCc] && Split(ssCc, '.') == [b, c] && |c| == 2
    requires ParseU64(a) == Some(m) && ParseU64(b) == Some(s) && ParseU64(c) == Some(cc)
    ensures FromStrElapsed(text) == Exact(MinutesMs(m, s, cc))
  {
    TwoPieces(text, a, ssCc);
    MinutesValue(a, ssCc, b, c, m, s, cc);
  }

  lemma TwoPieces(text: string, a: string, ssCc: string)
    requires Split(text, ':') == [a, ssCc]
    ensures FromStrElapsed(text) == FromMinutes(a, ssCc)
  {
  }

  lemma MinutesValue(a: string, ssCc: string, b: string, c: string, m: u64, s: u64, cc: u64)
    requires Split(ssCc, '.') == [b, c] && |c| == 2
    requires ParseU64(a) == Some(m) && ParseU64(b) == Some(s) && ParseU64(c) == Some(cc)
    ensures FromMinutes(a, ssCc) == Exact(MinutesMs(m, s, cc))
  {
  }

  lemma MinuteArithmetic(seconds: nat, millis: nat)
    requires seconds < 3600 && millis < 1000
    ensures MinutesMs(seconds / 60, seconds % 60, millis / 10) == seconds * 1000 + millis / 10 * 10
    ensures seconds * 1000 + millis / 10 * 10 < U64_LIMIT
  {
  }

  lemma FromHourRoundTrip(seconds: nat, millis: nat)
    requires seconds >= 3600 && millis < 1000 && seconds * 1000 < U64_LIMIT
    ensures FromStrElapsed(ElapsedText(seconds, millis)) == Some(MsTime(seconds * 1000))
  {
    var h, m, s := seconds / 3600, seconds % 3600 / 60, seconds % 60;
    var a, b, c := ShowNat(h), PadLeft(ShowNat(m), 2), PadLeft(ShowNat(s), 2);
    PaddedValue(ShowNat(m), 2);
    PaddedValue(ShowNat(s), 2);
    DigitsHaveNoSeparator(a);
    DigitsHaveNoSeparator(b);
    DigitsHaveNoSeparator(c);
    ParseShow(h);
    ParsePadded(m, 2);
    ParsePadded(s, 2);
    HourPieces(ElapsedText(seconds, millis), a, b, c);
    HoursRead(ElapsedText(seconds, millis), a, b, c, h, m, s);
    HourArithmetic(seconds);
    assert HoursMs(h, m, s) == seconds * 1000;
    ExactValue(seconds * 1000);
  }

  /** The `:`-pieces of a text `a:b:c`. */
  lemma HourPieces(text: string, a: string, b: string, c: string)
    requires text == a + ":" + b + ":" + c
    requires ':' !in a && ':' !in b && ':' !in c
    ensures Split(text, ':') == [a, b, c]
  {
    SplitJoin([a, b, c], ':');
    assert Join([a, b, c], ':') == a + [':'] + (b + [':'] + c);
    Regroup(a, b, c);
  }

  lemma HoursRead(text: string, a: string, b: string, c: string, h: u64, m: u64, s: u64)
    requires Split(text, ':') == [a, b, c]
    requires ParseU64(a) == Some(h) && ParseU64(b) == Some(m) && ParseU64(c) == Some(s)
    ensures FromStrElapsed(text) == Exact(HoursMs(h, m, s))
  {
    ThreePieces(text, a, b, c);
    HoursValue(a, b, c, h, m, s);
  }

  lemma ThreePieces(text: string, a: string, b: string, c: string)
    requires Split(text, ':') == [a, b, c]
    ensures FromStrElapsed(text) == FromHours(a, b, c)
  {
  }

  lemma HoursValue(a: string, b: string, c: string, h: u64, m: u64, s: u64)
    requires ParseU64(a) == Some(h) && ParseU64(b) == Some(m) && ParseU64(c) == Some(s)
    ensures FromHours(a, b, c) == Exact(HoursMs(h, m, s))
  {
  }

  /** Hours, minutes and seconds put back together. */
  lemma HourArithmetic(seconds: nat)
    ensures (seconds / 3600 * 60 + seconds % 3600 / 60) * 60 + seconds % 60 == seconds
  {
    var h, r := seconds / 3600, seconds % 3600;
    var q, t := r / 60, r % 60;
    assert seconds == h * 3600 + r;
    assert r == q * 60 + t;
    MinuteOfSum(h * 60 + q, t);
  }

  lemma MinuteOfSum(k: nat, t: nat)
    requires t < 60
    ensures (k * 60 + t) % 60 == t
  {
  }

  /** The reader with the corrected time parser. It differs from `Read` only
      on the time line. */
  function ReadCorrected(file: Result<string, IoError>): (r: Result<Usage, IoError>)
    ensures Read(file).Failure? && Read(file).error != InvalidDataError(INVALID_TIME) ==> r == Read(file)
    ensures r.Success? ==> AsBytes(r.value.memory) % KIB == 0
  {
    match file
    case Failure(_) => Read(file)
    case Success(text) =>
      var ls := Lines(text);
      if |ls| >= 2 && ParseU64(ls[0]).Some? then
        match FromStrElapsed(ls[1])
        case None => Failure(InvalidDataError(INVALID_TIME))
        case Some(time) => Success(Usage(NewKilobytes(ParseU64(ls[0]).value), time))
      else Read(file)
  }

  /** The corrected reader recovers the peak memory and the printed elapsed
      time from every report GNU `time` writes, whatever follows it. */
  lemma ReadGnuReport(kb: u64, seconds: nat, millis: nat, rest: string)
    requires millis < 1000 && seconds * 1000 < U64_LIMIT
    ensures ReadCorrected(Success(GnuReport(kb, seconds, millis) + rest)) ==
      Success(Usage(NewKilobytes(kb), MsTime(if seconds < 3600 then seconds * 1000 + millis / 10 * 10 else seconds * 1000)))
  {
    ReportLines(kb, seconds, millis, rest);
    ParseShow(kb);
    ElapsedRoundTrip(seconds, millis);
  }

  /** The first two lines of a report are the memory numeral and the `%E` text. */
  lemma ReportLines(kb: u64, seconds: nat, millis: nat, rest: string)
    requires millis < 1000
    ensures |Lines(GnuReport(kb, seconds, millis) + rest)| >= 2
    ensures Lines(GnuReport(kb, seconds, millis) + rest)[0] == ShowNat(kb)
    ensures Lines(GnuReport(kb, seconds, millis) + rest)[1] == ElapsedText(seconds, millis)
  {
    var a, b := ShowNat(kb), ElapsedText(seconds, millis);
    DigitLineHasNoBreak(a);
    ElapsedHasNoBreak(seconds, millis);
    assert GnuReport(kb, seconds, millis) + rest == a + "\n" + b + "\n" + rest;
    TwoLines(a, b, rest);
    assert StripCr(a) == a && StripCr(b) == b;
  }

  lemma ElapsedHasNoBreak(seconds: nat, millis: nat)
    requires millis < 1000
    ensures '\n' !in ElapsedText(seconds, millis) && '\r' !in ElapsedText(seconds, millis)
  {
    if seconds < 3600 {
      PaddedValue(ShowNat(seconds % 60), 2);
      PaddedValue(ShowNat(millis / 10), 2);
      DigitLineHasNoBreak(ShowNat(seconds / 60));
      DigitLineHasNoBreak(PadLeft(ShowNat(seconds % 60), 2));
      DigitLineHasNoBreak(PadLeft(ShowNat(millis / 10), 2));
    } else {
      PaddedValue(ShowNat(seconds % 3600 / 60), 2);
      PaddedValue(ShowNat(seconds % 60), 2);
      DigitLineHasNoBreak(ShowNat(seconds / 3600));
      DigitLineHasNoBreak(PadLeft(ShowNat(seconds % 3600 / 60), 2));
      DigitLineHasNoBreak(PadLeft(ShowNat(seconds % 60), 2));
    }
  }

  /** A numeral below 100 pads to exactly two digits. */
  lemma ShortNumeral(n: nat)
    requires n < 100
    ensures |PadLeft(ShowNat(n), 2)| == 2
  {
    if n >= 10 {
      assert ShowNat(n) == ShowNat(n / 10) + [DigitChar(n % 10)];
    }
  }

  /** A text without the separator is a single piece. */
  lemma OnePiece(s: string, sep: char)
    requires sep !in s
    ensures Split(s, sep) == [s]
  {
    SplitJoin([s], sep);
    assert Join([s], sep) == s;
  }
}

=== FILE: gtime.dfy ===
/** The resource-accounting wrapper (GNU `time`): the arguments that make it
    write peak memory and elapsed time to a file, and the reader of that file. */
module Accounting {
  import opened Wrappers
  import opened Text
  import opened Ints
  import opened MemorySize
  import opened SchemaTime
  import opened Host

  /** The file the wrapper writes its report to, inside the working directory. */
  const TIME_TXT: string := "time.txt"

  /** The report format: peak resident memory in KiB (`%M`), a newline, then
      the elapsed wall-clock time (`%E`). */
  const FORMAT: string := "%M\n%E"

  /** `GTime::write_args`. */
  function WrapperArgs(): seq<string> {
    ["--quiet", "--format", FORMAT, "--output", TIME_TXT]
  }

  /** `GTime::new_cmd`: the wrapper as the program, with its arguments. */
  function NewCmd(env: Env): (c: Command)
    ensures c.program == env.timeCmd && c.args == WrapperArgs() && c.currentDir == None
  {
    WithArgs(NewCommand(env.timeCmd), WrapperArgs())
  }

  /** `GTime::write`: the wrapper and its arguments appended to a command. */
  function Write(c: Command, env: Env): (r: Command)
    ensures r.program == c.program && r.currentDir == c.currentDir
    ensures r.args == c.args + [env.timeCmd] + WrapperArgs()
  {
    WithArgs(c, [env.timeCmd] + WrapperArgs())
  }

  /** The value a wrapper argument list gives to `--output`, if any. */
  function OutputFile(args: seq<string>): Option<string>
    decreases |args|
  {
    if |args| < 2 then None
    else if args[0] == "--output" then Some(args[1])
    else if args[0] == "--format" then OutputFile(args[2..])
    else OutputFile(args[1..])
  }

  /** The value a wrapper argument list gives to `--format`, if any. */
  function FormatOf(args: seq<string>): Option<string>
    decreases |args|
  {
    if |args| < 2 then None
    else if args[0] == "--format" then Some(args[1])
    else if args[0] == "--output" then FormatOf(args[2..])
    else FormatOf(args[1..])
  }

  /** The wrapper writes the very file the reader opens, one line per
      measurement, memory first and time second: the order `Read` expects. */
  lemma WrapperWritesWhatReadReads(env: Env)
    ensures OutputFile(NewCmd(env).args) == Some(TIME_TXT)
    ensures FormatOf(NewCmd(env).args) == Some(FORMAT)
    ensures Lines(FORMAT) == ["%M", "%E"]
  {
    WrapperFlags();
    FormatLines();
  }

  lemma WrapperFlags()
    ensures OutputFile(WrapperArgs()) == Some(TIME_TXT)
    ensures FormatOf(WrapperArgs()) == Some(FORMAT)
  {
    var args := WrapperArgs();
    assert args[1..] == ["--format", FORMAT, "--output", TIME_TXT];
    assert args[1..][2..] == ["--output", TIME_TXT];
  }

  lemma FormatLines()
    ensures Lines(FORMAT) == ["%M", "%E"]
  {
    assert FORMAT == "%M" + "\n" + "%E";
    LinesCons("%M", "%E");
    assert Lines("%E") == ["%E"];
  }

  /** What the wrapper measured: peak memory and elapsed time. */
  datatype Usage = Usage(memory: Memory, time: MsTime)

  const MISSING_MEMORY: string := "Missing memory line"
  const INVALID_MEMORY: string := "Invalid memory line"
  const MISSING_TIME: string := "Missing time line"
  const INVALID_TIME: string := "Invalid time line"

  function InvalidDataError(message: string): IoError {
    IoError(InvalidData, message)
  }

  /** `GTime::read`, given the outcome of reading the report file: line one is
      the peak memory in KiB, line two the elapsed time as
      `minutes:seconds.millis`; later lines are not looked at. A read failure
      is passed on, and each malformed or missing line is its own
      `InvalidData` error. */
  function Read(file: Result<string, IoError>): (r: Result<Usage, IoError>)
    ensures file.Failure? ==> r == Failure(file.error)
    ensures file.Success? ==> (r == Failure(InvalidDataError(MISSING_MEMORY)) <==> file.value == "")
    ensures r.Success? ==> AsBytes(r.value.memory) % KIB == 0
    ensures r.Success? ==> file.Success? && |Lines(file.value)| >= 2
  {
    match file
    case Failure(e) => Failure(e)
    case Success(text) => ReadLines(Lines(text))
  }

  /** The reader's work on the report's lines. */
  function ReadLines(lines: seq<string>): (r: Result<Usage, IoError>)
    ensures r == Failure(InvalidDataError(MISSING_MEMORY)) <==> |lines| == 0
    ensures r.Success? ==> |lines| >= 2 && AsBytes(r.value.memory) % KIB == 0
  {
    if |lines| == 0 then Failure(InvalidDataError(MISSING_MEMORY))
    else
      match ParseU64(lines[0])
      case None => Failure(InvalidDataError(INVALID_MEMORY))
      case Some(kb) =>
        var memory := NewKilobytes(kb);
        if |lines| < 2 then Failure(InvalidDataError(MISSING_TIME))
        else
          match FromStrMmSsMs(lines[1])
          case None => Failure(InvalidDataError(INVALID_TIME))
          case Some(time) => Success(Usage(memory, time))
  }

  /** Each error of the reader, in terms of the report's lines: it fails on
      the first line that is missing or malformed, and succeeds exactly when
      both lines are well formed. */
  lemma ReadErrors(text: string)
    ensures var ls := Lines(text);
      && (Read(Success(text)) == Failure(InvalidDataError(INVALID_MEMORY)) <==>
            |ls| >= 1 && ParseU64(ls[0]).None?)
      && (Read(Success(text)) == Failure(InvalidDataError(MISSING_TIME)) <==>
            |ls| == 1 && ParseU64(ls[0]).Some?)
      && (Read(Success(text)) == Failure(InvalidDataError(INVALID_TIME)) <==>
            |ls| >= 2 && ParseU64(ls[0]).Some? && FromStrMmSsMs(ls[1]).None?)
      && (Read(Success(text)).Success? <==>
            |ls| >= 2 && ParseU64(ls[0]).Some? && FromStrMmSsMs(ls[1]).Some?)
  {
    LineErrors(Lines(text));
  }

  lemma LineErrors(ls: seq<string>)
    ensures && (ReadLines(ls) == Failure(InvalidDataError(INVALID_MEMORY)) <==>
                  |ls| >= 1 && ParseU64(ls[0]).None?)
            && (ReadLines(ls) == Failure(InvalidDataError(MISSING_TIME)) <==>
                  |ls| == 1 && ParseU64(ls[0]).Some?)
            && (ReadLines(ls) == Failure(InvalidDataError(INVALID_TIME)) <==>
                  |ls| >= 2 && ParseU64(ls[0]).Some? && FromStrMmSsMs(ls[1]).None?)
            && (ReadLines(ls).Success? <==>
                  |ls| >= 2 && ParseU64(ls[0]).Some? && FromStrMmSsMs(ls[1]).Some?)
  {
  }

  /** On success the memory is the first line read as KiB and the time is the
      second line read as a clock time. */
  lemma ReadValues(text: string)
    requires Read(Success(text)).Success?
    ensures var ls := Lines(text);
      && ParseU64(ls[0]).Some?
      && Read(Success(text)).value == Usage(NewKilobytes(ParseU64(ls[0]).value), FromStrMmSsMs(ls[1]).value)
  {
  }

  /** The reader looks at the first two lines only. */
  lemma ReadSeesTwoLines(text: string, text': string)
    requires |Lines(text)| >= 2 && |Lines(text')| >= 2
    requires Lines(text)[0] == Lines(text')[0] && Lines(text)[1] == Lines(text')[1]
    ensures Read(Success(text)) == Read(Success(text'))
  {
    SameTwoLines(Lines(text), Lines(text'));
  }

  lemma SameTwoLines(ls: seq<string>, ls': seq<string>)
    requires |ls| >= 2 && |ls'| >= 2 && ls[0] == ls'[0] && ls[1] == ls'[1]
    ensures ReadLines(ls) == ReadLines(ls')
  {
  }

  /** The first two lines of a text that starts with two `\n`-terminated lines. */
  lemma TwoLines(first: string, second: string, rest: string)
    requires '\n' !in first && '\n' !in second
    ensures |Lines(first + "\n" + second + "\n" + rest)| >= 2
    ensures Lines(first + "\n" + second + "\n" + rest)[0] == StripCr(first)
    ensures Lines(first + "\n" + second + "\n" + rest)[1] == StripCr(second)
  {
    assert first + "\n" + second + "\n" + rest == first + "\n" + (second + "\n" + rest);
    LinesCons(first, second + "\n" + rest);
    LinesCons(second, rest);
  }

  /** Lines after the second never change the result. */
  lemma ReadIgnoresLaterLines(memoryLine: string, timeLine: string, rest: string)
    requires '\n' !in memoryLine && '\n' !in timeLine
    ensures Read(Success(memoryLine + "\n" + timeLine + "\n" + rest)) == Read(Success(memoryLine + "\n" + timeLine + "\n"))
  {
    TwoLines(memoryLine, timeLine, rest);
    TwoLines(memoryLine, timeLine, "");
    assert memoryLine + "\n" + timeLine + "\n" + "" == memoryLine + "\n" + timeLine + "\n";
    ReadSeesTwoLines(memoryLine + "\n" + timeLine + "\n" + rest, memoryLine + "\n" + timeLine + "\n");
  }

  /** A report whose time line is in the parser's own `m:ss.mmm` form (seconds
      padded to two digits, milliseconds to three), for a peak of `kb` KiB and
      a time `t`. GNU `time` itself writes `%E` differently; see `Elapsed`. */
  function Report(kb: u64, t: MsTime, newline: string): string {
    ShowNat(kb) + newline + ToStrMmSsMs(t) + newline
  }

  /** A text whose first two lines are the numeral of `kb` and the clock text of `t`. */
  lemma ReadFirstLines(text: string, kb: u64, t: MsTime)
    requires |Lines(text)| >= 2 && Lines(text)[0] == ShowNat(kb) && Lines(text)[1] == ToStrMmSsMs(t)
    ensures Read(Success(text)) == Success(Usage(NewKilobytes(kb), t))
  {
    ReadRenderedLines(Lines(text), kb, t);
  }

  lemma ReadRenderedLines(ls: seq<string>, kb: u64, t: MsTime)
    requires |ls| >= 2 && ls[0] == ShowNat(kb) && ls[1] == ToStrMmSsMs(t)
    ensures ReadLines(ls) == Success(Usage(NewKilobytes(kb), t))
  {
    ParseShow(kb);
    ParseRendered(t);
  }

  /** The reader recovers the measurements from a report whose time line is
      in `m:ss.mmm` form, whatever follows its two lines. */
  lemma ReadReport(kb: u64, t: MsTime, rest: string)
    ensures Read(Success(Report(kb, t, "\n") + rest)) == Success(Usage(NewKilobytes(kb), t))
  {
    var a, b := ShowNat(kb), ToStrMmSsMs(t);
    DigitLineHasNoBreak(a);
    TimeLineHasNoBreak(t);
    assert Report(kb, t, "\n") + rest == a + "\n" + b + "\n" + rest;
    TwoLines(a, b, rest);
    assert StripCr(a) == a && StripCr(b) == b;
    ReadFirstLines(Report(kb, t, "\n") + rest, kb, t);
  }

  /** The same with `\r\n` line ends, which `str::lines` also accepts. */
  lemma ReadReportCrlf(kb: u64, t: MsTime, rest: string)
    ensures Read(Success(Report(kb, t, "\r\n") + rest)) == Success(Usage(NewKilobytes(kb), t))
  {
    var a, b := ShowNat(kb), ToStrMmSsMs(t);
    DigitLineHasNoBreak(a);
    TimeLineHasNoBreak(t);
    var ar, br := a + "\r", b + "\r";
    assert Report(kb, t, "\r\n") + rest == a + "\r\n" + b + "\r\n" + rest;
    CrlfRegroup(a, b, rest);
    assert '\n' !in ar && '\n' !in br;
    TwoLines(ar, br, rest);
    assert StripCr(ar) == a && StripCr(br) == b;
    ReadFirstLines(Report(kb, t, "\r\n") + rest, kb, t);
  }

  lemma CrlfRegroup(a: string, b: string, rest: string)
    ensures a + "\r\n" + b + "\r\n" + rest == (a + "\r") + "\n" + (b + "\r") + "\n" + rest
  {
    assert "\r\n" == "\r" + "\n";
  }

  lemma DigitLineHasNoBreak(a: string)
    requires AllDigits(a)
    ensures '\n' !in a && '\r' !in a && (|a| > 0 ==> a[|a| - 1] != '\r')
  {
    assert forall i | 0 <= i < |a| :: IsDigit(a[i]);
  }

  lemma TimeLineHasNoBreak(t: MsTime)
    ensures '\n' !in ToStrMmSsMs(t) && '\r' !in ToStrMmSsMs(t)
  {
    var a := ShowNat(t.ms / 60000);
    var b := PadLeft(ShowNat((t.ms / 1000) % 60), 2);
    var c := PadLeft(ShowNat(t.ms % 1000), 3);
    PaddedValue(ShowNat((t.ms / 1000) % 60), 2);
    PaddedValue(ShowNat(t.ms % 1000), 3);
    DigitLineHasNoBreak(a);
    DigitLineHasNoBreak(b);
    DigitLineHasNoBreak(c);
  }
}

=== FILE: host.dfy ===
/** What the runner asks of its host: process commands, exit statuses, I/O
    errors, and the deployment constants it is configured with. */
module Host {
  import opened Wrappers
  import opened Ints
  import opened MemorySize
  import opened SchemaTime
  import opened Lang

  /** A process to spawn (`std::process::Command`): the program, its
      arguments in order, and the working directory when one is set. */
  datatype Command = Command(program: string, args: seq<string>, currentDir: Option<string>)

  function NewCommand(program: string): (c: Command)
    ensures c.program == program && c.args == [] && c.currentDir == None
  {
    Command(program, [], None)
  }

  /** Appends arguments to a command, keeping those it already has. */
  function WithArgs(c: Command, more: seq<string>): (r: Command)
    ensures r.program == c.program && r.currentDir == c.currentDir
    ensures |r.args| == |c.args| + |more|
    ensures r.args[..|c.args|] == c.args && r.args[|c.args|..] == more
  {
    c.(args := c.args + more)
  }

  /** How a waited-for process ended: with an exit code, or killed by a signal. */
  datatype ExitStatus = Exited(code: i32) | Signaled(signal: int)

  /** `ExitStatus::success`. */
  predicate Succeeded(status: ExitStatus) {
    status == Exited(0)
  }

  /** `ExitStatus::code`: present only for a normal exit. */
  function ExitCode(status: ExitStatus): (r: Option<i32>)
    ensures r.Some? <==> status.Exited?
    ensures Succeeded(status) ==> r == Some(0)
  {
    match status
    case Exited(code) => Some(code)
    case Signaled(_) => None
  }

  /** What `wait_with_output` collects, with the captured byte streams already
      decoded (`String::from_utf8_lossy`). */
  datatype ProcessOutput = ProcessOutput(status: ExitStatus, stdout: string, stderr: string)

  datatype IoErrorKind = InvalidData | Other | OsError(code: int)

  /** `std::io::Error`: a kind and a message. */
  datatype IoError = IoError(kind: IoErrorKind, message: string)

  /** The runner's only error: a failed I/O operation (`Error::IO`). */
  datatype Error = IO(cause: IoError)

  /** Deployment constants the runner is built with: the launcher, the
      measuring wrapper and the shell programs, the read-only store paths, and
      the name under which each language's toolchain is installed. */
  datatype Env = Env(
    nsjailCmd: string,
    timeCmd: string,
    shCmd: string,
    nixStorePath: string,
    nixBin: string,
    variantName: Language -> string)

  /** Limits the compile phase runs under (`RunnerOption`). */
  datatype RunnerOption = RunnerOption(compileTimeLimit: MsTime, compileMemoryLimit: Memory)

  const RUNNER_PATH: string := "/runner"

  const RUNNING_PATH: string := "/running"

  /** `Path::join` of a relative name onto a directory. */
  function JoinPath(dir: string, name: string): (p: string)
    ensures |p| == |dir| + 1 + |name|
    ensures p[..|dir|] == dir && p[|dir|] == '/' && p[|dir| + 1..] == name
  {
    dir + "/" + name
  }

  /** `LangExt::runner_path`: where a language's toolchain is installed. */
  function RunnerPath(env: Env, lang: Language): string {
    JoinPath(RUNNER_PATH, env.variantName(lang))
  }

  /** `LangExt::bin_path`: the toolchain's executables. */
  function BinPath(env: Env, lang: Language): (p: string)
    ensures p == JoinPath(RunnerPath(env, lang), "bin")
  {
    RunnerPath(env, lang) + "/bin"
  }
}

=== FILE: ints.dfy ===
/** Machine integers and their decimal text form: Rust's `u64`, `i32`,
    `u64::to_string` and `str::parse::<u64>`. */
module Ints {
  import opened Wrappers
  import opened Text

  const U64_LIMIT: nat := 0x1_0000_0000_0000_0000

  type u64 = x: int | 0 <= x < U64_LIMIT

  type i32 = x: int | -0x8000_0000 <= x < 0x8000_0000

  /** Unchecked `u64` arithmetic as a release build performs it: the exact
      result reduced modulo 2^64. */
  function Wrap(x: nat): (r: u64)
    ensures x < U64_LIMIT ==> r == x
    ensures r <= x
  {
    x % U64_LIMIT
  }

  function DigitValue(c: char): (d: nat)
    requires IsDigit(c)
    ensures d < 10
  {
    c as int - '0' as int
  }

  function DigitChar(d: nat): (c: char)
    requires d < 10
    ensures IsDigit(c) && DigitValue(c) == d
  {
    ('0' as int + d) as char
  }

  function Pow10(k: nat): (p: nat)
    ensures p >= 1
  {
    if k == 0 then 1 else 10 * Pow10(k - 1)
  }

  /** Value of a string of ASCII digits, most significant first; leading
      zeros are allowed and add nothing. */
  function DigitsValue(s: string): (v: nat)
    requires AllDigits(s)
    ensures v < Pow10(|s|)
  {
    if s == [] then 0
    else
      var init := s[..|s| - 1];
      var v := DigitsValue(init) * 10 + DigitValue(s[|s| - 1]);
      assert v < Pow10(|s|) by {
        assert DigitsValue(init) + 1 <= Pow10(|init|);
        assert (DigitsValue(init) + 1) * 10 <= Pow10(|init|) * 10;
      }
      v
  }

  /** `u64::to_string` (and `Display` of any unsigned integer): the shortest
      decimal numeral, with no leading zero except for zero itself. */
  function ShowNat(n: nat): (s: string)
    ensures 1 <= |s| && AllDigits(s)
    ensures DigitsValue(s) == n
    ensures |s| > 1 ==> s[0] != '0'
    ensures AllAscii(s)
  {
    if n < 10 then [DigitChar(n)]
    else
      var init := ShowNat(n / 10);
      var s := init + [DigitChar(n % 10)];
      assert s[..|s| - 1] == init;
      s
  }

  /** A string of `k` zero digits. */
  function Zeros(k: nat): (z: string)
    ensures |z| == k
    ensures forall i | 0 <= i < k :: z[i] == '0'
  {
    if k == 0 then "" else Zeros(k - 1) + "0"
  }

  /** Left-pads a numeral with zeros to at least `width` digits (`{:0width}`). */
  function PadLeft(s: string, width: nat): (p: string)
    ensures |p| >= width && |p| >= |s|
  {
    if |s| >= width then s else Zeros(width - |s|) + s
  }

  lemma ShiftDistributes(x: nat, p: nat, y: nat, d: nat)
    ensures (x * p + y) * 10 + d == x * (10 * p) + (y * 10 + d)
  {
  }

  lemma {:induction false} DigitsValueConcat(a: string, b: string)
    requires AllDigits(a) && AllDigits(b)
    ensures AllDigits(a + b)
    ensures DigitsValue(a + b) == DigitsValue(a) * Pow10(|b|) + DigitsValue(b)
    decreases |b|
  {
    if b != [] {
      var b' := b[..|b| - 1];
      var d := DigitValue(b[|b| - 1]);
      assert (a + b)[..|a + b| - 1] == a + b';
      DigitsValueConcat(a, b');
      assert (a + b)[|a + b| - 1] == b[|b| - 1];
      assert DigitsValue(a + b) == DigitsValue(a + b') * 10 + d;
      assert DigitsValue(b) == DigitsValue(b') * 10 + d;
      ShiftDistributes(DigitsValue(a), Pow10(|b'|), DigitsValue(b'), d);
    } else {
      assert a + b == a;
    }
  }

  lemma {:induction false} ZerosValue(k: nat)
    ensures AllDigits(Zeros(k)) && DigitsValue(Zeros(k)) == 0
  {
    var z := Zeros(k);
    assert AllDigits(z) by {
      assert forall i | 0 <= i < |z| :: z[i] == '0';
    }
    if k > 0 {
      var init := z[..k - 1];
      assert init == Zeros(k - 1);
      ZerosValue(k - 1);
      assert DigitValue(z[k - 1]) == 0;
      assert DigitsValue(z) == DigitsValue(init) * 10 + DigitValue(z[k - 1]);
    }
  }

  /** Padding with zeros does not change a numeral's value. */
  lemma PaddedValue(s: string, width: nat)
    requires AllDigits(s)
    ensures AllDigits(PadLeft(s, width))
    ensures DigitsValue(PadLeft(s, width)) == DigitsValue(s)
  {
    if |s| < width {
      ZerosValue(width - |s|);
      DigitsValueConcat(Zeros(width - |s|), s);
    }
  }

  /** A numeral whose leading digit is not zero is worth at least 10^(length-1). */
  lemma {:induction false} LeadingDigitBound(s: string)
    requires AllDigits(s) && |s| >= 1 && s[0] != '0'
    ensures DigitsValue(s) >= Pow10(|s| - 1)
    decreases |s|
  {
    if |s| > 1 {
      var init := s[..|s| - 1];
      LeadingDigitBound(init);
    }
  }

  /** The canonical numeral of a value is unique: `ShowNat` is the only one. */
  lemma {:induction false} ShowCanonical(s: string)
    requires AllDigits(s) && |s| >= 1
    requires |s| > 1 ==> s[0] != '0'
    ensures ShowNat(DigitsValue(s)) == s
    decreases |s|
  {
    if |s| > 1 {
      var init := s[..|s| - 1];
      LeadingDigitBound(init);
      ShowCanonical(init);
      var v := DigitsValue(s);
      assert v / 10 == DigitsValue(init);
      assert v % 10 == DigitValue(s[|s| - 1]);
    }
  }

  lemma ZerosCons(k: nat)
    ensures Zeros(k + 1) == "0" + Zeros(k)
  {
    assert forall i | 0 <= i < k + 1 :: Zeros(k + 1)[i] == ("0" + Zeros(k))[i];
  }

  /** Every digit string is the canonical numeral of its value, zero-padded to its length. */
  lemma {:induction false} DigitsArePadded(s: string, v: nat)
    requires AllDigits(s) && |s| >= 1 && DigitsValue(s) == v
    ensures s == PadLeft(ShowNat(v), |s|)
    decreases |s|
  {
    if |s| > 1 && s[0] == '0' {
      ZeroPrefixValue(s[1..]);
      assert s == "0" + s[1..];
      DigitsArePadded(s[1..], v);
      PadOneMoreZero(s[1..], v);
    } else {
      ShowCanonical(s);
      PadIsZeros(s, |s|);
      assert Zeros(0) + s == s;
    }
  }

  lemma PadOneMoreZero(tail: string, v: nat)
    requires tail == PadLeft(ShowNat(v), |tail|)
    ensures "0" + tail == PadLeft(ShowNat(v), |tail| + 1)
  {
    var x := ShowNat(v);
    var n := |tail| - |x|;
    PadIsZeros(x, |tail|);
    PadIsZeros(x, |tail| + 1);
    assert Zeros(n + 1) + x == "0" + (Zeros(n) + x) by {
      ZerosCons(n);
      ConsConcat('0', Zeros(n), x);
    }
  }

  lemma ConsConcat(c: char, a: string, b: string)
    ensures ([c] + a) + b == [c] + (a + b)
  {
  }

  lemma PadIsZeros(x: string, width: nat)
    requires |x| <= width
    ensures PadLeft(x, width) == Zeros(width - |x|) + x
  {
    if |x| == width {
      assert Zeros(0) + x == x;
    }
  }

  lemma ZeroPrefixValue(tail: string)
    requires AllDigits(tail)
    ensures AllDigits("0" + tail) && DigitsValue("0" + tail) == DigitsValue(tail)
  {
    assert DigitsValue("0") == 0 by {
      assert "0"[..0] == "";
    }
    DigitsValueConcat("0", tail);
  }

  /** The digits `str::parse::<u64>` reads: everything after one optional leading `+`. */
  function UnsignedDigits(s: string): string {
    if |s| > 0 && s[0] == '+' then s[1..] else s
  }

  /** Rust's `str::parse::<u64>`: an optional `+`, then one or more ASCII
      digits whose value is below 2^64; anything else (empty text, a lone
      `+`, a `-`, a space, an overflowing value) is an error. */
  function ParseU64(s: string): (r: Option<u64>)
    ensures r.Some? ==> |s| >= 1 && AllAscii(s)
  {
    var digits := UnsignedDigits(s);
    if digits != [] && AllDigits(digits) && DigitsValue(digits) < U64_LIMIT
    then
      assert AllAscii(s) by {
        assert forall i | 0 <= i < |s| :: i == 0 || s[i] == digits[i - (|s| - |digits|)];
      }
      Some(DigitsValue(digits))
    else None
  }

  /** The numerals `str::parse::<u64>` accepts for a value: its canonical
      numeral padded with any number of zeros, optionally preceded by `+`. */
  predicate Denotes(s: string, v: nat) {
    || (|s| >= |ShowNat(v)| && s == PadLeft(ShowNat(v), |s|))
    || (|s| > |ShowNat(v)| && s == "+" + PadLeft(ShowNat(v), |s| - 1))
  }

  /** Both directions of the parser's specification: it succeeds with `v`
      exactly on the numerals of `v`, for every `v` below 2^64. */
  lemma ParseU64Exactly(s: string, v: nat)
    ensures ParseU64(s) == Some(v) <==> v < U64_LIMIT && Denotes(s, v)
  {
    if ParseU64(s) == Some(v) {
      ParseSound(s, v);
    }
    if v < U64_LIMIT && Denotes(s, v) {
      ParseComplete(s, v);
    }
  }

  /** What the parser accepts for `v` is a numeral of `v`. */
  lemma ParseSound(s: string, v: nat)
    requires ParseU64(s) == Some(v)
    ensures v < U64_LIMIT && Denotes(s, v)
  {
    var digits := UnsignedDigits(s);
    DigitsArePadded(digits, v);
    if |s| > 0 && s[0] == '+' {
      assert s == "+" + digits;
    }
  }

  /** Every numeral of a value below 2^64 is accepted as that value. */
  lemma ParseComplete(s: string, v: nat)
    requires v < U64_LIMIT && Denotes(s, v)
    ensures ParseU64(s) == Some(v)
  {
    var x := ShowNat(v);
    if |s| >= |x| && s == PadLeft(x, |s|) {
      PaddedValue(x, |s|);
      assert IsDigit(s[0]);
      assert UnsignedDigits(s) == s;
    } else {
      var d := PadLeft(x, |s| - 1);
      assert s[1..] == d;
      PaddedValue(x, |s| - 1);
      assert UnsignedDigits(s) == d;
    }
  }

  /** `parse` reads back what `to_string` writes. */
  lemma ParseShow(n: u64)
    ensures ParseU64(ShowNat(n)) == Some(n)
  {
    ParseU64Exactly(ShowNat(n), n);
  }

  /** `parse` reads back a zero-padded numeral (as written by `{:02}`). */
  lemma ParsePadded(n: u64, width: nat)
    ensures ParseU64(PadLeft(ShowNat(n), width)) == Some(n)
  {
    var p := PadLeft(ShowNat(n), width);
    assert PadLeft(ShowNat(n), |p|) == p;
    ParseU64Exactly(p, n);
  }
}

=== FILE: lang.dfy ===
/** The supported languages and their serialised representation. */
module Lang {
  import opened Wrappers

  /** The supported languages, serialised as their `u32` representation. */
  datatype Language = Rust1_82 | Go1_23 | Python3_13

  /** Every language, in declaration order (`Language::VARIANTS`). */
  const LANGUAGES: seq<Language> := [Rust1_82, Go1_23, Python3_13]

  function Repr(lang: Language): (n: nat)
    ensures 1 <= n <= 3
    ensures LANGUAGES[n - 1] == lang
  {
    match lang
    case Rust1_82 => 1
    case Go1_23 => 2
    case Python3_13 => 3
  }

  /** Deserialisation of the representation: only 1, 2 and 3 name a language. */
  function FromRepr(n: int): (r: Option<Language>)
    ensures r.Some? <==> 1 <= n <= 3
    ensures r.Some? ==> Repr(r.value) == n
  {
    if 1 <= n <= 3 then Some(LANGUAGES[n - 1]) else None
  }

  lemma ReprRoundTrip(lang: Language)
    ensures FromRepr(Repr(lang)) == Some(lang)
    ensures lang in LANGUAGES
  {
  }
}

=== FILE: legacy_registry.dfy ===
/** The older, infallible recipe table (`lang::runner`). Its recipe type and
    accessors are the same as the current registry's; only the table
    differs: no warm-up, and Go's compile hook points the home directory at
    `/` and mounts the shared cache over `~/.cache`. */
module LegacyRegistry {
  import opened Wrappers
  import opened Lang
  import opened NsJail
  import opened Registry

  /** Go's compile hook in this version. */
  const LEGACY_GO_HOOK: seq<Directive> := [SetEnv("HOME", "/"), MountRwDest("/go-cache", "/.cache")]

  /** The older `lang_into_runner`: a recipe for every language, no failure. */
  function LegacyIntoRunner(lang: Language): LangRunner {
    match lang
    case Rust1_82 => WithCompile("main.rs", "rustc -O main.rs -o main", "./main", DefaultOption())
    case Go1_23 => WithCompile("main.go", "go build -o main main.go", "./main", LangRunnerOption(Some(LEGACY_GO_HOOK), None))
    case Python3_13 => WithoutCompile("main.py", "python main.py", DefaultOption())
  }

  /** No language runs inline, so every language writes its source to a file;
      Rust and Go compile and Python does not. */
  lemma LegacyTable(lang: Language)
    ensures !LegacyIntoRunner(lang).Inline? && FileName(LegacyIntoRunner(lang)).Some?
    ensures RunCmd(LegacyIntoRunner(lang)).Static?
    ensures CompileCmd(LegacyIntoRunner(lang)).Some? <==> lang != Python3_13
  {
  }

  /** Go's compile hook here sets `HOME=/` and mounts the cache read-write
      at `/.cache`; Rust and Python have no hooks. */
  lemma LegacyHooks()
    ensures OptionOf(LegacyIntoRunner(Go1_23)).moreCompile == Some([SetEnv("HOME", "/"), MountRwDest("/go-cache", "/.cache")])
    ensures OptionOf(LegacyIntoRunner(Go1_23)).moreRun == None
    ensures OptionOf(LegacyIntoRunner(Rust1_82)) == DefaultOption()
    ensures OptionOf(LegacyIntoRunner(Python3_13)) == DefaultOption()
  {
  }

  /** Against the current table: Rust and Python are unchanged, and Go differs
      only in its compile hook. */
  lemma LegacyAgreesWithCurrent(lang: Language)
    ensures lang != Go1_23 ==> LangIntoRunner(lang, Pass) == Success(LegacyIntoRunner(lang))
    ensures lang == Go1_23 ==>
      && LangIntoRunner(lang, Pass).Success?
      && FileName(LangIntoRunner(lang, Pass).value) == FileName(LegacyIntoRunner(lang))
      && CompileCmd(LangIntoRunner(lang, Pass).value) == CompileCmd(LegacyIntoRunner(lang))
      && RunCmd(LangIntoRunner(lang, Pass).value) == RunCmd(LegacyIntoRunner(lang))
      && OptionOf(LangIntoRunner(lang, Pass).value).moreRun == OptionOf(LegacyIntoRunner(lang)).moreRun
      && OptionOf(LangIntoRunner(lang, Pass).value).moreCompile != OptionOf(LegacyIntoRunner(lang)).moreCompile
  {
    if lang == Go1_23 {
      assert GO_COMPILE_HOOK[0] != LEGACY_GO_HOOK[0];
    }
  }
}

=== FILE: memory.dfy ===
/** The memory quantity of the request schema: a byte count with
    kilobyte/megabyte constructors (base 1024), floor conversions, a
    `<digits><B|K|M>` parser and a largest-whole-unit printer. */
module MemorySize {
  import opened Wrappers
  import opened Text
  import opened Ints

  const KIB: nat := 1024
  const MIB: nat := 1024 * 1024

  /** `Memory(u64)`: a number of bytes. */
  datatype Memory = Memory(bytes: u64)

  function NewBytes(n: u64): Memory {
    Memory(n)
  }

  function AsBytes(m: Memory): u64 {
    m.bytes
  }

  /** Whole kilobytes, rounded down. */
  function AsKilobytes(m: Memory): (k: u64)
    ensures k * KIB <= m.bytes < (k + 1) * KIB
  {
    m.bytes / KIB
  }

  /** Whole megabytes, rounded down. */
  function AsMegabytes(m: Memory): (k: u64)
    ensures k * MIB <= m.bytes < (k + 1) * MIB
  {
    m.bytes / MIB
  }

  /** Derived `Ord`: memories compare as their byte counts. */
  predicate Less(a: Memory, b: Memory) {
    a.bytes < b.bytes
  }

  /** Reducing modulo 2^64 keeps a multiple of 1024 (1024 divides 2^64). */
  lemma WrapKeepsKib(a: nat)
    requires a % KIB == 0
    ensures Wrap(a) % KIB == 0
  {
    var r, w := a / U64_LIMIT, Wrap(a);
    assert a == r * U64_LIMIT + w;
    assert r * U64_LIMIT == (r * 0x40_0000_0000_0000) * KIB;
    AddMultipleKib(w, r * 0x40_0000_0000_0000);
  }

  /** Reducing modulo 2^64 keeps a multiple of 2^20 (2^20 divides 2^64). */
  lemma WrapKeepsMib(a: nat)
    requires a % MIB == 0
    ensures Wrap(a) % MIB == 0
  {
    var r, w := a / U64_LIMIT, Wrap(a);
    assert a == r * U64_LIMIT + w;
    assert r * U64_LIMIT == (r * 0x1000_0000_0000) * MIB;
    AddMultipleMib(w, r * 0x1000_0000_0000);
  }

  /** Adding a multiple of 1024 does not change the remainder modulo 1024. */
  lemma AddMultipleKib(x: nat, t: nat)
    ensures (t * KIB + x) % KIB == x % KIB
  {
  }

  /** Adding a multiple of 2^20 does not change the remainder modulo 2^20. */
  lemma AddMultipleMib(x: nat, t: nat)
    ensures (t * MIB + x) % MIB == x % MIB
  {
  }

  /** `new_kilobytes`: `n * 1024` bytes; the unchecked product wraps past 2^64
      but always stays a whole number of kilobytes. */
  function NewKilobytes(n: u64): (m: Memory)
    ensures AsBytes(m) % KIB == 0
    ensures n * KIB < U64_LIMIT ==> AsBytes(m) == n * KIB && AsKilobytes(m) == n
  {
    WrapKeepsKib(n * KIB);
    Memory(Wrap(n * KIB))
  }

  /** `new_megabytes`: `n * 1024 * 1024` bytes, with both unchecked products
      wrapping past 2^64; the result is always a whole number of megabytes. */
  function NewMegabytes(n: u64): (m: Memory)
    ensures AsBytes(m) % MIB == 0
    ensures n * MIB < U64_LIMIT ==> AsBytes(m) == n * MIB && AsMegabytes(m) == n && AsKilobytes(m) == n * KIB
  {
    var k := NewKilobytes(n).bytes;
    assert k == KIB * (k / KIB);
    WrapKeepsMib(k * KIB);
    Memory(Wrap(k * KIB))
  }

  /** The unit suffixes of the text form. */
  datatype Unit = B | K | M

  function Scale(u: Unit): nat {
    match u
    case B => 1
    case K => KIB
    case M => MIB
  }

  function SuffixChar(u: Unit): char {
    match u
    case B => 'B'
    case K => 'K'
    case M => 'M'
  }

  /** The unit a suffix character names, if any. */
  function UnitOf(c: char): (r: Option<Unit>)
    ensures r.Some? <==> c in {'B', 'K', 'M'}
    ensures r.Some? ==> SuffixChar(r.value) == c
  {
    if c == 'B' then Some(B) else if c == 'K' then Some(K) else if c == 'M' then Some(M) else None
  }

  /** Every unit's suffix is recognised as that unit. */
  lemma UnitOfSuffix(u: Unit)
    ensures UnitOf(SuffixChar(u)) == Some(u)
  {
  }

  /** `FromStrMemoryError`. The `ParseIntError` inside `InvalidNumber` is not modelled. */
  datatype FromStrMemoryError = InvalidSuffix(suffix: string) | InvalidNumber | ShortLength(text: string)

  /** `Memory::from_str` as written. The length test counts UTF-8 bytes, the
      split at `len - 1` panics when the last character is not a single byte,
      and the `K`/`M` products wrap past 2^64. */
  function FromStrAsWritten(s: string): (r: Panicking<Result<Memory, FromStrMemoryError>>)
    ensures r == Returns(Failure(ShortLength(s))) <==> ByteLen(s) < 2
    ensures r.Panics? <==> ByteLen(s) >= 2 && !IsAscii(s[|s| - 1])
    ensures r.Returns? && r.value.Failure? && r.value.error.InvalidSuffix? ==>
      && r.value.error.suffix == [s[|s| - 1]]
      && UnitOf(s[|s| - 1]).None?
      && ParseU64(s[..|s| - 1]).Some?
    ensures r.Returns? && r.value.Success? ==>
      && |s| >= 2
      && ParseU64(s[..|s| - 1]).Some?
      && UnitOf(s[|s| - 1]).Some?
      && AsBytes(r.value.value) == Wrap(ParseU64(s[..|s| - 1]).value * Scale(UnitOf(s[|s| - 1]).value))
    ensures ByteLen(s) >= 2 && IsAscii(s[|s| - 1]) && ParseU64(s[..|s| - 1]).None? ==>
      r == Returns(Failure(InvalidNumber))
    ensures ByteLen(s) >= 2 && IsAscii(s[|s| - 1]) && ParseU64(s[..|s| - 1]).Some? && UnitOf(s[|s| - 1]).None? ==>
      r == Returns(Failure(InvalidSuffix([s[|s| - 1]])))
    ensures ByteLen(s) >= 2 && IsAscii(s[|s| - 1]) && ParseU64(s[..|s| - 1]).Some? && UnitOf(s[|s| - 1]).Some? ==>
      r.Returns? && r.value.Success?
  {
    if ByteLen(s) < 2 then Returns(Failure(ShortLength(s)))
    else if !IsAscii(s[|s| - 1]) then Panics
    else
      var numStr := s[..|s| - 1];
      var suffix := s[|s| - 1..];
      match ParseU64(numStr)
      case None => Returns(Failure(InvalidNumber))
      case Some(n) =>
        if suffix == "B" then Returns(Success(NewBytes(n)))
        else if suffix == "K" then Returns(Success(NewKilobytes(n)))
        else if suffix == "M" then
          assert Wrap(Wrap(n * KIB) * KIB) == Wrap(n * MIB) by {
            WrapTwice(n);
          }
          Returns(Success(NewMegabytes(n)))
        else Returns(Failure(InvalidSuffix(suffix)))
  }

  /** Multiplying by 1024 twice with wrap-around equals one wrapping product by 2^20. */
  lemma WrapTwice(n: nat)
    ensures Wrap(Wrap(n * KIB) * KIB) == Wrap(n * MIB)
  {
    var q := (n * KIB) / U64_LIMIT;
    var w := Wrap(n * KIB);
    assert n * KIB == q * U64_LIMIT + w;
    assert n * MIB == (q * KIB) * U64_LIMIT + w * KIB;
    ModAddMultiple(w * KIB, q * KIB);
  }

  lemma ModAddMultiple(x: nat, q: nat)
    ensures (q * U64_LIMIT + x) % U64_LIMIT == x % U64_LIMIT
  {
  }

  /** `Memory::from_str` with the length counted in characters, the suffix
      taken as the last character, and a scaled value past 2^64 rejected as
      `InvalidNumber`. It never panics and never wraps. */
  function FromStr(s: string): (r: Result<Memory, FromStrMemoryError>)
    ensures r == Failure(ShortLength(s)) <==> |s| < 2
    ensures r.Failure? && r.error.InvalidSuffix? ==>
      && r.error.suffix == [s[|s| - 1]]
      && UnitOf(s[|s| - 1]).None?
      && ParseU64(s[..|s| - 1]).Some?
    ensures r.Success? ==>
      && |s| >= 2
      && ParseU64(s[..|s| - 1]).Some?
      && UnitOf(s[|s| - 1]).Some?
      && AsBytes(r.value) == ParseU64(s[..|s| - 1]).value * Scale(UnitOf(s[|s| - 1]).value)
    ensures |s| >= 2 && ParseU64(s[..|s| - 1]).None? ==> r == Failure(InvalidNumber)
    ensures |s| >= 2 && ParseU64(s[..|s| - 1]).Some? && UnitOf(s[|s| - 1]).None? ==>
      r == Failure(InvalidSuffix([s[|s| - 1]]))
    ensures |s| >= 2 && ParseU64(s[..|s| - 1]).Some? && UnitOf(s[|s| - 1]).Some? && !ScaledOverflow(s) ==> r.Success?
    ensures ScaledOverflow(s) ==> r == Failure(InvalidNumber)
  {
    if |s| < 2 then Failure(ShortLength(s))
    else
      var suffix := s[|s| - 1];
      match ParseU64(s[..|s| - 1])
      case None => Failure(InvalidNumber)
      case Some(n) =>
        match UnitOf(suffix)
        case None => Failure(InvalidSuffix([suffix]))
        case Some(u) =>
          if n * Scale(u) < U64_LIMIT then Success(Memory(n * Scale(u))) else Failure(InvalidNumber)
  }

  /** The written parser would wrap: a number and a unit whose product reaches 2^64. */
  predicate ScaledOverflow(s: string) {
    && |s| >= 2
    && ParseU64(s[..|s| - 1]).Some?
    && UnitOf(s[|s| - 1]).Some?
    && ParseU64(s[..|s| - 1]).value * Scale(UnitOf(s[|s| - 1]).value) >= U64_LIMIT
  }

  /** On ASCII text whose value fits, the written parser and the corrected one agree. */
  lemma AsWrittenAgreesOnAscii(s: string)
    requires AllAscii(s) && !ScaledOverflow(s)
    ensures FromStrAsWritten(s) == Returns(FromStr(s))
  {
    if |s| >= 2 && ParseU64(s[..|s| - 1]).Some? && UnitOf(s[|s| - 1]).Some? {
      var n := ParseU64(s[..|s| - 1]).value;
      assert s[|s| - 1..] == [s[|s| - 1]];
    }
  }

  /** The unit `Display` prints in: megabytes from 1 MiB up, else kilobytes
      from 1 KiB up, else bytes. */
  function DisplayUnit(m: Memory): (u: Unit)
    ensures u == M <==> MIB <= m.bytes
    ensures u == K <==> KIB <= m.bytes < MIB
    ensures u == B <==> m.bytes < KIB
  {
    if AsMegabytes(m) > 0 then M else if AsKilobytes(m) > 0 then K else B
  }

  /** `Display`: the count of the largest whole unit, then its suffix. */
  function ToString(m: Memory): (s: string)
    ensures s == ShowNat(m.bytes / Scale(DisplayUnit(m))) + [SuffixChar(DisplayUnit(m))]
  {
    if AsMegabytes(m) > 0 then ShowNat(AsMegabytes(m)) + "M"
    else if AsKilobytes(m) > 0 then ShowNat(AsKilobytes(m)) + "K"
    else ShowNat(AsBytes(m)) + "B"
  }

  /** The printed text is ASCII: a canonical numeral and one suffix letter. */
  lemma ToStringAscii(m: Memory)
    ensures |ToString(m)| >= 2 && AllAscii(ToString(m))
  {
    var digits := ShowNat(m.bytes / Scale(DisplayUnit(m)));
    var s := ToString(m);
    assert forall i | 0 <= i < |s| :: i == |s| - 1 || s[i] == digits[i];
  }

  /** Printing then parsing truncates to the display unit: the result is the
      largest multiple of that unit not above `m`, and equals `m` exactly when
      `m` is a whole number of display units. */
  lemma DisplayRoundTrip(m: Memory)
    ensures var scale := Scale(DisplayUnit(m));
      && FromStr(ToString(m)).Success? && FromStr(ToString(m)).value.bytes == (m.bytes / scale) * scale
      && (m.bytes / scale) * scale <= m.bytes < (m.bytes / scale + 1) * scale
      && (FromStr(ToString(m)) == Success(m) <==> m.bytes % scale == 0)
  {
    var u := DisplayUnit(m);
    var scale := Scale(u);
    DivBounds(m.bytes, scale);
    DisplayParses(m);
  }

  /** The printed text parses as the display-unit count times the unit. */
  lemma DisplayParses(m: Memory)
    ensures var scale := Scale(DisplayUnit(m));
      FromStr(ToString(m)).Success? && FromStr(ToString(m)).value.bytes == (m.bytes / scale) * scale
  {
    var u := DisplayUnit(m);
    var scale := Scale(u);
    var c := m.bytes / scale;
    DivBounds(m.bytes, scale);
    ParseNumeral(c, u, c * scale);
  }

  /** Euclidean division by a positive divisor brackets the dividend. */
  lemma DivBounds(x: nat, d: nat)
    requires d > 0
    ensures (x / d) * d <= x < (x / d + 1) * d
    ensures (x / d) * d == x <==> x % d == 0
  {
    assert x == (x / d) * d + x % d;
  }

  /** A canonical numeral followed by a unit's suffix parses as that many units. */
  lemma ParseNumeral(c: u64, u: Unit, bytes: nat)
    requires bytes == c * Scale(u) < U64_LIMIT
    ensures FromStr(ShowNat(c) + [SuffixChar(u)]) == Success(Memory(bytes))
  {
    var s := ShowNat(c) + [SuffixChar(u)];
    assert s[..|s| - 1] == ShowNat(c);
    ParseShow(c);
    UnitOfSuffix(u);
  }

  /** The exact case of the round trip, for the whole-unit values the
      serializer tests use. */
  lemma ExactRoundTrip(m: Memory)
    requires m.bytes % Scale(DisplayUnit(m)) == 0
    ensures FromStr(ToString(m)) == Success(m)
    ensures FromStrAsWritten(ToString(m)) == Returns(Success(m))
  {
    DisplayRoundTrip(m);
    var s := ToString(m);
    ToStringAscii(m);
    AsWrittenAgreesOnAscii(s);
  }

  /** The constructor and conversion unit tests of the source. */
  lemma ConversionExamples()
    ensures AsMegabytes(NewMegabytes(10)) == 10 && AsKilobytes(NewMegabytes(10)) == 10 * 1024
    ensures AsBytes(NewMegabytes(10)) == 10 * 1024 * 1024
    ensures AsMegabytes(NewKilobytes(10)) == 0 && AsKilobytes(NewKilobytes(10)) == 10
    ensures AsBytes(NewKilobytes(10)) == 10 * 1024
    ensures AsMegabytes(NewBytes(10)) == 0 && AsKilobytes(NewBytes(10)) == 0 && AsBytes(NewBytes(10)) == 10
  {
  }

  /** The parser unit tests of the source, run against the parser as written. */
  lemma ParseExamples()
    ensures FromStrAsWritten("10M") == Returns(Success(NewMegabytes(10)))
    ensures FromStrAsWritten("10K") == Returns(Success(NewKilobytes(10)))
    ensures FromStrAsWritten("10B") == Returns(Success(NewBytes(10)))
    ensures FromStrAsWritten("10X") == Returns(Failure(InvalidSuffix("X")))
    ensures FromStrAsWritten("10") == Returns(Failure(InvalidSuffix("0")))
    ensures FromStrAsWritten("1") == Returns(Failure(ShortLength("1")))
    ensures FromStrAsWritten("") == Returns(Failure(ShortLength("")))
  {
    assert ShowNat(10) == "10";
    ParseTen(M);
    assert "10" + [SuffixChar(M)] == "10M";
    ParseTen(K);
    assert "10" + [SuffixChar(K)] == "10K";
    ParseTen(B);
    assert "10" + [SuffixChar(B)] == "10B";
    ParseRejects();
  }

  /** Ten of a unit, written with that unit's suffix, parses as ten units. */
  lemma ParseTen(u: Unit)
    ensures FromStrAsWritten(ShowNat(10) + [SuffixChar(u)]) == Returns(Success(Memory(10 * Scale(u))))
  {
    var s := ShowNat(10) + [SuffixChar(u)];
    assert ShowNat(10) == "10";
    ParseNumeral(10, u, 10 * Scale(u));
    assert s[..|s| - 1] == ShowNat(10);
    ParseShow(10);
    assert AllAscii(s) && !ScaledOverflow(s);
    AsWrittenAgreesOnAscii(s);
  }

  /** The rejected inputs of the parser unit tests. */
  lemma ParseRejects()
    ensures FromStrAsWritten("10X") == Returns(Failure(InvalidSuffix("X")))
    ensures FromStrAsWritten("10") == Returns(Failure(InvalidSuffix("0")))
    ensures FromStrAsWritten("1") == Returns(Failure(ShortLength("1")))
    ensures FromStrAsWritten("") == Returns(Failure(ShortLength("")))
  {
    ParseShow(10);
    ParseShow(1);
    assert ShowNat(10) == "10";
    assert "10X"[..2] == "10" && "10X"[2..] == "X";
    assert "10"[..1] == "1" && "10"[1..] == "0";
  }

  /** The printer unit tests of the source. */
  lemma DisplayExamples()
    ensures ToString(NewMegabytes(10)) == "10M"
    ensures ToString(NewKilobytes(10)) == "10K"
    ensures ToString(NewBytes(10)) == "10B"
  {
    assert ShowNat(10) == "10";
  }

  /** Finding: a final character outside ASCII makes the written parser panic
      (`split_at` off a character boundary), where the corrected parser reports
      the suffix or the short length. */
  lemma NonAsciiSuffixPanics()
    ensures FromStrAsWritten("1\U{e9}") == Panics
    ensures FromStr("1\U{e9}") == Failure(InvalidSuffix("\U{e9}"))
    ensures FromStrAsWritten("\U{e9}") == Panics
    ensures FromStr("\U{e9}") == Failure(ShortLength("\U{e9}"))
  {
    assert ParseU64("1") == Some(1) by {
      ParseShow(1);
    }
  }

  /** Finding: a megabyte count whose byte value reaches 2^64 is accepted by
      the written parser as the wrapped value, and rejected by the corrected
      parser. */
  lemma MegabyteOverflowWraps(n: u64)
    requires n * MIB >= U64_LIMIT
    ensures FromStrAsWritten(ShowNat(n) + "M") == Returns(Success(Memory(Wrap(n * MIB))))
    ensures FromStr(ShowNat(n) + "M") == Failure(InvalidNumber)
  {
    ParseShow(n);
    var s := ShowNat(n) + "M";
    assert s[..|s| - 1] == ShowNat(n);
    assert s[|s| - 1..] == "M";
    assert AllAscii(s) by {
      assert forall i | 0 <= i < |s| :: i < |s| - 1 ==> s[i] == ShowNat(n)[i];
    }
    MegabyteSuffix(s, n);
  }

  /** Both parsers on a text whose number is `n` and whose suffix is `M`. */
  lemma MegabyteSuffix(s: string, n: u64)
    requires |s| >= 2 && AllAscii(s) && s[|s| - 1..] == "M" && ParseU64(s[..|s| - 1]) == Some(n)
    requires n * MIB >= U64_LIMIT
    ensures FromStrAsWritten(s) == Returns(Success(Memory(Wrap(n * MIB))))
    ensures FromStr(s) == Failure(InvalidNumber)
  {
    assert s[|s| - 1] == 'M';
    assert ScaledOverflow(s);
    WrapTwice(n);
  }

  /** The witness: `17592186044417M` is 2^64 + 2^20 bytes and wraps to a 1 MiB limit. */
  lemma MegabyteOverflowWitness()
    ensures 17592186044417 * MIB >= U64_LIMIT
    ensures Wrap(17592186044417 * MIB) == MIB
  {
  }
}

=== FILE: mstime.dfy ===
/** The millisecond time of the request schema: constructors, ceiling to
    whole seconds, additive margins and the `minutes:seconds.millis` parser. */
module SchemaTime {
  import opened Wrappers
  import opened Text
  import opened Ints

  /** `MsTime(u64)`: a number of milliseconds. */
  datatype MsTime = MsTime(ms: u64)

  function AsMs(t: MsTime): u64 {
    t.ms
  }

  /** Derived `Ord`: times compare as their millisecond counts. */
  predicate Less(a: MsTime, b: MsTime) {
    a.ms < b.ms
  }

  /** `MsTime::new(seconds, ms)`; the unchecked `u64` arithmetic wraps past 2^64. */
  function NewTime(seconds: u64, ms: u64): (t: MsTime)
    ensures seconds * 1000 + ms < U64_LIMIT ==> AsMs(t) == seconds * 1000 + ms
  {
    MsTime(Wrap(Wrap(seconds * 1000) + ms))
  }

  function NewMs(ms: u64): (t: MsTime)
    ensures AsMs(t) == ms
  {
    MsTime(ms)
  }

  function NewSeconds(seconds: u64): (t: MsTime)
    ensures seconds * 1000 < U64_LIMIT ==> AsMs(t) == seconds * 1000
  {
    MsTime(Wrap(seconds * 1000))
  }

  /** `as_seconds_ceil` (`div_ceil(1000)`): the least whole number of seconds
      that covers the time, so a started second is never dropped. */
  function AsSecondsCeil(t: MsTime): (k: u64)
    ensures k * 1000 >= t.ms
    ensures k == 0 || (k - 1) * 1000 < t.ms
    ensures k == 0 <==> t.ms == 0
  {
    var d := t.ms / 1000;
    if t.ms % 1000 > 0 then d + 1 else d
  }

  /** Ceiling undoes the whole-second constructor. */
  lemma CeilOfWholeSeconds(seconds: u64)
    requires seconds * 1000 < U64_LIMIT
    ensures AsSecondsCeil(NewSeconds(seconds)) == seconds
  {
  }

  /** `add_seconds`: the time plus whole seconds, wrapping past 2^64. */
  function AddSeconds(t: MsTime, seconds: u64): (r: MsTime)
    ensures t.ms + seconds * 1000 < U64_LIMIT ==> AsMs(r) == AsMs(t) + seconds * 1000
    ensures t.ms + seconds * 1000 < U64_LIMIT && seconds > 0 ==> Less(t, r)
  {
    MsTime(Wrap(t.ms + Wrap(seconds * 1000)))
  }

  /** `add_ms`: the time plus milliseconds, wrapping past 2^64. */
  function AddMs(t: MsTime, ms: u64): (r: MsTime)
    ensures t.ms + ms < U64_LIMIT ==> AsMs(r) == AsMs(t) + ms
    ensures t.ms + ms < U64_LIMIT && ms > 0 ==> Less(t, r)
  {
    MsTime(Wrap(t.ms + ms))
  }

  /** `from_str_mm_ss_ms`: minutes before the first `:`; the second
      `:`-piece must split on `.` into exactly seconds and milliseconds; each
      field must parse as a `u64`; milliseconds above 999 are refused. Seconds
      are not bounded, the fraction is a count of milliseconds (`.5` is 5 ms),
      and pieces after a second `:` are ignored. */
  function FromStrMmSsMs(s: string): (r: Option<MsTime>)
  {
    FromPieces(Split(s, ':'))
  }

  /** The parser on the text's `:`-pieces. */
  function FromPieces(parts: seq<string>): Option<MsTime>
    requires |parts| >= 1
  {
    match ParseU64(parts[0])
    case None => None
    case Some(minutes) =>
      if |parts| < 2 then None
      else
        var ssMs := Split(parts[1], '.');
        if |ssMs| != 2 then None
        else
          match ParseU64(ssMs[0])
          case None => None
          case Some(seconds) =>
            match ParseU64(ssMs[1])
            case None => None
            case Some(ms) =>
              if ms > 999 then None
              else Some(ClockTime(minutes, seconds, ms))
  }

  /** `MsTime::new(minutes * 60 + seconds, ms)` with the unchecked arithmetic. */
  function ClockTime(minutes: u64, seconds: u64, ms: u64): (t: MsTime)
    ensures (minutes * 60 + seconds) * 1000 + ms < U64_LIMIT ==> AsMs(t) == (minutes * 60 + seconds) * 1000 + ms
  {
    NewTime(Wrap(Wrap(minutes * 60) + seconds), ms)
  }

  /** The fields the parser reads, when the text has the
      `minutes:seconds.millis` shape and each field is a `u64`. */
  datatype Fields = Fields(minutes: u64, seconds: u64, millis: u64)

  function FieldsOf(s: string): Option<Fields> {
    FieldsOfPieces(Split(s, ':'))
  }

  function FieldsOfPieces(parts: seq<string>): Option<Fields> {
    if |parts| < 2 then None
    else
      var ssMs := Split(parts[1], '.');
      if |ssMs| != 2 then None
      else if ParseU64(parts[0]).None? || ParseU64(ssMs[0]).None? || ParseU64(ssMs[1]).None? then None
      else Some(Fields(ParseU64(parts[0]).value, ParseU64(ssMs[0]).value, ParseU64(ssMs[1]).value))
  }

  /** The parser accepts exactly the well-shaped texts whose milliseconds are
      at most 999, and then yields `(minutes * 60 + seconds) * 1000 + millis`
      (exact when that fits in 64 bits). */
  lemma FromStrMmSsMsAccepts(s: string)
    ensures FromStrMmSsMs(s).Some? <==> FieldsOf(s).Some? && FieldsOf(s).value.millis <= 999
    ensures FromStrMmSsMs(s).Some? ==>
      var f := FieldsOf(s).value;
      var total := (f.minutes * 60 + f.seconds) * 1000 + f.millis;
      total < U64_LIMIT ==> AsMs(FromStrMmSsMs(s).value) == total
    ensures FromStrMmSsMs(s).Some? ==>
      var f := FieldsOf(s).value;
      FromStrMmSsMs(s).value == ClockTime(f.minutes, f.seconds, f.millis)
  {
  }

  /** Pieces after a second `:` do not change the result. */
  lemma ExtraSegmentsIgnored(a: string, b: string, rest: string)
    requires ':' !in a && ':' !in b
    ensures FromStrMmSsMs(a + ":" + b + ":" + rest) == FromStrMmSsMs(a + ":" + b)
  {
    SplitThree(a, b, rest);
    SplitTwo(a, b);
    FirstTwoPieces(a + ":" + b + ":" + rest, a + ":" + b);
  }

  lemma SplitTwo(a: string, b: string)
    requires ':' !in a && ':' !in b
    ensures Split(a + ":" + b, ':') == [a, b]
  {
    SplitJoin([a, b], ':');
    assert Join([a, b], ':') == a + ":" + b;
  }

  lemma SplitThree(a: string, b: string, rest: string)
    requires ':' !in a && ':' !in b
    ensures |Split(a + ":" + b + ":" + rest, ':')| >= 2
    ensures Split(a + ":" + b + ":" + rest, ':')[..2] == [a, b]
  {
    var restParts := Split(rest, ':');
    var long := [a, b] + restParts;
    assert forall k | 0 <= k < |long| :: ':' !in long[k];
    SplitJoin(long, ':');
    assert long[1..] == [b] + restParts;
    assert ([b] + restParts)[1..] == restParts;
    assert Join(long[1..], ':') == b + [':'] + rest;
    assert Join(long, ':') == a + [':'] + (b + [':'] + rest);
    Regroup(a, b, rest);
  }

  /** The parser reads only the first two `:`-pieces. */
  lemma FirstTwoPieces(s: string, s': string)
    requires |Split(s, ':')| >= 2 && |Split(s', ':')| >= 2
    requires Split(s, ':')[..2] == Split(s', ':')[..2]
    ensures FromStrMmSsMs(s) == FromStrMmSsMs(s')
  {
    PiecesAfterSecondIgnored(Split(s, ':'), Split(s', ':'));
  }

  lemma PiecesAfterSecondIgnored(p: seq<string>, p': seq<string>)
    requires |p| >= 2 && |p'| >= 2 && p[..2] == p'[..2]
    ensures FromPieces(p) == FromPieces(p')
  {
    assert p[0] == p'[0] && p[1] == p'[1];
  }


  lemma Regroup(a: string, b: string, rest: string)
    ensures a + [':'] + (b + [':'] + rest) == a + ":" + b + ":" + rest
  {
  }

  /** The `minutes:seconds.millis` text of a time, with seconds padded to two
      digits and milliseconds to three: the form the parser is written for. */
  function ToStrMmSsMs(t: MsTime): string {
    ShowNat(t.ms / 60000) + ":" + PadLeft(ShowNat((t.ms / 1000) % 60), 2) + "." + PadLeft(ShowNat(t.ms % 1000), 3)
  }

  lemma ClockArithmetic(ms: nat)
    ensures ((ms / 60000) * 60 + (ms / 1000) % 60) * 1000 + ms % 1000 == ms
  {
  }

  /** Digit strings hold neither separator. */
  lemma DigitsHaveNoSeparator(x: string)
    requires AllDigits(x)
    ensures ':' !in x && '.' !in x
  {
    assert forall i | 0 <= i < |x| :: IsDigit(x[i]);
  }

  /** The clock fields of a time put back together give the time. */
  lemma ClockOfFields(t: MsTime)
    ensures ClockTime(t.ms / 60000, (t.ms / 1000) % 60, t.ms % 1000) == t
  {
    ClockArithmetic(t.ms);
    assert ClockTime(t.ms / 60000, (t.ms / 1000) % 60, t.ms % 1000).ms == t.ms;
  }

  /** The parser reads back every rendered time. */
  lemma ParseRendered(t: MsTime)
    ensures FromStrMmSsMs(ToStrMmSsMs(t)) == Some(t)
  {
    var minutes, seconds, millis := t.ms / 60000, (t.ms / 1000) % 60, t.ms % 1000;
    var a := ShowNat(minutes);
    var b := PadLeft(ShowNat(seconds), 2);
    var c := PadLeft(ShowNat(millis), 3);
    PaddedValue(ShowNat(seconds), 2);
    PaddedValue(ShowNat(millis), 3);
    DigitsHaveNoSeparator(a);
    DigitsHaveNoSeparator(b);
    DigitsHaveNoSeparator(c);
    ParseShow(minutes);
    ParsePadded(seconds, 2);
    ParsePadded(millis, 3);
    ParsedAs(a, b, c, minutes, seconds, millis);
    ClockOfFields(t);
  }

  /** `01:02.345` is one minute, two seconds and 345 ms. */
  lemma ExampleMinutesSeconds()
    ensures FromStrMmSsMs("01:02.345") == Some(MsTime(62345))
  {
    NumeralsOfFirst();
    assert "01:02.345" == "01" + ":" + "02" + "." + "345";
    ParsedAs("01", "02", "345", 1, 2, 345);
    assert ClockTime(1, 2, 345) == MsTime(62345);
  }

  /** Seconds are not bounded by 59. */
  lemma ExampleUnboundedSeconds()
    ensures FromStrMmSsMs("0:75.000") == Some(MsTime(75000))
  {
    NumeralsOfSecond();
    assert "0:75.000" == "0" + ":" + "75" + "." + "000";
    ParsedAs("0", "75", "000", 0, 75, 0);
    assert ClockTime(0, 75, 0) == MsTime(75000);
  }

  /** The fraction is a count of milliseconds, not a decimal fraction. */
  lemma ExampleMillisCount()
    ensures FromStrMmSsMs("0:00.5") == Some(MsTime(5))
  {
    NumeralsOfThird();
    assert "0:00.5" == "0" + ":" + "00" + "." + "5";
    ParsedAs("0", "00", "5", 0, 0, 5);
    assert ClockTime(0, 0, 5) == MsTime(5);
  }

  /** Milliseconds above 999 are refused. */
  lemma ExampleMillisBound()
    ensures FromStrMmSsMs("0:00.1000") == None
  {
    NumeralsOfFourth();
    assert "0:00.1000" == "0" + ":" + "00" + "." + "1000" by {
      var x := "0" + ":" + "00" + "." + "1000";
      assert |x| == 9;
      assert forall i | 0 <= i < 9 :: x[i] == "0:00.1000"[i];
    }
    ParsedAs("0", "00", "1000", 0, 0, 1000);
  }

  /** The numerals of the examples. */
  lemma NumeralsOfFirst()
    ensures ParseU64("01") == Some(1) && ParseU64("02") == Some(2) && ParseU64("345") == Some(345)
  {
    assert "01"[..1] == "0" && "02"[..1] == "0" && "0"[..0] == "";
    assert "345"[..2] == "34" && "34"[..1] == "3" && "3"[..0] == "";
  }

  lemma NumeralsOfSecond()
    ensures ParseU64("0") == Some(0) && ParseU64("75") == Some(75) && ParseU64("000") == Some(0)
  {
    assert "0"[..0] == "" && "75"[..1] == "7" && "7"[..0] == "";
    assert "000"[..2] == "00" && "00"[..1] == "0";
  }

  lemma NumeralsOfThird()
    ensures ParseU64("0") == Some(0) && ParseU64("00") == Some(0) && ParseU64("5") == Some(5)
  {
    assert "0"[..0] == "" && "00"[..1] == "0" && "5"[..0] == "";
  }

  lemma NumeralsOfFourth()
    ensures ParseU64("0") == Some(0) && ParseU64("00") == Some(0) && ParseU64("1000") == Some(1000)
  {
    assert "0"[..0] == "" && "00"[..1] == "0";
    assert "1000"[..3] == "100" && "100"[..2] == "10" && "10"[..1] == "1" && "1"[..0] == "";
  }

  /** How the parser splits a text `m:s.f` whose pieces hold no separator. */
  lemma ParsedAs(m: string, sec: string, frac: string, mv: u64, sv: u64, fv: u64)
    requires ':' !in m && ':' !in sec && ':' !in frac && '.' !in sec && '.' !in frac
    ensures Split(m + ":" + sec + "." + frac, ':') == [m, sec + "." + frac]
    ensures Split(sec + "." + frac, '.') == [sec, frac]
    ensures ParseU64(m) == Some(mv) && ParseU64(sec) == Some(sv) && ParseU64(frac) == Some(fv) ==>
      FromStrMmSsMs(m + ":" + sec + "." + frac) == if fv > 999 then None else Some(ClockTime(mv, sv, fv))
  {
    var ssMs := sec + "." + frac;
    assert ':' !in ssMs by {
      assert forall i | 0 <= i < |ssMs| :: ssMs[i] == '.' || ssMs[i] in sec || ssMs[i] in frac;
    }
    assert m + ":" + sec + "." + frac == m + ":" + ssMs;
    SplitTwo(m, ssMs);
    SplitDot(sec, frac);
    if ParseU64(m).Some? && ParseU64(sec).Some? && ParseU64(frac).Some? {
      PiecesParsed(m, ssMs, sec, frac);
    }
  }

  lemma SplitDot(sec: string, frac: string)
    requires '.' !in sec && '.' !in frac
    ensures Split(sec + "." + frac, '.') == [sec, frac]
  {
    SplitJoin([sec, frac], '.');
    assert Join([sec, frac], '.') == sec + "." + frac;
  }

  lemma PiecesParsed(m: string, ssMs: string, sec: string, frac: string)
    requires Split(ssMs, '.') == [sec, frac]
    requires ParseU64(m).Some? && ParseU64(sec).Some? && ParseU64(frac).Some?
    ensures var fv := ParseU64(frac).value;
      FromPieces([m, ssMs]) == if fv > 999 then None else Some(ClockTime(ParseU64(m).value, ParseU64(sec).value, fv))
  {
  }
}

=== FILE: nsjail.dfy ===
/** The sandbox launcher's argument builder (`NsJailBuilder`): four optional
    settings, turned into a fixed-order list of launcher options that always
    drops privileges, pins one CPU and disables the namespaces it does not
    need, and always ends the option list with `--`. */
module NsJail {
  import opened Wrappers
  import opened Text
  import opened Ints
  import opened MemorySize
  import opened SchemaTime
  import opened Host

  /** The builder's settings; all start unset. */
  datatype Builder = Builder(
    timeLimit: Option<MsTime>,
    memoryLimit: Option<Memory>,
    path: Option<string>,
    cwd: Option<string>)

  function New(): (b: Builder)
    ensures b.timeLimit.None? && b.memoryLimit.None? && b.path.None? && b.cwd.None?
  {
    Builder(None, None, None, None)
  }

  function SetTimeLimit(b: Builder, t: MsTime): (r: Builder)
    ensures r.timeLimit == Some(t)
    ensures r.memoryLimit == b.memoryLimit && r.path == b.path && r.cwd == b.cwd
  {
    b.(timeLimit := Some(t))
  }

  function SetMemoryLimit(b: Builder, m: Memory): (r: Builder)
    ensures r.memoryLimit == Some(m)
    ensures r.timeLimit == b.timeLimit && r.path == b.path && r.cwd == b.cwd
  {
    b.(memoryLimit := Some(m))
  }

  function SetPath(b: Builder, p: string): (r: Builder)
    ensures r.path == Some(p)
    ensures r.timeLimit == b.timeLimit && r.memoryLimit == b.memoryLimit && r.cwd == b.cwd
  {
    b.(path := Some(p))
  }

  function SetCwd(b: Builder, c: string): (r: Builder)
    ensures r.cwd == Some(c)
    ensures r.timeLimit == b.timeLimit && r.memoryLimit == b.memoryLimit && r.path == b.path
  {
    b.(cwd := Some(c))
  }

  /** The last call of a setter wins, and setters of different settings commute. */
  lemma SettersOverwriteAndCommute(b: Builder, t: MsTime, t': MsTime, m: Memory, m': Memory, p: string, p': string, c: string, c': string)
    ensures SetTimeLimit(SetTimeLimit(b, t), t') == SetTimeLimit(b, t')
    ensures SetMemoryLimit(SetMemoryLimit(b, m), m') == SetMemoryLimit(b, m')
    ensures SetPath(SetPath(b, p), p') == SetPath(b, p')
    ensures SetCwd(SetCwd(b, c), c') == SetCwd(b, c')
    ensures SetTimeLimit(SetMemoryLimit(b, m), t) == SetMemoryLimit(SetTimeLimit(b, t), m)
    ensures SetPath(SetCwd(b, c), p) == SetCwd(SetPath(b, p), c)
  {
  }

  /** The launcher's switches that this builder writes. */
  datatype SwitchName =
    | ModeOnce | DetectCgroupV2
    | DisableProc | DisableCloneNewnet | DisableCloneNewuser
    | DisableCloneNewipc | DisableCloneNewuts | DisableCloneNewcgroup

  /** The launcher's value-taking options that this builder writes. */
  datatype SettingName = User | Group | MaxCpus | TimeLimit | CgroupMemMax | RlimitAs | EnvVar | ReadOnlyMount | Chroot

  function SwitchWord(s: SwitchName): string {
    match s
    case ModeOnce => "-Mo"
    case DetectCgroupV2 => "--detect_cgroupv2"
    case DisableProc => "--disable_proc"
    case DisableCloneNewnet => "--disable_clone_newnet"
    case DisableCloneNewuser => "--disable_clone_newuser"
    case DisableCloneNewipc => "--disable_clone_newipc"
    case DisableCloneNewuts => "--disable_clone_newuts"
    case DisableCloneNewcgroup => "--disable_clone_newcgroup"
  }

  function SettingWord(n: SettingName): string {
    match n
    case User => "--user"
    case Group => "--group"
    case MaxCpus => "--max_cpus"
    case TimeLimit => "--time_limit"
    case CgroupMemMax => "--cgroup_mem_max"
    case RlimitAs => "--rlimit_as"
    case EnvVar => "--env"
    case ReadOnlyMount => "-R"
    case Chroot => "--chroot"
  }

  /** One launcher option: a switch, a setting with its value, the `--` that
      ends the options, or a word the launcher does not know. */
  datatype LaunchOption = Switch(switch: SwitchName) | Setting(name: SettingName, value: string) | EndOfOptions | Unknown(word: string)

  /** The identity, CPU and cgroup options every sandbox gets. */
  const FIXED_OPTIONS: seq<LaunchOption> :=
    [Switch(ModeOnce), Setting(User, "99999"), Setting(Group, "99999"), Setting(MaxCpus, "1"), Switch(DetectCgroupV2)]

  /** The namespaces and mounts every sandbox goes without. */
  const DISABLE_OPTIONS: seq<LaunchOption> :=
    [Switch(DisableProc), Switch(DisableCloneNewnet), Switch(DisableCloneNewuser),
     Switch(DisableCloneNewipc), Switch(DisableCloneNewuts), Switch(DisableCloneNewcgroup)]

  function TimeOptions(b: Builder): seq<LaunchOption> {
    match b.timeLimit
    case None => []
    case Some(t) => [Setting(TimeLimit, ShowNat(AsSecondsCeil(t)))]
  }

  function MemoryOptions(b: Builder): seq<LaunchOption> {
    match b.memoryLimit
    case None => []
    case Some(m) =>
      [Setting(CgroupMemMax, ShowNat(AsBytes(m))), Setting(RlimitAs, ShowNat(AsMegabytes(m) + 5))]
  }

  function PathOptions(b: Builder): seq<LaunchOption> {
    match b.path
    case None => []
    case Some(p) => [Setting(EnvVar, "PATH=" + p), Setting(ReadOnlyMount, p)]
  }

  function ChrootOptions(b: Builder): seq<LaunchOption> {
    match b.cwd
    case None => [Setting(Chroot, "/")]
    case Some(c) => [Setting(Chroot, c)]
  }

  function StoreOptions(env: Env): seq<LaunchOption> {
    [Setting(ReadOnlyMount, env.nixStorePath), Setting(ReadOnlyMount, env.nixBin), EndOfOptions]
  }

  /** `NsJailBuilder::write_args`, as the groups of options in the order it
      writes them. */
  function Segments(b: Builder, env: Env): seq<seq<LaunchOption>> {
    [FIXED_OPTIONS, DISABLE_OPTIONS, TimeOptions(b), MemoryOptions(b), PathOptions(b), ChrootOptions(b), StoreOptions(env)]
  }

  function Flatten(segments: seq<seq<LaunchOption>>): seq<LaunchOption> {
    if segments == [] then [] else segments[0] + Flatten(segments[1..])
  }

  /** The options `write_args` writes, in order. */
  function Options(b: Builder, env: Env): seq<LaunchOption> {
    Flatten(Segments(b, env))
  }

  /** The argument words of one option. */
  function Words(o: LaunchOption): seq<string> {
    match o
    case Switch(s) => [SwitchWord(s)]
    case Setting(n, value) => [SettingWord(n), value]
    case EndOfOptions => ["--"]
    case Unknown(word) => [word]
  }

  /** The argument words of a list of options. */
  function Render(opts: seq<LaunchOption>): seq<string> {
    if opts == [] then [] else Words(opts[0]) + Render(opts[1..])
  }

  lemma {:induction false} RenderConcat(a: seq<LaunchOption>, b: seq<LaunchOption>)
    ensures Render(a + b) == Render(a) + Render(b)
    decreases |a|
  {
    if a != [] {
      assert (a + b)[0] == a[0];
      assert (a + b)[1..] == a[1..] + b;
      RenderConcat(a[1..], b);
      assert Words(a[0]) + (Render(a[1..]) + Render(b)) == (Words(a[0]) + Render(a[1..])) + Render(b);
    } else {
      assert a + b == b;
    }
  }

  /** The argument words `write_args` appends. */
  function WriteArgs(b: Builder, env: Env): seq<string> {
    Render(Options(b, env))
  }

  /** The words start with the privilege drop, the CPU pin, cgroup detection
      and every disabling switch, in that order, and end with `--`. */
  lemma WrittenWords(b: Builder, env: Env)
    ensures |WriteArgs(b, env)| >= 14
    ensures WriteArgs(b, env)[..14] == ["-Mo", "--user", "99999", "--group", "99999", "--max_cpus", "1", "--detect_cgroupv2",
                                        "--disable_proc", "--disable_clone_newnet", "--disable_clone_newuser",
                                        "--disable_clone_newipc", "--disable_clone_newuts", "--disable_clone_newcgroup"]
    ensures WriteArgs(b, env)[|WriteArgs(b, env)| - 1] == "--"
  {
    var segments := Segments(b, env);
    var rest := Flatten(segments[2..]);
    assert segments[1..][1..] == segments[2..];
    assert Flatten(segments[1..]) == DISABLE_OPTIONS + rest;
    assert Options(b, env) == FIXED_OPTIONS + (DISABLE_OPTIONS + rest);
    RenderConcat(FIXED_OPTIONS, DISABLE_OPTIONS + rest);
    RenderConcat(DISABLE_OPTIONS, rest);
    FixedWords();
    OptionsEndWithMarker(b, env);
    LastRendered(Options(b, env));
  }

  lemma FixedWords()
    ensures Render(FIXED_OPTIONS) + Render(DISABLE_OPTIONS) ==
      ["-Mo", "--user", "99999", "--group", "99999", "--max_cpus", "1", "--detect_cgroupv2",
       "--disable_proc", "--disable_clone_newnet", "--disable_clone_newuser",
       "--disable_clone_newipc", "--disable_clone_newuts", "--disable_clone_newcgroup"]
  {
    FixedRendered();
    DisableRendered();
  }

  /** Rendering one option in front of others. */
  lemma RenderCons(o: LaunchOption, rest: seq<LaunchOption>)
    ensures Render([o] + rest) == Words(o) + Render(rest)
  {
    assert ([o] + rest)[1..] == rest;
  }

  lemma FixedRendered()
    ensures Render(FIXED_OPTIONS) == ["-Mo", "--user", "99999", "--group", "99999", "--max_cpus", "1", "--detect_cgroupv2"]
  {
    var f := FIXED_OPTIONS;
    RenderCons(f[4], []);
    assert f[4..] == [f[4]] + [];
    RenderCons(f[3], f[4..]);
    assert f[3..] == [f[3]] + f[4..];
    RenderCons(f[2], f[3..]);
    assert f[2..] == [f[2]] + f[3..];
    RenderCons(f[1], f[2..]);
    assert f[1..] == [f[1]] + f[2..];
    RenderCons(f[0], f[1..]);
    assert f == [f[0]] + f[1..];
  }

  lemma DisableRendered()
    ensures Render(DISABLE_OPTIONS) == ["--disable_proc", "--disable_clone_newnet", "--disable_clone_newuser",
                                       "--disable_clone_newipc", "--disable_clone_newuts", "--disable_clone_newcgroup"]
  {
    var d := DISABLE_OPTIONS;
    RenderCons(d[5], []);
    assert d[5..] == [d[5]] + [];
    RenderCons(d[4], d[5..]);
    assert d[4..] == [d[4]] + d[5..];
    RenderCons(d[3], d[4..]);
    assert d[3..] == [d[3]] + d[4..];
    RenderCons(d[2], d[3..]);
    assert d[2..] == [d[2]] + d[3..];
    RenderCons(d[1], d[2..]);
    assert d[1..] == [d[1]] + d[2..];
    RenderCons(d[0], d[1..]);
    assert d == [d[0]] + d[1..];
  }

  /** A list whose last option is `--` renders to words ending with `--`. */
  lemma LastRendered(opts: seq<LaunchOption>)
    requires |opts| >= 1 && opts[|opts| - 1] == EndOfOptions
    ensures |Render(opts)| >= 1 && Render(opts)[|Render(opts)| - 1] == "--"
  {
    var init := opts[..|opts| - 1];
    assert opts == init + [EndOfOptions];
    RenderConcat(init, [EndOfOptions]);
  }

  /** Flattening keeps the last option of a non-empty last group. */
  lemma {:induction false} FlattenLast(segments: seq<seq<LaunchOption>>)
    requires |segments| >= 1 && |segments[|segments| - 1]| >= 1
    ensures |Flatten(segments)| >= 1
    ensures Flatten(segments)[|Flatten(segments)| - 1] == segments[|segments| - 1][|segments[|segments| - 1]| - 1]
    decreases |segments|
  {
    if |segments| > 1 {
      FlattenLast(segments[1..]);
    } else {
      assert Flatten(segments) == segments[0] + [];
    }
  }

  lemma OptionsEndWithMarker(b: Builder, env: Env)
    ensures |Options(b, env)| >= 1 && Options(b, env)[|Options(b, env)| - 1] == EndOfOptions
  {
    FlattenLast(Segments(b, env));
  }

  /** The setting a word names, if any. */
  function SettingNamed(word: string): (r: Option<SettingName>)
    ensures r.Some? ==> SettingWord(r.value) == word
  {
    if word == "--user" then Some(User)
    else if word == "--group" then Some(Group)
    else if word == "--max_cpus" then Some(MaxCpus)
    else if word == "--time_limit" then Some(TimeLimit)
    else if word == "--cgroup_mem_max" then Some(CgroupMemMax)
    else if word == "--rlimit_as" then Some(RlimitAs)
    else if word == "--env" then Some(EnvVar)
    else if word == "-R" then Some(ReadOnlyMount)
    else if word == "--chroot" then Some(Chroot)
    else None
  }

  /** The switch a word names, if any. */
  function SwitchNamed(word: string): (r: Option<SwitchName>)
    ensures r.Some? ==> SwitchWord(r.value) == word
  {
    if word == "-Mo" then Some(ModeOnce)
    else if word == "--detect_cgroupv2" then Some(DetectCgroupV2)
    else if word == "--disable_proc" then Some(DisableProc)
    else if word == "--disable_clone_newnet" then Some(DisableCloneNewnet)
    else if word == "--disable_clone_newuser" then Some(DisableCloneNewuser)
    else if word == "--disable_clone_newipc" then Some(DisableCloneNewipc)
    else if word == "--disable_clone_newuts" then Some(DisableCloneNewuts)
    else if word == "--disable_clone_newcgroup" then Some(DisableCloneNewcgroup)
    else None
  }

  /** Every option word is recognised as itself and is not `--`. */
  lemma SettingRecognised(n: SettingName)
    ensures SettingNamed(SettingWord(n)) == Some(n) && SettingWord(n) != "--"
  {
  }

  lemma SwitchRecognised(s: SwitchName)
    ensures SettingNamed(SwitchWord(s)) == None && SwitchNamed(SwitchWord(s)) == Some(s) && SwitchWord(s) != "--"
  {
  }

  /** The launcher's reading of its arguments: a value-taking option consumes
      the next word, `--` ends the options, known switches stand alone, and
      any other word is reported as unknown. */
  function ReadOptions(args: seq<string>): seq<LaunchOption>
    decreases |args|
  {
    if args == [] then []
    else if args[0] == "--" then [EndOfOptions]
    else if SettingNamed(args[0]).Some? && |args| >= 2 then [Setting(SettingNamed(args[0]).value, args[1])] + ReadOptions(args[2..])
    else if SwitchNamed(args[0]).Some? then [Switch(SwitchNamed(args[0]).value)] + ReadOptions(args[1..])
    else [Unknown(args[0])] + ReadOptions(args[1..])
  }

  /** Options the launcher reads back unambiguously: known switches and
      settings, with `--` at the end and nowhere else. */
  predicate WellFormed(opts: seq<LaunchOption>) {
    && |opts| >= 1
    && opts[|opts| - 1] == EndOfOptions
    && forall i | 0 <= i < |opts| - 1 :: opts[i].Switch? || opts[i].Setting?
  }

  /** Reading one rendered option off the front of the words. */
  lemma ReadFirst(o: LaunchOption, tail: seq<string>)
    requires o.Switch? || o.Setting?
    ensures ReadOptions(Words(o) + tail) == [o] + ReadOptions(tail)
  {
    match o
    case Switch(s) =>
      SwitchRecognised(s);
      assert (Words(o) + tail)[1..] == tail;
    case Setting(n, value) =>
      SettingRecognised(n);
      assert (Words(o) + tail)[2..] == tail;
  }

  /** The launcher reads back exactly the options that were rendered, and
      the sandboxed command after them does not disturb it. */
  lemma {:induction false} ReadRendered(opts: seq<LaunchOption>, command: seq<string>)
    requires WellFormed(opts)
    ensures ReadOptions(Render(opts) + command) == opts
    decreases |opts|
  {
    if |opts| == 1 {
      assert Render(opts) == ["--"];
    } else {
      var tail := opts[1..];
      assert WellFormed(tail) by {
        assert forall i | 0 <= i < |tail| - 1 :: tail[i] == opts[i + 1];
      }
      ReadRendered(tail, command);
      assert Render(opts) + command == Words(opts[0]) + (Render(tail) + command);
      ReadFirst(opts[0], Render(tail) + command);
    }
  }

  /** Every list the builder writes is well formed. */
  lemma OptionsWellFormed(b: Builder, env: Env)
    ensures WellFormed(Options(b, env))
  {
    var segments := Segments(b, env);
    var front := segments[..6];
    var store := StoreOptions(env);
    assert Plain(front[0]) && Plain(front[1]) && Plain(front[2]);
    assert Plain(front[3]) && Plain(front[4]) && Plain(front[5]);
    assert Plain(store[..2]);
    assert segments == front + [store];
    WellFormedJoin(front, store);
  }

  /** Plain groups followed by a group that ends with `--` flatten to a
      well-formed list. */
  lemma WellFormedJoin(front: seq<seq<LaunchOption>>, last: seq<LaunchOption>)
    requires forall k | 0 <= k < |front| :: Plain(front[k])
    requires |last| >= 1 && Plain(last[..|last| - 1]) && last[|last| - 1] == EndOfOptions
    ensures WellFormed(Flatten(front + [last]))
  {
    FlattenSplit(front, [last]);
    assert Flatten([last]) == last + [];
    assert last + [] == last;
    FlattenPlain(front);
    PlainThenMarker(Flatten(front), last);
    assert Flatten(front + [last]) == Flatten(front) + last;
  }

  /** Plain options followed by a list that ends with `--` are well formed. */
  lemma PlainThenMarker(f: seq<LaunchOption>, last: seq<LaunchOption>)
    requires Plain(f)
    requires |last| >= 1 && Plain(last[..|last| - 1]) && last[|last| - 1] == EndOfOptions
    ensures WellFormed(f + last)
  {
    var init := last[..|last| - 1];
    var opts := f + last;
    forall i | 0 <= i < |opts| - 1
      ensures opts[i].Switch? || opts[i].Setting?
    {
      if i < |f| {
        assert opts[i] == f[i];
      } else {
        assert opts[i] == init[i - |f|];
      }
    }
  }

  /** Options that are all known switches and settings. */
  predicate Plain(opts: seq<LaunchOption>) {
    forall i | 0 <= i < |opts| :: opts[i].Switch? || opts[i].Setting?
  }

  lemma {:induction false} FlattenSplit(a: seq<seq<LaunchOption>>, b: seq<seq<LaunchOption>>)
    ensures Flatten(a + b) == Flatten(a) + Flatten(b)
    decreases |a|
  {
    if a == [] {
      assert a + b == b;
    } else {
      assert (a + b)[1..] == a[1..] + b;
      FlattenSplit(a[1..], b);
    }
  }

  lemma {:induction false} FlattenPlain(segments: seq<seq<LaunchOption>>)
    requires forall k | 0 <= k < |segments| :: Plain(segments[k])
    ensures Plain(Flatten(segments))
    decreases |segments|
  {
    if segments != [] {
      FlattenPlain(segments[1..]);
      var a, b := segments[0], Flatten(segments[1..]);
      assert forall i | 0 <= i < |a + b| :: (a + b)[i] == if i < |a| then a[i] else b[i - |a|];
    }
  }

  /** The launcher, reading the written arguments followed by any command,
      sees exactly the builder's options. */
  lemma LauncherReadsOptions(b: Builder, env: Env, command: seq<string>)
    ensures ReadOptions(WriteArgs(b, env) + command) == Options(b, env)
  {
    OptionsWellFormed(b, env);
    ReadRendered(Options(b, env), command);
  }

  /** The value of the first setting with the given name. */
  function Lookup(opts: seq<LaunchOption>, name: SettingName): Option<string> {
    if opts == [] then None
    else if opts[0].Setting? && opts[0].name == name then Some(opts[0].value)
    else Lookup(opts[1..], name)
  }

  /** How many settings with the given name there are. */
  function CountSettings(opts: seq<LaunchOption>, name: SettingName): nat {
    if opts == [] then 0
    else (if opts[0].Setting? && opts[0].name == name then 1 else 0) + CountSettings(opts[1..], name)
  }

  lemma {:induction false} LookupConcat(a: seq<LaunchOption>, b: seq<LaunchOption>, name: SettingName)
    ensures Lookup(a + b, name) == if Lookup(a, name).Some? then Lookup(a, name) else Lookup(b, name)
    ensures CountSettings(a + b, name) == CountSettings(a, name) + CountSettings(b, name)
    decreases |a|
  {
    if a == [] {
      assert a + b == b;
    } else {
      assert (a + b)[1..] == a[1..] + b;
      LookupConcat(a[1..], b, name);
    }
  }

  /** The first value any group gives a name. */
  function FirstFound(segments: seq<seq<LaunchOption>>, name: SettingName): Option<string> {
    if segments == [] then None
    else if Lookup(segments[0], name).Some? then Lookup(segments[0], name)
    else FirstFound(segments[1..], name)
  }

  function CountIn(segments: seq<seq<LaunchOption>>, name: SettingName): nat {
    if segments == [] then 0 else CountSettings(segments[0], name) + CountIn(segments[1..], name)
  }

  /** Lookups and counts in flattened groups, group by group. */
  lemma {:induction false} LookupFlatten(segments: seq<seq<LaunchOption>>, name: SettingName)
    ensures Lookup(Flatten(segments), name) == FirstFound(segments, name)
    ensures CountSettings(Flatten(segments), name) == CountIn(segments, name)
    decreases |segments|
  {
    if segments != [] {
      LookupConcat(segments[0], Flatten(segments[1..]), name);
      LookupFlatten(segments[1..], name);
    }
  }

  lemma {:induction false} CountZero(opts: seq<LaunchOption>, name: SettingName)
    ensures CountSettings(opts, name) == 0 <==> Lookup(opts, name).None?
    decreases |opts|
  {
    if opts != [] {
      CountZero(opts[1..], name);
    }
  }

  /** When no group gives a name, neither does their concatenation. */
  lemma {:induction false} AbsentEverywhere(segments: seq<seq<LaunchOption>>, name: SettingName)
    requires forall j | 0 <= j < |segments| :: CountSettings(segments[j], name) == 0
    ensures FirstFound(segments, name).None? && CountIn(segments, name) == 0
    decreases |segments|
  {
    if segments != [] {
      CountZero(segments[0], name);
      AbsentEverywhere(segments[1..], name);
    }
  }

  /** When only group `k` gives a name, lookups and counts are that group's. */
  lemma {:induction false} OnlyIn(segments: seq<seq<LaunchOption>>, k: nat, name: SettingName)
    requires k < |segments|
    requires forall j | 0 <= j < |segments| && j != k :: CountSettings(segments[j], name) == 0
    ensures FirstFound(segments, name) == Lookup(segments[k], name)
    ensures CountIn(segments, name) == CountSettings(segments[k], name)
    decreases k
  {
    if k == 0 {
      AbsentEverywhere(segments[1..], name);
    } else {
      CountZero(segments[0], name);
      OnlyIn(segments[1..], k - 1, name);
    }
  }

  /** The group that sets each name; `-R` is the one name several groups set. */
  function Owner(name: SettingName): nat
    requires name != ReadOnlyMount
  {
    match name
    case User => 0
    case Group => 0
    case MaxCpus => 0
    case TimeLimit => 2
    case CgroupMemMax => 3
    case RlimitAs => 3
    case EnvVar => 4
    case Chroot => 5
  }

  lemma FixedSets(name: SettingName)
    requires name != User && name != Group && name != MaxCpus
    ensures CountSettings(FIXED_OPTIONS, name) == 0 && CountSettings(DISABLE_OPTIONS, name) == 0
  {
    CountAbsent(FIXED_OPTIONS, name);
    CountAbsent(DISABLE_OPTIONS, name);
  }

  /** A name no option sets is counted zero times. */
  lemma {:induction false} CountAbsent(opts: seq<LaunchOption>, name: SettingName)
    requires forall i | 0 <= i < |opts| :: !(opts[i].Setting? && opts[i].name == name)
    ensures CountSettings(opts, name) == 0
    decreases |opts|
  {
    if opts != [] {
      CountAbsent(opts[1..], name);
    }
  }

  lemma TimeSets(b: Builder, name: SettingName)
    requires name != TimeLimit
    ensures CountSettings(TimeOptions(b), name) == 0
  {
  }

  lemma MemorySets(b: Builder, name: SettingName)
    requires name != CgroupMemMax && name != RlimitAs
    ensures CountSettings(MemoryOptions(b), name) == 0
  {
    var opts := MemoryOptions(b);
    if opts != [] {
      assert CountSettings(opts[1..], name) == 0;
    }
  }

  lemma PathSets(b: Builder, name: SettingName)
    requires name != EnvVar && name != ReadOnlyMount
    ensures CountSettings(PathOptions(b), name) == 0
  {
    var opts := PathOptions(b);
    if opts != [] {
      assert CountSettings(opts[1..], name) == 0;
    }
  }

  lemma ChrootSets(b: Builder, name: SettingName)
    requires name != Chroot
    ensures CountSettings(ChrootOptions(b), name) == 0
  {
  }

  lemma StoreSets(env: Env, name: SettingName)
    requires name != ReadOnlyMount
    ensures CountSettings(StoreOptions(env), name) == 0
  {
    var opts := StoreOptions(env);
    assert CountSettings(opts[2..], name) == 0;
    assert CountSettings(opts[1..], name) == 0;
  }

  lemma NotOwned(b: Builder, env: Env, j: nat, name: SettingName)
    requires j < 7 && name != ReadOnlyMount && j != Owner(name)
    ensures CountSettings(Segments(b, env)[j], name) == 0
  {
    var segments := Segments(b, env);
    if j == 0 {
      FixedSets(name);
    } else if j == 1 {
      assert segments[1] == DISABLE_OPTIONS;
      assert CountSettings(DISABLE_OPTIONS, name) == 0;
    } else if j == 2 {
      TimeSets(b, name);
    } else if j == 3 {
      MemorySets(b, name);
    } else if j == 4 {
      PathSets(b, name);
    } else if j == 5 {
      ChrootSets(b, name);
    } else {
      StoreSets(env, name);
    }
  }

  /** Each name other than `-R` is set by its owning group alone. */
  lemma OnlySegment(b: Builder, env: Env, name: SettingName)
    requires name != ReadOnlyMount
    ensures Lookup(Options(b, env), name) == Lookup(Segments(b, env)[Owner(name)], name)
    ensures CountSettings(Options(b, env), name) == CountSettings(Segments(b, env)[Owner(name)], name)
  {
    var segments := Segments(b, env);
    forall j | 0 <= j < |segments| && j != Owner(name)
      ensures CountSettings(segments[j], name) == 0
    {
      NotOwned(b, env, j, name);
    }
    LookupFlatten(segments, name);
    OnlyIn(segments, Owner(name), name);
  }

  /** `--time_limit` is present exactly when a time limit is set, and its
      value is the least number of whole seconds covering the limit. */
  lemma TimeLimitOption(b: Builder, env: Env)
    ensures Lookup(Options(b, env), TimeLimit).Some? <==> b.timeLimit.Some?
    ensures b.timeLimit.Some? ==> Lookup(Options(b, env), TimeLimit) == Some(ShowNat(AsSecondsCeil(b.timeLimit.value)))
    ensures b.timeLimit.Some? ==>
      var v := Lookup(Options(b, env), TimeLimit).value;
      && ParseU64(v).Some?
      && ParseU64(v).value * 1000 >= b.timeLimit.value.ms
      && (ParseU64(v).value == 0 || (ParseU64(v).value - 1) * 1000 < b.timeLimit.value.ms)
  {
    OnlySegment(b, env, TimeLimit);
    if b.timeLimit.Some? {
      ParseShow(AsSecondsCeil(b.timeLimit.value));
    }
  }

  /** With a memory limit, the cgroup ceiling is its exact byte count and the
      address-space limit is its whole MiB plus five, which exceeds the
      cgroup ceiling by more than 4 MiB; without one, neither option appears. */
  lemma MemoryLimitOptions(b: Builder, env: Env)
    ensures Lookup(Options(b, env), CgroupMemMax).Some? <==> b.memoryLimit.Some?
    ensures Lookup(Options(b, env), RlimitAs).Some? <==> b.memoryLimit.Some?
    ensures b.memoryLimit.Some? ==>
      var cgroup := Lookup(Options(b, env), CgroupMemMax).value;
      var rlimit := Lookup(Options(b, env), RlimitAs).value;
      && ParseU64(cgroup) == Some(AsBytes(b.memoryLimit.value))
      && ParseU64(rlimit).Some?
      && ParseU64(rlimit).value * MIB > AsBytes(b.memoryLimit.value) + 4 * MIB
  {
    MemoryLookups(b, env);
    if b.memoryLimit.Some? {
      MemoryValues(b.memoryLimit.value);
    }
  }

  /** The memory settings as they stand in the written options. */
  lemma MemoryLookups(b: Builder, env: Env)
    ensures b.memoryLimit.None? ==> Lookup(Options(b, env), CgroupMemMax).None? && Lookup(Options(b, env), RlimitAs).None?
    ensures b.memoryLimit.Some? ==>
      && Lookup(Options(b, env), CgroupMemMax) == Some(ShowNat(AsBytes(b.memoryLimit.value)))
      && Lookup(Options(b, env), RlimitAs) == Some(ShowNat(AsMegabytes(b.memoryLimit.value) + 5))
  {
    CgroupLookup(b, env);
    RlimitLookup(b, env);
    MemorySegment(b);
  }

  lemma CgroupLookup(b: Builder, env: Env)
    ensures Lookup(Options(b, env), CgroupMemMax) == Lookup(MemoryOptions(b), CgroupMemMax)
  {
    OnlySegment(b, env, CgroupMemMax);
    assert Segments(b, env)[3] == MemoryOptions(b);
  }

  lemma RlimitLookup(b: Builder, env: Env)
    ensures Lookup(Options(b, env), RlimitAs) == Lookup(MemoryOptions(b), RlimitAs)
  {
    OnlySegment(b, env, RlimitAs);
    assert Segments(b, env)[3] == MemoryOptions(b);
  }

  /** The memory group's own settings. */
  lemma MemorySegment(b: Builder)
    ensures b.memoryLimit.None? ==> Lookup(MemoryOptions(b), CgroupMemMax).None? && Lookup(MemoryOptions(b), RlimitAs).None?
    ensures b.memoryLimit.Some? ==>
      && Lookup(MemoryOptions(b), CgroupMemMax) == Some(ShowNat(AsBytes(b.memoryLimit.value)))
      && Lookup(MemoryOptions(b), RlimitAs) == Some(ShowNat(AsMegabytes(b.memoryLimit.value) + 5))
  {
    if b.memoryLimit.Some? {
      var opts := MemoryOptions(b);
      assert Lookup(opts[1..], RlimitAs) == Some(ShowNat(AsMegabytes(b.memoryLimit.value) + 5));
    }
  }

  lemma MemoryValues(m: Memory)
    ensures AsMegabytes(m) + 5 < U64_LIMIT
    ensures ParseU64(ShowNat(AsBytes(m))) == Some(AsBytes(m))
    ensures ParseU64(ShowNat(AsMegabytes(m) + 5)) == Some(AsMegabytes(m) + 5)
    ensures (AsMegabytes(m) + 5) * MIB > AsBytes(m) + 4 * MIB
  {
    RlimitAboveCgroup(m);
    ParseShow(AsBytes(m));
    ParseShow(AsMegabytes(m) + 5);
  }

  /** Whole MiB plus five, in bytes, exceed the exact byte count by more
      than 4 MiB. */
  lemma RlimitAboveCgroup(m: Memory)
    ensures AsMegabytes(m) + 5 < U64_LIMIT
    ensures (AsMegabytes(m) + 5) * MIB > AsBytes(m) + 4 * MIB
  {
    var k := AsMegabytes(m);
    assert k <= k * MIB <= m.bytes;
    assert (k + 5) * MIB == (k + 1) * MIB + 4 * MIB;
  }

  /** Exactly one `--chroot`: the working directory when set, else `/`. */
  lemma ChrootOption(b: Builder, env: Env)
    ensures CountSettings(Options(b, env), Chroot) == 1
    ensures Lookup(Options(b, env), Chroot) == Some(if b.cwd.Some? then b.cwd.value else "/")
  {
    OnlySegment(b, env, Chroot);
  }

  /** `PATH` is set in the sandbox, and the path mounted read-only, exactly
      when a path is set. */
  lemma PathOption(b: Builder, env: Env)
    ensures Lookup(Options(b, env), EnvVar).Some? <==> b.path.Some?
    ensures b.path.Some? ==>
      && Lookup(Options(b, env), EnvVar) == Some("PATH=" + b.path.value)
      && Setting(ReadOnlyMount, b.path.value) in Options(b, env)
  {
    OnlySegment(b, env, EnvVar);
    if b.path.Some? {
      InFlatten(Segments(b, env), 4, 1);
    }
  }

  lemma {:induction false} InFlatten(segments: seq<seq<LaunchOption>>, k: nat, i: nat)
    requires k < |segments| && i < |segments[k]|
    ensures segments[k][i] in Flatten(segments)
    decreases k
  {
    if k > 0 {
      InFlatten(segments[1..], k - 1, i);
    }
  }

  /** Whatever the settings: privileges dropped to 99999, one CPU, every
      disabling switch, the store and its binaries mounted read-only. */
  lemma AlwaysConfined(b: Builder, env: Env)
    ensures Lookup(Options(b, env), User) == Some("99999") && Lookup(Options(b, env), Group) == Some("99999")
    ensures Lookup(Options(b, env), MaxCpus) == Some("1")
    ensures forall i | 0 <= i < |DISABLE_OPTIONS| :: DISABLE_OPTIONS[i] in Options(b, env)
    ensures Setting(ReadOnlyMount, env.nixStorePath) in Options(b, env)
    ensures Setting(ReadOnlyMount, env.nixBin) in Options(b, env)
  {
    var segments := Segments(b, env);
    LookupFlatten(segments, User);
    LookupFlatten(segments, Group);
    LookupFlatten(segments, MaxCpus);
    forall i | 0 <= i < |DISABLE_OPTIONS| ensures DISABLE_OPTIONS[i] in Options(b, env) {
      InFlatten(segments, 1, i);
    }
    InFlatten(segments, 6, 0);
    InFlatten(segments, 6, 1);
  }

  /** `NsJailBuilder::build`: the launcher as the program, the written
      arguments, and the working directory when one is set. */
  function Build(b: Builder, env: Env): (c: Command)
    ensures c.program == env.nsjailCmd
    ensures c.args == WriteArgs(b, env)
    ensures ReadOptions(c.args) == Options(b, env)
    ensures c.currentDir == b.cwd
  {
    LauncherReadsOptions(b, env, []);
    assert WriteArgs(b, env) + [] == WriteArgs(b, env);
    Command(env.nsjailCmd, WriteArgs(b, env), b.cwd)
  }

  /** `NsJailBuilder::write`: the launcher and its arguments appended to an
      existing command, which keeps its program and earlier arguments. */
  function Write(b: Builder, env: Env, c: Command): (r: Command)
    ensures r.program == c.program
    ensures r.args == c.args + [env.nsjailCmd] + WriteArgs(b, env)
    ensures |r.args| > |c.args|
    ensures r.args[..|c.args|] == c.args && r.args[|c.args|] == env.nsjailCmd
    ensures ReadOptions(r.args[|c.args| + 1..]) == Options(b, env)
    ensures r.currentDir == if b.cwd.Some? then b.cwd else c.currentDir
  {
    var r := Command(c.program, c.args + [env.nsjailCmd] + WriteArgs(b, env), if b.cwd.Some? then b.cwd else c.currentDir);
    assert r.args[|c.args| + 1..] == WriteArgs(b, env) + [];
    LauncherReadsOptions(b, env, []);
    r
  }

  /** Writing into a fresh command gives the launcher the same arguments as building. */
  lemma WriteMatchesBuild(b: Builder, env: Env, program: string)
    ensures Write(b, env, NewCommand(program)).args == [env.nsjailCmd] + Build(b, env).args
  {
  }

  /** A measured sandbox's command: the wrapper's own arguments, then the
      launcher and its arguments. */
  lemma FinalizeWrapped(s: Sandbox, env: Env)
    requires s.wrapped.Some?
    ensures Finalize(s, env).command.args == s.wrapped.value.args + [env.nsjailCmd] + WriteArgs(s.core, env)
  {
  }

  /** What the builder methods outside `write_args` add to a sandbox; their
      launcher flags are not part of this model. */
  datatype Directive =
    | MountRo(path: string)
    | MountRw(path: string)
    | MountRwDest(source: string, dest: string)
    | SetEnv(name: string, value: string)
    | ProcWritable(on: bool)
    | TmpfsMount(path: string, size: Memory)
    | Writable
    | RawArg(arg: string)
    | Log(file: string)

  /** A builder together with the command it wraps (`new_with`) and the
      directives applied to it, in order. */
  datatype Sandbox = Sandbox(core: Builder, wrapped: Option<Command>, directives: seq<Directive>)

  /** A command ready to spawn, with the directives its launcher was given. */
  datatype Launch = Launch(command: Command, directives: seq<Directive>)

  /** `build` of a sandbox: a wrapped command gets the launcher appended as
      `write` does; the directives are carried along uninterpreted. */
  function Finalize(s: Sandbox, env: Env): (l: Launch)
    ensures l.directives == s.directives
    ensures s.wrapped.Some? ==> l.command.program == s.wrapped.value.program
    ensures s.wrapped.None? ==> l.command.program == env.nsjailCmd
    ensures l.command.currentDir == if s.core.cwd.Some? then s.core.cwd else if s.wrapped.Some? then s.wrapped.value.currentDir else None
  {
    match s.wrapped
    case None => Launch(Build(s.core, env), s.directives)
    case Some(c) => Launch(Write(s.core, env, c), s.directives)
  }
}

=== FILE: orchestrator.dfy ===
/** One judging run (`runner::run`): make a private working directory, write
    the source, optionally compile it in a sandbox, run it in a sandbox with
    the request's input, read what the measuring wrapper recorded, and
    classify the outcome. Every effect is an oracle input (`World`); the
    model records the effects it asks for as a trace of actions. */
module Orchestrator {
  import opened Wrappers
  import opened Ints
  import MemorySize
  import SchemaTime
  import opened Lang
  import Schema
  import opened Host
  import opened Accounting
  import opened NsJail
  import opened Registry

  /** What the outside world answers to each effect of one run. */
  datatype World = World(
    ulid: string,
    createDir: Outcome<IoError>,
    chown: Outcome<IoError>,
    writeSource: Outcome<IoError>,
    compile: CompileWorld,
    run: RunWorld)

  /** The compile process: spawning it, waiting for it, and the report file. */
  datatype CompileWorld = CompileWorld(
    spawn: Outcome<IoError>,
    output: Result<ProcessOutput, IoError>,
    report: Result<string, IoError>)

  /** The run process, which also has its input piped in. */
  datatype RunWorld = RunWorld(
    spawn: Outcome<IoError>,
    stdinOpen: bool,
    stdinWrite: Outcome<IoError>,
    output: Result<ProcessOutput, IoError>,
    report: Result<string, IoError>)

  /** A sandbox and the shell script to run in it. */
  datatype Job = Job(sandbox: Sandbox, script: string)

  /** The effects a run asks for, in order. */
  datatype Action =
    | CreateDir(path: string)
    | Chown(path: string)
    | WriteFile(path: string, contents: string)
    | Spawn(job: Job)
    | WriteStdin(data: string)
    | Wait
    | ReadReport(path: string)

  /** The outcome of a run (`Ok` state or `Err`) and the effects it asked for. */
  datatype Execution = Execution(result: Result<Schema.RunnerState, Error>, trace: seq<Action>)

  /** Where a phase ended: with the run's final result, or handing on. */
  datatype PhaseEnd = PhaseEnd(stop: Option<Result<Schema.RunnerState, Error>>, trace: seq<Action>)

  /** The error for a missing input pipe. */
  const STDIN_ERROR: IoError := IoError(Other, "Failed to open stdin")

  /** `create_dir_by_uid`'s directory: the run's identifier under the
      running directory. */
  function Workspace(w: World): (dir: string)
    ensures |dir| == |RUNNING_PATH| + 1 + |w.ulid|
    ensures dir[..|RUNNING_PATH|] == RUNNING_PATH && dir[|RUNNING_PATH| + 1..] == w.ulid
  {
    JoinPath(RUNNING_PATH, w.ulid)
  }

  /** The report the wrapper leaves in the working directory. */
  function ReportPath(dir: string): string {
    JoinPath(dir, TIME_TXT)
  }

  /** `add_megabytes(1)`: one more MiB, wrapping past 2^64. */
  function AddMegabyte(m: MemorySize.Memory): (r: MemorySize.Memory)
    ensures m.bytes + MemorySize.MIB < U64_LIMIT ==> r.bytes == m.bytes + MemorySize.MIB
  {
    MemorySize.Memory(Wrap(m.bytes + MemorySize.MIB))
  }

  /** The command line a recipe runs for the given code. */
  function RunText(runner: LangRunner, code: string): (text: string)
    ensures RunCmd(runner).Static? ==> text == RunCmd(runner).cmd
    ensures RunCmd(runner).WithCode? ==> text == RunCmd(runner).render(code)
  {
    match RunCmd(runner)
    case WithCode(render) => render(code)
    case Static(cmd) => cmd
  }

  /** The command a job spawns: the finished sandbox with the shell script
      appended. */
  function Scripted(job: Job, env: Env): Launch {
    var l := Finalize(job.sandbox, env);
    Launch(WithArgs(l.command, [env.shCmd, "-c", job.script]), l.directives)
  }

  function HookOf(hook: Option<seq<Directive>>): seq<Directive> {
    if hook.Some? then hook.value else []
  }

  /** The compile sandbox: the options' compile limits, the working directory,
      the toolchain on `PATH` and mounted read-only, a writable `/proc`, file
      size and descriptor limits, a 512 MiB `/tmp`, a writable root, then the
      recipe's compile hook; all under the measuring wrapper. */
  function CompileSandbox(env: Env, runner: LangRunner, lang: Language, option: RunnerOption, dir: string): Sandbox {
    var core := SetCwd(SetMemoryLimit(SetTimeLimit(NsJail.New(), option.compileTimeLimit), option.compileMemoryLimit), dir);
    var directives := [ProcWritable(true), RawArg("--rlimit_fsize"), RawArg("100"), RawArg("--rlimit_nofile"), RawArg("128"),
                       SetEnv("PATH", BinPath(env, lang)), MountRo(RunnerPath(env, lang)),
                       TmpfsMount("/tmp", MemorySize.NewMegabytes(512)), Writable];
    Sandbox(core, Some(Accounting.NewCmd(env)), directives + HookOf(OptionOf(runner).moreCompile))
  }

  /** The run sandbox: the toolchain on `PATH` and mounted read-only, the
      request's limits plus one second and one MiB, a launcher log, the
      working directory, then the recipe's run hook; under the wrapper. */
  function RunSandbox(env: Env, runner: LangRunner, request: Schema.RunnerRequest, dir: string): Sandbox {
    var core := SetCwd(SetMemoryLimit(SetTimeLimit(NsJail.New(), SchemaTime.AddSeconds(request.msTimeLimit, 1)), AddMegabyte(request.memoryLimit)), dir);
    var directives := [SetEnv("PATH", BinPath(env, request.lang)), MountRo(RunnerPath(env, request.lang)), Log("nsjail.log")];
    Sandbox(core, Some(Accounting.NewCmd(env)), directives + HookOf(OptionOf(runner).moreRun))
  }

  /** Making the working directory and writing the source into it. */
  function Prepare(runner: LangRunner, code: string, w: World): PhaseEnd {
    var dir := Workspace(w);
    if w.createDir.Fail? then PhaseEnd(Some(Failure(IO(w.createDir.error))), [CreateDir(dir)])
    else if w.chown.Fail? then PhaseEnd(Some(Failure(IO(w.chown.error))), [CreateDir(dir), Chown(dir)])
    else
      match FileName(runner)
      case None => PhaseEnd(None, [CreateDir(dir), Chown(dir)])
      case Some(name) =>
        var trace := [CreateDir(dir), Chown(dir), WriteFile(JoinPath(dir, name), code)];
        if w.writeSource.Fail? then PhaseEnd(Some(Failure(IO(w.writeSource.error))), trace)
        else PhaseEnd(None, trace)
  }

  /** The compile phase, when the recipe has one: spawn, wait, read the
      report (whose figures are not checked against anything), and stop with
      the compiler's error output when it did not succeed. */
  function CompilePhase(env: Env, runner: LangRunner, lang: Language, option: RunnerOption, dir: string, p: CompileWorld): PhaseEnd {
    match CompileCmd(runner)
    case None => PhaseEnd(None, [])
    case Some(cmd) => CompileJob(Job(CompileSandbox(env, runner, lang, option, dir), cmd), dir, p)
  }

  /** The compile phase once its job is known: spawn, wait, read the report,
      and stop with a compile error when the compiler failed. */
  function CompileJob(job: Job, dir: string, p: CompileWorld): PhaseEnd {
    if p.spawn.Fail? then PhaseEnd(Some(Failure(IO(p.spawn.error))), [Spawn(job)])
    else if p.output.Failure? then PhaseEnd(Some(Failure(IO(p.output.error))), [Spawn(job), Wait])
    else
      var trace := [Spawn(job), Wait, ReadReport(ReportPath(dir))];
      match Read(p.report)
      case Failure(e) => PhaseEnd(Some(Failure(IO(e))), trace)
      case Success(_) =>
        if !Succeeded(p.output.value.status) then PhaseEnd(Some(Success(Schema.CompileError(p.output.value.stderr))), trace)
        else PhaseEnd(None, trace)
  }

  /** Both measurements within the request's limits (times and memories
      compare by their counts). */
  predicate WithinLimits(request: Schema.RunnerRequest, usage: Usage) {
    usage.time.ms <= request.msTimeLimit.ms && usage.memory.bytes <= request.memoryLimit.bytes
  }

  /** The exit code a runtime error reports: the process's own, or 137 when
      it was ended by a signal. */
  function ReportedCode(status: ExitStatus): (code: i32)
    ensures status.Exited? ==> code == status.code
    ensures status.Signaled? ==> code == 137
  {
    match ExitCode(status)
    case Some(code) => code
    case None => 137
  }

  /** The outcome classifier: over the time limit is a timeout whatever
      else happened; otherwise over the memory limit; otherwise a failed exit
      is a runtime error; otherwise success. Each outcome carries what was
      measured and captured. */
  function Classify(request: Schema.RunnerRequest, output: ProcessOutput, usage: Usage): (s: Schema.RunnerState)
    ensures s.Timeout? <==> SchemaTime.Less(request.msTimeLimit, usage.time)
    ensures s.MemoryLimit? <==> !SchemaTime.Less(request.msTimeLimit, usage.time) && MemorySize.Less(request.memoryLimit, usage.memory)
    ensures s.RuntimeError? <==> WithinLimits(request, usage) && !Succeeded(output.status)
    ensures s.Success? <==> WithinLimits(request, usage) && Succeeded(output.status)
    ensures !s.CompileError? && !s.InternalError?
    ensures s.Timeout? ==> s.msTimeElapsed == usage.time
    ensures s.MemoryLimit? ==> s.maxMemoryUsage == usage.memory
    ensures s.RuntimeError? ==>
      && s.stderr == output.stderr && s.exitCode == ReportedCode(output.status) && s.exitCode != 0
      && s.maxMemoryUsage == usage.memory && s.msTimeElapsed == usage.time
    ensures s.Success? ==> s.stdout == output.stdout && s.maxMemoryUsage == usage.memory && s.msTimeElapsed == usage.time
  {
    if SchemaTime.Less(request.msTimeLimit, usage.time) then Schema.Timeout(usage.time)
    else if MemorySize.Less(request.memoryLimit, usage.memory) then Schema.MemoryLimit(usage.memory)
    else if !Succeeded(output.status) then
      Schema.RuntimeError(output.stderr, ReportedCode(output.status), usage.memory, usage.time)
    else Schema.Success(output.stdout, usage.memory, usage.time)
  }

  /** The run phase: spawn with piped input, write the input, wait, read the
      report, classify. */
  function RunPhase(env: Env, runner: LangRunner, request: Schema.RunnerRequest, dir: string, p: RunWorld): Execution {
    var launch := Job(RunSandbox(env, runner, request, dir), RunText(runner, request.code));
    if p.spawn.Fail? then Execution(Failure(IO(p.spawn.error)), [Spawn(launch)])
    else if !p.stdinOpen then Execution(Failure(IO(STDIN_ERROR)), [Spawn(launch)])
    else if p.stdinWrite.Fail? then Execution(Failure(IO(p.stdinWrite.error)), [Spawn(launch), WriteStdin(request.stdin)])
    else if p.output.Failure? then Execution(Failure(IO(p.output.error)), [Spawn(launch), WriteStdin(request.stdin), Wait])
    else
      var trace := [Spawn(launch), WriteStdin(request.stdin), Wait, ReadReport(ReportPath(dir))];
      match Read(p.report)
      case Failure(e) => Execution(Failure(IO(e)), trace)
      case Success(usage) => Execution(Success(Classify(request, p.output.value, usage)), trace)
  }

  /** `run`: preparation, the compile phase and the run phase. */
  function Run(env: Env, runners: Runners, request: Schema.RunnerRequest, option: RunnerOption, w: World): Execution {
    var runner := Get(runners, request.lang);
    var dir := Workspace(w);
    Compose(Prepare(runner, request.code, w),
            CompilePhase(env, runner, request.lang, option, dir, w.compile),
            RunPhase(env, runner, request, dir, w.run))
  }

  /** The phases in order, each able to end the run: later phases only
      count when the earlier ones handed on. */
  function Compose(p: PhaseEnd, c: PhaseEnd, r: Execution): (e: Execution)
    ensures p.stop.Some? ==> e == Execution(p.stop.value, p.trace)
    ensures p.stop.None? && c.stop.Some? ==> e == Execution(c.stop.value, p.trace + c.trace)
    ensures p.stop.None? && c.stop.None? ==> e == Execution(r.result, p.trace + c.trace + r.trace)
  {
    if p.stop.Some? then Execution(p.stop.value, p.trace)
    else if c.stop.Some? then Execution(c.stop.value, p.trace + c.trace)
    else Execution(r.result, p.trace + c.trace + r.trace)
  }

  /** The HTTP handler's answer: the run's state, or an internal error for
      any failure. */
  function Respond(result: Result<Schema.RunnerState, Error>): (s: Schema.RunnerState)
    ensures s.InternalError? <==> result.Failure? || result.value.InternalError?
    ensures result.Success? ==> s == result.value
  {
    match result
    case Success(state) => state
    case Failure(_) => Schema.InternalError
  }

  /** The jobs a trace spawned, in order. */
  function Spawns(trace: seq<Action>): seq<Job> {
    if trace == [] then [] else SpawnOf(trace[0]) + Spawns(trace[1..])
  }

  function SpawnOf(a: Action): seq<Job> {
    if a.Spawn? then [a.job] else []
  }

  lemma {:induction false} SpawnsConcat(a: seq<Action>, b: seq<Action>)
    ensures Spawns(a + b) == Spawns(a) + Spawns(b)
    decreases |a|
  {
    if a == [] {
      assert a + b == b;
    } else {
      assert (a + b)[1..] == a[1..] + b;
      SpawnsConcat(a[1..], b);
      assert Spawns(a + b) == SpawnOf(a[0]) + Spawns(a[1..] + b);
    }
  }

  lemma {:induction false} NoSpawns(trace: seq<Action>)
    requires forall i | 0 <= i < |trace| :: !trace[i].Spawn?
    ensures Spawns(trace) == []
    decreases |trace|
  {
    if trace != [] {
      NoSpawns(trace[1..]);
    }
  }

  lemma OneSpawn(job: Job, rest: seq<Action>)
    requires forall i | 0 <= i < |rest| :: !rest[i].Spawn?
    ensures Spawns([Spawn(job)] + rest) == [job]
  {
    SpawnsConcat([Spawn(job)], rest);
    NoSpawns(rest);
    assert Spawns([Spawn(job)]) == [job] + Spawns([]);
  }

  /** The compile phase spawns the compile job exactly when there is a
      compile command, and nothing else. */
  lemma CompilePhaseSpawns(env: Env, runner: LangRunner, lang: Language, option: RunnerOption, dir: string, p: CompileWorld)
    ensures var c := CompilePhase(env, runner, lang, option, dir, p);
      && (CompileCmd(runner).None? ==> c == PhaseEnd(None, []))
      && (CompileCmd(runner).Some? ==> Spawns(c.trace) == [Job(CompileSandbox(env, runner, lang, option, dir), CompileCmd(runner).value)])
      && (c.stop.Some? && c.stop.value.Success? ==>
            && p.output.Success? && !Succeeded(p.output.value.status)
            && c.stop.value.value == Schema.CompileError(p.output.value.stderr))
  {
    var c := CompilePhase(env, runner, lang, option, dir, p);
    if CompileCmd(runner).Some? {
      var job := Job(CompileSandbox(env, runner, lang, option, dir), CompileCmd(runner).value);
      assert c == CompileJob(job, dir, p);
      CompileJobShape(job, dir, p);
      OneSpawn(job, c.trace[1..]);
      assert c.trace == [c.trace[0]] + c.trace[1..];
    }
  }

  /** A compile job's trace opens with its spawn and spawns nothing else; it
      can stop successfully only with the failed compiler's error output. */
  lemma CompileJobShape(job: Job, dir: string, p: CompileWorld)
    ensures var c := CompileJob(job, dir, p);
      && |c.trace| >= 1 && c.trace[0] == Spawn(job)
      && (forall i | 1 <= i < |c.trace| :: !c.trace[i].Spawn?)
      && (c.stop.Some? && c.stop.value.Success? ==>
            && p.output.Success? && !Succeeded(p.output.value.status)
            && c.stop.value.value == Schema.CompileError(p.output.value.stderr))
  {
  }

  /** The run phase spawns the run job and nothing else. */
  lemma RunPhaseSpawns(env: Env, runner: LangRunner, request: Schema.RunnerRequest, dir: string, p: RunWorld)
    ensures Spawns(RunPhase(env, runner, request, dir, p).trace) == [Job(RunSandbox(env, runner, request, dir), RunText(runner, request.code))]
  {
    var t := RunPhase(env, runner, request, dir, p).trace;
    OneSpawn(Job(RunSandbox(env, runner, request, dir), RunText(runner, request.code)), t[1..]);
    assert t == [t[0]] + t[1..];
  }

  /** The compile phase does not depend on what a readable report says. */
  lemma CompilePhaseIgnoresUsage(env: Env, runner: LangRunner, lang: Language, option: RunnerOption, dir: string, p: CompileWorld, report: Result<string, IoError>)
    requires Read(p.report).Success? && Read(report).Success?
    ensures CompilePhase(env, runner, lang, option, dir, p.(report := report)) == CompilePhase(env, runner, lang, option, dir, p)
  {
    if CompileCmd(runner).Some? {
      CompileJobIgnoresUsage(Job(CompileSandbox(env, runner, lang, option, dir), CompileCmd(runner).value), dir, p, report);
    }
  }

  lemma CompileJobIgnoresUsage(job: Job, dir: string, p: CompileWorld, report: Result<string, IoError>)
    requires Read(p.report).Success? && Read(report).Success?
    ensures CompileJob(job, dir, p.(report := report)) == CompileJob(job, dir, p)
  {
  }

  /** The preparation that lets a run go on to its compile and run phases. */
  predicate Prepared(runner: LangRunner, w: World) {
    w.createDir.Pass? && w.chown.Pass? && (FileName(runner).Some? ==> w.writeSource.Pass?)
  }

  lemma PrepareSpec(runner: LangRunner, code: string, w: World)
    ensures Prepare(runner, code, w).stop.None? <==> Prepared(runner, w)
    ensures Spawns(Prepare(runner, code, w).trace) == []
    ensures Prepare(runner, code, w).stop.Some? ==> Prepare(runner, code, w).stop.value.Failure?
  {
    NoSpawns(Prepare(runner, code, w).trace);
  }

  /** A run that succeeds measured at most the request's limits, and reports
      the program's own output, exit and measurements. */
  lemma SuccessWithinLimits(env: Env, runners: Runners, request: Schema.RunnerRequest, option: RunnerOption, w: World)
    requires Run(env, runners, request, option, w).result.Success?
    requires Run(env, runners, request, option, w).result.value.Success?
    ensures var s := Run(env, runners, request, option, w).result.value;
      && s.maxMemoryUsage.bytes <= request.memoryLimit.bytes
      && s.msTimeElapsed.ms <= request.msTimeLimit.ms
      && w.run.output.Success? && Succeeded(w.run.output.value.status)
      && s.stdout == w.run.output.value.stdout
      && Read(w.run.report) == Success(Usage(s.maxMemoryUsage, s.msTimeElapsed))
  {
    var runner := Get(runners, request.lang);
    var dir := Workspace(w);
    var p := Prepare(runner, request.code, w);
    PrepareSpec(runner, request.code, w);
    var c := CompilePhase(env, runner, request.lang, option, dir, w.compile);
    CompilePhaseSpawns(env, runner, request.lang, option, dir, w.compile);
    var r := RunPhase(env, runner, request, dir, w.run);
    assert Run(env, runners, request, option, w) == Compose(p, c, r);
    assert p.stop.None? && c.stop.None?;
    RunPhaseSuccess(env, runner, request, dir, w.run);
  }

  /** The run phase succeeds only when the program exited successfully
      within both limits, with its output and measurements reported. */
  lemma RunPhaseSuccess(env: Env, runner: LangRunner, request: Schema.RunnerRequest, dir: string, p: RunWorld)
    requires RunPhase(env, runner, request, dir, p).result.Success?
    requires RunPhase(env, runner, request, dir, p).result.value.Success?
    ensures var s := RunPhase(env, runner, request, dir, p).result.value;
      && s.maxMemoryUsage.bytes <= request.memoryLimit.bytes
      && s.msTimeElapsed.ms <= request.msTimeLimit.ms
      && p.output.Success? && Succeeded(p.output.value.status)
      && s.stdout == p.output.value.stdout
      && Read(p.report) == Success(Usage(s.maxMemoryUsage, s.msTimeElapsed))
  {
  }

  /** The source is written into the working directory under the recipe's
      file name exactly when the recipe has one; nothing is written otherwise. */
  lemma SourceWrittenIffFileName(env: Env, runners: Runners, request: Schema.RunnerRequest, option: RunnerOption, w: World)
    requires w.createDir.Pass? && w.chown.Pass?
    ensures var e := Run(env, runners, request, option, w);
      var runner := Get(runners, request.lang);
      && (FileName(runner).Some? ==>
            |e.trace| > 2 && e.trace[2] == WriteFile(JoinPath(Workspace(w), FileName(runner).value), request.code))
      && (FileName(runner).None? ==> forall i | 0 <= i < |e.trace| :: !e.trace[i].WriteFile?)
  {
    var runner := Get(runners, request.lang);
    var dir := Workspace(w);
    var p := Prepare(runner, request.code, w);
    var c := CompilePhase(env, runner, request.lang, option, dir, w.compile);
    var r := RunPhase(env, runner, request, dir, w.run);
    if FileName(runner).None? {
      AccessorsAgree(runner);
      assert c.trace == [];
      var e := Run(env, runners, request, option, w);
      assert e.trace == p.trace + c.trace + r.trace;
      assert forall i | 0 <= i < |r.trace| :: !r.trace[i].WriteFile?;
    } else {
      assert p.trace[2] == WriteFile(JoinPath(dir, FileName(runner).value), request.code);
    }
  }

  /** Once prepared, the first sandbox spawned is the compile sandbox exactly
      when the recipe has a compile command; without one the only sandbox is
      the run sandbox. */
  lemma CompileRunsIffCompileCmd(env: Env, runners: Runners, request: Schema.RunnerRequest, option: RunnerOption, w: World)
    requires Prepared(Get(runners, request.lang), w)
    ensures var e := Run(env, runners, request, option, w);
      var runner := Get(runners, request.lang);
      && (CompileCmd(runner).Some? ==>
            |Spawns(e.trace)| >= 1
            && Spawns(e.trace)[0] == Job(CompileSandbox(env, runner, request.lang, option, Workspace(w)), CompileCmd(runner).value))
      && (CompileCmd(runner).None? ==>
            Spawns(e.trace) == [Job(RunSandbox(env, runner, request, Workspace(w)), RunText(runner, request.code))])
  {
    var runner := Get(runners, request.lang);
    var dir := Workspace(w);
    var p := Prepare(runner, request.code, w);
    PrepareSpec(runner, request.code, w);
    var c := CompilePhase(env, runner, request.lang, option, dir, w.compile);
    var r := RunPhase(env, runner, request, dir, w.run);
    CompilePhaseSpawns(env, runner, request.lang, option, dir, w.compile);
    RunPhaseSpawns(env, runner, request, dir, w.run);
    SpawnsConcat(p.trace, c.trace);
    SpawnsConcat(p.trace + c.trace, r.trace);
  }

  /** A compile error comes only from a compiled recipe whose compiler
      failed, carries the compiler's error output, and the program is never
      run. */
  lemma CompileErrorHaltsRun(env: Env, runners: Runners, request: Schema.RunnerRequest, option: RunnerOption, w: World)
    requires Run(env, runners, request, option, w).result.Success?
    requires Run(env, runners, request, option, w).result.value.CompileError?
    ensures var e := Run(env, runners, request, option, w);
      var runner := Get(runners, request.lang);
      && CompileCmd(runner).Some?
      && w.compile.output.Success? && !Succeeded(w.compile.output.value.status)
      && e.result.value.stderr == w.compile.output.value.stderr
      && Spawns(e.trace) == [Job(CompileSandbox(env, runner, request.lang, option, Workspace(w)), CompileCmd(runner).value)]
  {
    var runner := Get(runners, request.lang);
    var dir := Workspace(w);
    var e := Run(env, runners, request, option, w);
    var p := Prepare(runner, request.code, w);
    PrepareSpec(runner, request.code, w);
    var c := CompilePhase(env, runner, request.lang, option, dir, w.compile);
    var r := RunPhase(env, runner, request, dir, w.run);
    RunPhaseNeverCompileError(env, runner, request, dir, w.run);
    assert e == Compose(p, c, r);
    assert p.stop.None? && c.stop.Some?;
    CompilePhaseSpawns(env, runner, request.lang, option, dir, w.compile);
    SpawnsConcat(p.trace, c.trace);
  }

  /** The run phase never reports a compile error. */
  lemma RunPhaseNeverCompileError(env: Env, runner: LangRunner, request: Schema.RunnerRequest, dir: string, p: RunWorld)
    ensures var r := RunPhase(env, runner, request, dir, p).result;
      r.Success? ==> !r.value.CompileError? && !r.value.InternalError?
  {
  }

  /** Conversely, a compiler that ran, was measured and failed yields the
      compile error with its error output. */
  lemma FailedCompileIsCompileError(env: Env, runners: Runners, request: Schema.RunnerRequest, option: RunnerOption, w: World)
    requires Prepared(Get(runners, request.lang), w)
    requires CompileCmd(Get(runners, request.lang)).Some?
    requires w.compile.spawn.Pass? && w.compile.output.Success? && Read(w.compile.report).Success?
    requires !Succeeded(w.compile.output.value.status)
    ensures Run(env, runners, request, option, w).result == Success(Schema.CompileError(w.compile.output.value.stderr))
  {
    PrepareSpec(Get(runners, request.lang), request.code, w);
  }

  /** What the compile report says never changes the run's outcome or
      effects, as long as it can be read. */
  lemma CompileUsageIgnored(env: Env, runners: Runners, request: Schema.RunnerRequest, option: RunnerOption, w: World, report: Result<string, IoError>)
    requires Read(w.compile.report).Success? && Read(report).Success?
    ensures Run(env, runners, request, option, w.(compile := w.compile.(report := report))) == Run(env, runners, request, option, w)
  {
    var w' := w.(compile := w.compile.(report := report));
    var runner := Get(runners, request.lang);
    CompilePhaseIgnoresUsage(env, runner, request.lang, option, Workspace(w), w.compile, report);
  }

  /** The run sandbox's kill ceilings lie strictly above the limits the
      outcome is judged by: the whole seconds given to the launcher cover
      more than the time limit, and the cgroup ceiling is the memory limit
      plus 1 MiB (when these sums fit in 64 bits). */
  lemma RunCeilingsAboveLimits(env: Env, runner: LangRunner, request: Schema.RunnerRequest, dir: string)
    ensures var b := RunSandbox(env, runner, request, dir).core;
      && (request.msTimeLimit.ms + 1000 < U64_LIMIT ==>
            && Lookup(Options(b, env), TimeLimit).Some?
            && ParseU64(Lookup(Options(b, env), TimeLimit).value).Some?
            && ParseU64(Lookup(Options(b, env), TimeLimit).value).value * 1000 > request.msTimeLimit.ms)
      && (request.memoryLimit.bytes + MemorySize.MIB < U64_LIMIT ==>
            && Lookup(Options(b, env), CgroupMemMax).Some?
            && ParseU64(Lookup(Options(b, env), CgroupMemMax).value) == Some(request.memoryLimit.bytes + MemorySize.MIB)
            && request.memoryLimit.bytes < request.memoryLimit.bytes + MemorySize.MIB)
  {
    var b := RunSandbox(env, runner, request, dir).core;
    TimeCeiling(b, env, request.msTimeLimit);
    MemoryCeiling(b, env, request.memoryLimit);
  }

  lemma TimeCeiling(b: Builder, env: Env, limit: SchemaTime.MsTime)
    requires b.timeLimit == Some(SchemaTime.AddSeconds(limit, 1))
    ensures limit.ms + 1000 < U64_LIMIT ==>
      && Lookup(Options(b, env), TimeLimit).Some?
      && ParseU64(Lookup(Options(b, env), TimeLimit).value).Some?
      && ParseU64(Lookup(Options(b, env), TimeLimit).value).value * 1000 > limit.ms
  {
    TimeLimitOption(b, env);
  }

  lemma MemoryCeiling(b: Builder, env: Env, limit: MemorySize.Memory)
    requires b.memoryLimit == Some(AddMegabyte(limit))
    ensures limit.bytes + MemorySize.MIB < U64_LIMIT ==>
      && Lookup(Options(b, env), CgroupMemMax).Some?
      && ParseU64(Lookup(Options(b, env), CgroupMemMax).value) == Some(limit.bytes + MemorySize.MIB)
  {
    MemoryLimitOptions(b, env);
  }

  /** The compile sandbox is limited by the runner's options, whatever the
      request asks for. */
  lemma CompileLimitsFromOption(env: Env, runner: LangRunner, lang: Language, option: RunnerOption, dir: string)
    ensures var b := CompileSandbox(env, runner, lang, option, dir).core;
      && Lookup(Options(b, env), TimeLimit) == Some(ShowNat(SchemaTime.AsSecondsCeil(option.compileTimeLimit)))
      && Lookup(Options(b, env), CgroupMemMax).Some?
      && ParseU64(Lookup(Options(b, env), CgroupMemMax).value) == Some(option.compileMemoryLimit.bytes)
      && Lookup(Options(b, env), Chroot) == Some(dir)
  {
    var b := CompileSandbox(env, runner, lang, option, dir).core;
    assert b.timeLimit == Some(option.compileTimeLimit);
    assert b.memoryLimit == Some(option.compileMemoryLimit);
    assert b.cwd == Some(dir);
    TimeLimitOption(b, env);
    MemoryLimitOptions(b, env);
    ChrootOption(b, env);
  }

  /** The wrapper's arguments come first, whatever follows them. */
  lemma WrapperOutputFirst(rest: seq<string>)
    ensures OutputFile(WrapperArgs() + rest) == Some(TIME_TXT)
  {
    var args := WrapperArgs() + rest;
    assert args[0] == "--quiet" && args[1..][0] == "--format";
    assert args[1..][2..] == ["--output", TIME_TXT] + rest;
    assert OutputFile(args[1..][2..]) == Some(TIME_TXT);
    assert OutputFile(args[1..]) == OutputFile(args[1..][2..]);
  }

  /** A scripted sandbox runs the measuring wrapper in the working
      directory, writing the report `Read` reads; the launcher after it
      reads exactly the builder's options; and the shell script comes last,
      after the `--` that ends those options. */
  lemma ScriptedLaunch(env: Env, s: Sandbox, script: string, dir: string)
    requires s.wrapped == Some(Accounting.NewCmd(env)) && s.core.cwd == Some(dir)
    ensures var c := Scripted(Job(s, script), env).command;
      && c.program == env.timeCmd
      && c.currentDir == Some(dir)
      && OutputFile(c.args) == Some(TIME_TXT)
      && JoinPath(dir, TIME_TXT) == ReportPath(dir)
      && |c.args| > |WrapperArgs()| + 3
      && c.args[|WrapperArgs()|] == env.nsjailCmd
      && ReadOptions(c.args[|WrapperArgs()| + 1..]) == Options(s.core, env)
      && c.args[|c.args| - 3..] == [env.shCmd, "-c", script]
  {
    ScriptedArgs(env, s, script);
    var written := WriteArgs(s.core, env);
    var tail := [env.shCmd, "-c", script];
    var args := WrapperArgs() + ([env.nsjailCmd] + written + tail);
    WrapperOutputFirst([env.nsjailCmd] + written + tail);
    assert args[|WrapperArgs()|] == env.nsjailCmd;
    assert args[|WrapperArgs()| + 1..] == written + tail;
    assert args[|args| - 3..] == tail;
    LauncherReadsOptions(s.core, env, tail);
  }

  /** The arguments of a measured scripted launch: the wrapper's, then the
      launcher and its arguments, then the shell and its script. */
  lemma ScriptedArgs(env: Env, s: Sandbox, script: string)
    requires s.wrapped == Some(Accounting.NewCmd(env))
    ensures Scripted(Job(s, script), env).command.args ==
      WrapperArgs() + ([env.nsjailCmd] + WriteArgs(s.core, env) + [env.shCmd, "-c", script])
  {
    var a, n, w, t := WrapperArgs(), [env.nsjailCmd], WriteArgs(s.core, env), [env.shCmd, "-c", script];
    FinalizeWrapped(s, env);
    assert s.wrapped.value.args == a;
    assert Scripted(Job(s, script), env).command.args == (a + n + w) + t;
    assert (a + n + w) + t == a + (n + w + t);
  }

  /** Both sandboxes of a run are scripted launches in the working directory. */
  lemma SandboxesMeasured(env: Env, runner: LangRunner, request: Schema.RunnerRequest, option: RunnerOption, dir: string)
    ensures CompileSandbox(env, runner, request.lang, option, dir).wrapped == Some(Accounting.NewCmd(env))
    ensures CompileSandbox(env, runner, request.lang, option, dir).core.cwd == Some(dir)
    ensures RunSandbox(env, runner, request, dir).wrapped == Some(Accounting.NewCmd(env))
    ensures RunSandbox(env, runner, request, dir).core.cwd == Some(dir)
    ensures HookOf(OptionOf(runner).moreCompile) == CompileSandbox(env, runner, request.lang, option, dir).directives[9..]
    ensures HookOf(OptionOf(runner).moreRun) == RunSandbox(env, runner, request, dir).directives[3..]
  {
  }

  /** A failure to make or hand over the working directory ends the run at
      once with that error. */
  lemma WorkspaceFailureStops(env: Env, runners: Runners, request: Schema.RunnerRequest, option: RunnerOption, w: World)
    ensures w.createDir.Fail? ==>
      Run(env, runners, request, option, w) == Execution(Failure(IO(w.createDir.error)), [CreateDir(Workspace(w))])
    ensures w.createDir.Pass? && w.chown.Fail? ==>
      Run(env, runners, request, option, w) == Execution(Failure(IO(w.chown.error)), [CreateDir(Workspace(w)), Chown(Workspace(w))])
  {
  }

  /** A run that gets as far as its own process fails with the first error
      among spawning, the input pipe, writing the input, waiting and reading
      the report, and otherwise is classified from what was measured. */
  lemma RunPhaseOutcome(env: Env, runner: LangRunner, request: Schema.RunnerRequest, dir: string, p: RunWorld)
    ensures var r := RunPhase(env, runner, request, dir, p).result;
      && (p.spawn.Fail? ==> r == Failure(IO(p.spawn.error)))
      && (p.spawn.Pass? && !p.stdinOpen ==> r == Failure(IO(STDIN_ERROR)))
      && (p.spawn.Pass? && p.stdinOpen && p.stdinWrite.Fail? ==> r == Failure(IO(p.stdinWrite.error)))
      && (p.spawn.Pass? && p.stdinOpen && p.stdinWrite.Pass? && p.output.Failure? ==> r == Failure(IO(p.output.error)))
      && (p.spawn.Pass? && p.stdinOpen && p.stdinWrite.Pass? && p.output.Success? ==>
            r == match Read(p.report)
                 case Failure(e) => Failure(IO(e))
                 case Success(usage) => Success(Classify(request, p.output.value, usage)))
  {
  }

  /** The answer sent back is an internal error exactly when the run failed;
      otherwise it is the run's own state. */
  lemma RespondToRun(env: Env, runners: Runners, request: Schema.RunnerRequest, option: RunnerOption, w: World)
    ensures var result := Run(env, runners, request, option, w).result;
      && (Respond(result).InternalError? <==> result.Failure?)
      && (result.Success? ==> Respond(result) == result.value)
  {
    var runner := Get(runners, request.lang);
    var dir := Workspace(w);
    var p := Prepare(runner, request.code, w);
    PrepareSpec(runner, request.code, w);
    var c := CompilePhase(env, runner, request.lang, option, dir, w.compile);
    CompilePhaseSpawns(env, runner, request.lang, option, dir, w.compile);
    var r := RunPhase(env, runner, request, dir, w.run);
    RunPhaseNeverCompileError(env, runner, request, dir, w.run);
    assert Run(env, runners, request, option, w) == Compose(p, c, r);
  }
}

=== FILE: registry.dfy ===
/** The per-language recipes (`LangRunner`): what file the source goes to,
    whether and how it is compiled, how it is run, and which extra sandbox
    directives each phase gets; and the table of recipes, one per language
    (`Runners`), whose construction can fail because the Go recipe has to
    warm its build cache first. */
module Registry {
  import opened Wrappers
  import opened Lang
  import opened NsJail

  /** Extra directives a recipe adds to a phase's sandbox (the source's
      `fn(&mut NsJailBuilder)` hooks, given here by what they append). */
  datatype LangRunnerOption = LangRunnerOption(moreCompile: Option<seq<Directive>>, moreRun: Option<seq<Directive>>)

  /** `LangRunnerOption::default()`: no hooks. */
  function DefaultOption(): (o: LangRunnerOption)
    ensures o.moreCompile.None? && o.moreRun.None?
  {
    LangRunnerOption(None, None)
  }

  /** A language's recipe: compiled, interpreted from a file, or run from a
      command line built from the code itself. */
  datatype LangRunner =
    | WithCompile(fileName: string, compileCmd: string, runCmd: string, option: LangRunnerOption)
    | WithoutCompile(fileName: string, runCmd: string, option: LangRunnerOption)
    | Inline(render: string -> string, option: LangRunnerOption)

  /** How the run phase's command line is obtained. */
  datatype RunCommand = WithCode(render: string -> string) | Static(cmd: string)

  /** `LangRunner::file_name`: the file the source is written to, absent only
      for inline recipes. */
  function FileName(r: LangRunner): (f: Option<string>)
    ensures f.Some? <==> !r.Inline?
    ensures f.Some? ==> f.value == r.fileName
  {
    match r
    case WithCompile(fileName, _, _, _) => Some(fileName)
    case WithoutCompile(fileName, _, _) => Some(fileName)
    case Inline(_, _) => None
  }

  /** `LangRunner::compile_cmd`: present exactly for compiled recipes. */
  function CompileCmd(r: LangRunner): (c: Option<string>)
    ensures c.Some? <==> r.WithCompile?
    ensures c.Some? ==> c.value == r.compileCmd
  {
    match r
    case WithCompile(_, compileCmd, _, _) => Some(compileCmd)
    case WithoutCompile(_, _, _) => None
    case Inline(_, _) => None
  }

  /** `LangRunner::run_cmd`: built from the code exactly for inline recipes,
      otherwise the recipe's fixed command unchanged. */
  function RunCmd(r: LangRunner): (c: RunCommand)
    ensures c.WithCode? <==> r.Inline?
    ensures c.WithCode? ==> c.render == r.render
    ensures c.Static? ==> c.cmd == r.runCmd
  {
    match r
    case WithCompile(_, _, runCmd, _) => Static(runCmd)
    case WithoutCompile(_, runCmd, _) => Static(runCmd)
    case Inline(render, _) => WithCode(render)
  }

  /** `LangRunner::option`: the recipe's own hooks, whatever the variant. */
  function OptionOf(r: LangRunner): (o: LangRunnerOption)
    ensures o == r.option
  {
    match r
    case WithCompile(_, _, _, option) => option
    case WithoutCompile(_, _, option) => option
    case Inline(_, option) => option
  }

  /** How the accessors relate: a recipe that compiles also writes a file,
      and a recipe writes a file exactly when its run command is fixed. */
  lemma AccessorsAgree(r: LangRunner)
    ensures CompileCmd(r).Some? ==> FileName(r).Some?
    ensures FileName(r).Some? <==> RunCmd(r).Static?
    ensures FileName(r).None? ==> CompileCmd(r).None?
  {
  }

  /** `rust()`. */
  function Rust(): LangRunner {
    WithCompile("main.rs", "rustc -O main.rs -o main", "./main", DefaultOption())
  }

  /** `python()`. */
  function Python(): LangRunner {
    WithoutCompile("main.py", "python main.py", DefaultOption())
  }

  /** The shared Go build cache. */
  const GOCACHE: string := "/go-cache"

  /** The directives Go's compile hook adds: the cache location in the
      environment and the cache mounted writable. */
  const GO_COMPILE_HOOK: seq<Directive> := [SetEnv("GOCACHE", GOCACHE), MountRw(GOCACHE)]

  /** `go()`, given how its build-cache warm-up went: a failed warm-up is the
      recipe's failure, otherwise the compiled Go recipe. */
  function Go(warmup: Outcome<string>): Result<LangRunner, string> {
    match warmup
    case Fail(message) => Failure(message)
    case Pass => Success(WithCompile("main.go", "go build -o main main.go", "./main", LangRunnerOption(Some(GO_COMPILE_HOOK), None)))
  }

  /** Rust compiles `main.rs` with optimisations into `./main`, which it runs;
      no hooks. */
  lemma RustRecipe()
    ensures FileName(Rust()) == Some("main.rs")
    ensures CompileCmd(Rust()) == Some("rustc -O main.rs -o main")
    ensures RunCmd(Rust()) == Static("./main")
    ensures OptionOf(Rust()) == DefaultOption()
  {
  }

  /** Python is not compiled; it runs `main.py` with the interpreter; no hooks. */
  lemma PythonRecipe()
    ensures FileName(Python()) == Some("main.py")
    ensures CompileCmd(Python()) == None
    ensures RunCmd(Python()) == Static("python main.py")
    ensures OptionOf(Python()) == DefaultOption()
  {
  }

  /** After a successful warm-up, Go builds `main.go` into `./main` with the
      shared cache set and mounted writable while compiling, and adds nothing
      to the run phase. */
  lemma GoRecipe(warmup: Outcome<string>)
    ensures Go(warmup).Success? <==> warmup.Pass?
    ensures warmup.Fail? ==> Go(warmup) == Failure(warmup.error)
    ensures warmup.Pass? ==>
      var r := Go(warmup).value;
      && FileName(r) == Some("main.go")
      && CompileCmd(r) == Some("go build -o main main.go")
      && RunCmd(r) == Static("./main")
      && OptionOf(r).moreCompile == Some([SetEnv("GOCACHE", "/go-cache"), MountRw("/go-cache")])
      && OptionOf(r).moreRun == None
  {
  }

  /** `lang_into_runner`: each language's recipe; only Go's can fail. */
  function LangIntoRunner(lang: Language, goWarmup: Outcome<string>): Result<LangRunner, string> {
    match lang
    case Rust1_82 => Success(Rust())
    case Go1_23 => Go(goWarmup)
    case Python3_13 => Success(Python())
  }

  /** The recipe table, one entry per language. */
  datatype Runners = Runners(rust: LangRunner, go: LangRunner, python: LangRunner)

  /** `Runners::get`. */
  function Get(runners: Runners, lang: Language): LangRunner {
    match lang
    case Rust1_82 => runners.rust
    case Go1_23 => runners.go
    case Python3_13 => runners.python
  }

  /** `Runners::new`: builds every language's recipe in declaration order and
      stops at the first failure, reporting the language it failed for. */
  function NewRunners(goWarmup: Outcome<string>): Result<Runners, (Language, string)> {
    var rust := LangIntoRunner(Rust1_82, goWarmup);
    var go := LangIntoRunner(Go1_23, goWarmup);
    var python := LangIntoRunner(Python3_13, goWarmup);
    if rust.Failure? then Failure((Rust1_82, rust.error))
    else if go.Failure? then Failure((Go1_23, go.error))
    else if python.Failure? then Failure((Python3_13, python.error))
    else Success(Runners(rust.value, go.value, python.value))
  }

  /** The table is built exactly when every language's recipe is; it then
      answers every language with that language's recipe, and otherwise names
      the language whose recipe failed, with its error. */
  lemma NewRunnersSpec(goWarmup: Outcome<string>)
    ensures NewRunners(goWarmup).Success? <==> forall lang :: LangIntoRunner(lang, goWarmup).Success?
    ensures NewRunners(goWarmup).Success? ==>
      forall lang :: Get(NewRunners(goWarmup).value, lang) == LangIntoRunner(lang, goWarmup).value
    ensures NewRunners(goWarmup).Failure? ==>
      var (lang, message) := NewRunners(goWarmup).error;
      LangIntoRunner(lang, goWarmup) == Failure(message)
  {
    if goWarmup.Fail? {
      assert LangIntoRunner(Go1_23, goWarmup).Failure?;
    }
  }

  /** Only the Go warm-up can stop the table being built. */
  lemma OnlyGoCanFail(goWarmup: Outcome<string>)
    ensures NewRunners(goWarmup).Success? <==> goWarmup.Pass?
    ensures goWarmup.Fail? ==> NewRunners(goWarmup) == Failure((Go1_23, goWarmup.error))
  {
  }

  /** In a built table every language writes its source to a file, Rust and
      Go compile, and Python does not. */
  lemma TableRecipes(runners: Runners, goWarmup: Outcome<string>)
    requires NewRunners(goWarmup) == Success(runners)
    ensures forall lang :: FileName(Get(runners, lang)).Some? && !Get(runners, lang).Inline?
    ensures CompileCmd(Get(runners, Rust1_82)).Some? && CompileCmd(Get(runners, Go1_23)).Some?
    ensures CompileCmd(Get(runners, Python3_13)).None?
  {
  }
}

=== FILE: schema.dfy ===
/** The request/response schema shared by the web front end and the runner:
    the request and the judged outcome. */
module Schema {
  import opened Wrappers
  import opened Ints
  import opened MemorySize
  import opened SchemaTime
  import opened Lang

  /** One judging request. */
  datatype RunnerRequest = RunnerRequest(
    lang: Language,
    code: string,
    msTimeLimit: MsTime,
    memoryLimit: Memory,
    stdin: string)

  /** The judged outcome of one request. */
  datatype RunnerState =
    | Success(stdout: string, maxMemoryUsage: Memory, msTimeElapsed: MsTime)
    | RuntimeError(stderr: string, exitCode: i32, maxMemoryUsage: Memory, msTimeElapsed: MsTime)
    | Timeout(msTimeElapsed: MsTime)
    | MemoryLimit(maxMemoryUsage: Memory)
    | CompileError(stderr: string)
    | InternalError
}

=== FILE: text.dfy ===
/** Character-level helpers: digits, UTF-8 byte length, and the splitting
    functions of Rust's `str` (`split` on one character and `lines`). */
module Text {

  predicate IsDigit(c: char) {
    '0' <= c <= '9'
  }

  predicate AllDigits(s: string) {
    forall i | 0 <= i < |s| :: IsDigit(s[i])
  }

  predicate IsAscii(c: char) {
    c as int < 0x80
  }

  predicate AllAscii(s: string) {
    forall i | 0 <= i < |s| :: IsAscii(s[i])
  }

  /** Number of bytes in the UTF-8 encoding of one Unicode scalar value. */
  function Utf8Width(c: char): (w: nat)
    ensures 1 <= w <= 4
    ensures w == 1 <==> IsAscii(c)
  {
    if c as int < 0x80 then 1
    else if c as int < 0x800 then 2
    else if c as int < 0x1_0000 then 3
    else 4
  }

  /** Rust's `str::len`: the length of the UTF-8 encoding, in bytes.
      It equals the number of characters exactly when all of them are ASCII. */
  function ByteLen(s: string): (n: nat)
    ensures n >= |s|
    ensures n == |s| <==> AllAscii(s)
    ensures n == 0 <==> s == []
  {
    if s == [] then 0
    else
      var init := s[..|s| - 1];
      var n := ByteLen(init) + Utf8Width(s[|s| - 1]);
      assert AllAscii(s) <==> AllAscii(init) && IsAscii(s[|s| - 1]) by {
        assert forall i | 0 <= i < |init| :: init[i] == s[i];
      }
      n
  }

  /** Position of the first occurrence of `c` in `s`. */
  function IndexOf(s: string, c: char): (i: nat)
    requires c in s
    ensures i < |s| && s[i] == c && c !in s[..i]
  {
    if s[0] == c then 0
    else
      var j := IndexOf(s[1..], c);
      assert s[1..][..j] == s[1..j + 1];
      1 + j
  }

  /** Concatenation of `parts` with `sep` between consecutive parts. */
  function Join(parts: seq<string>, sep: char): string
    requires |parts| >= 1
  {
    if |parts| == 1 then parts[0] else parts[0] + [sep] + Join(parts[1..], sep)
  }

  /** Rust's `str::split(sep)` for a single-character separator: the maximal
      pieces between separators, always at least one (possibly empty) piece. */
  function Split(s: string, sep: char): (parts: seq<string>)
    ensures |parts| >= 1
    ensures forall k | 0 <= k < |parts| :: sep !in parts[k]
    ensures Join(parts, sep) == s
    decreases |s|
  {
    if sep !in s then [s]
    else
      var i := IndexOf(s, sep);
      var rest := Split(s[i + 1..], sep);
      var parts := [s[..i]] + rest;
      assert parts[1..] == rest;
      assert s == s[..i] + [sep] + s[i + 1..];
      parts
  }

  /** The first separator of a joined sequence is the one after the first part. */
  lemma IndexOfJoin(parts: seq<string>, sep: char)
    requires |parts| >= 2
    requires sep !in parts[0]
    ensures sep in Join(parts, sep)
    ensures IndexOf(Join(parts, sep), sep) == |parts[0]|
  {
    var s := Join(parts, sep);
    assert s[..|parts[0]|] == parts[0];
    assert s[|parts[0]|] == sep;
  }

  /** Splitting undoes joining, whenever no part contains the separator. */
  lemma {:induction false} SplitJoin(parts: seq<string>, sep: char)
    requires |parts| >= 1
    requires forall k | 0 <= k < |parts| :: sep !in parts[k]
    ensures Split(Join(parts, sep), sep) == parts
    decreases |parts|
  {
    if |parts| > 1 {
      var s := Join(parts, sep);
      IndexOfJoin(parts, sep);
      var i := |parts[0]|;
      assert s[..i] == parts[0];
      assert s[i + 1..] == Join(parts[1..], sep);
      SplitJoin(parts[1..], sep);
    }
  }

  /** Removes one trailing carriage return. */
  function StripCr(line: string): string {
    if |line| > 0 && line[|line| - 1] == '\r' then line[..|line| - 1] else line
  }

  /** Rust's `str::lines`: split at each `\n`, drop one `\r` before each `\n`,
      and yield no empty final line for a trailing `\n`; a bare `\r` that ends
      an unterminated final line is kept. */
  function Lines(s: string): (ls: seq<string>)
    ensures forall k | 0 <= k < |ls| :: '\n' !in ls[k]
    ensures ls == [] <==> s == []
    decreases |s|
  {
    if s == [] then []
    else if '\n' !in s then [s]
    else
      var i := IndexOf(s, '\n');
      assert '\n' !in StripCr(s[..i]) by {
        if |s[..i]| > 0 && s[..i][|s[..i]| - 1] == '\r' {
          assert forall j | 0 <= j < i - 1 :: StripCr(s[..i])[j] == s[j];
        }
      }
      [StripCr(s[..i])] + Lines(s[i + 1..])
  }

  /** Reading lines off a text whose first line is `line` and is `\n`-terminated. */
  lemma LinesCons(line: string, rest: string)
    requires '\n' !in line
    ensures Lines(line + "\n" + rest) == [StripCr(line)] + Lines(rest)
  {
    var s := line + "\n" + rest;
    assert Join([line, rest], '\n') == s;
    IndexOfJoin([line, rest], '\n');
    assert s[..|line|] == line;
    assert s[|line| + 1..] == rest;
  }

  /** Every line of a text made of `\n`-terminated lines is read back. */
  function Terminated(ls: seq<string>): string {
    if ls == [] then "" else ls[0] + "\n" + Terminated(ls[1..])
  }

  lemma {:induction false} LinesOfTerminated(ls: seq<string>)
    requires forall k | 0 <= k < |ls| :: '\n' !in ls[k] && StripCr(ls[k]) == ls[k]
    ensures Lines(Terminated(ls)) == ls
    decreases |ls|
  {
    if ls != [] {
      LinesCons(ls[0], Terminated(ls[1..]));
      LinesOfTerminated(ls[1..]);
    }
  }
}

=== FILE: wrappers.dfy ===
/** Failure-carrying datatypes shared by every module of the model. */
module Wrappers {

  /** A value that may be absent (Rust's `Option`). */
  datatype Option<+T> = None | Some(value: T)

  /** A value or an error (Rust's `Result`). */
  datatype Result<+T, +E> = Success(value: T) | Failure(error: E)

  /** Success or an error, with no value (Rust's `Result<(), E>`). */
  datatype Outcome<+E> = Pass | Fail(error: E)

  /** The result of code that may abort the thread: either it returns, or it panics. */
  datatype Panicking<+T> = Returns(value: T) | Panics
}
